=== FILE: README.md ===
# TailorReach core, modelled in Dafny

TailorReach is a small CRM for sellers: customers, products and campaigns
live in a hosted database, one table per kind and seller. A language model
scores how interested each customer is in a product or campaign and drafts
personalised messages. A short onboarding conversation records the seller's
profession and writing style. This project models the parts of the
application that are plain sequential logic, and proves properties of them:

- **The two analysis routes** (`ProductInterestRoute`, `CampaignInterestRoute`,
  with the text handling in `Score`):
  - request validation, and the 400/404/500 answers;
  - the per-customer prompt;
  - the score, which is the leftmost `\d+(\.\d+)?` of the completion or a
    random fallback, clamped to [0,100];
  - the two different ways the reason is stripped of numbers;
  - the per-customer error result.
- **The database helpers** (`Datastore`):
  - tables named `kind-userid`;
  - reads, updates and deletes filtered on key and `userid`;
  - inserts;
  - the activity append and the customer-list merges;
  - the rounded mean written as `likeestimate`.
- **Selection** (`Selection`, `NewProductPage`, `NewCampaignPage`):
  - merging analysis results onto customers;
  - colour bands;
  - auto-selection at 50;
  - per-id toggle and select-all;
  - the payload of "continue";
  - the two page loaders and their error paths.
- **Messages** (`MessageRoute`, `MessagePage`):
  - the generate-message prompt, and the email subject/content split;
  - bulk generation, regenerate, edit and the editor round trip;
  - send and send-all;
  - the clipboard text.
- **List pages** (`ActivitySheet`, `ProductsPage`, `CustomersPage`,
  `CampaignsPage`, `Breadcrumb`):
  - the activity filter and the newest-first sort;
  - the "Subject:" display;
  - the estimate gauge and the new-product id;
  - the campaign product column, the `no_product` sentinel, and the shaping
    of campaign records;
  - the breadcrumb trail.
- **Onboarding** (`ChatRoute`, `SaveUserRoute`, `HomePage`, `Onboarding`):
  - profession extraction and message forwarding in the chat route;
  - the check order of the save-user-data route;
  - the home page's gate;
  - the onboarding dialog's steps and request order.

The outside services are oracles. The model answers are `Option` values:
`None` is a thrown call. The random fallbacks are a function of the
customer's position, each value in [0,100). The database is a map from
table name to a sequence of JSON rows. Session data and tokens are
parameters. Numbers are exact reals, and `Math.round` is `Floor(x + 1/2)`.
Dates are integer timestamps, and every date formatter is an uninterpreted
function parameter.

Each operation's contract states what the application promises. Lemmas
relate operations to their partners:

- the editor's join and split form a round trip;
- the chat route recovers the profession that the onboarding dialog embeds;
- a breadcrumb link, followed, gives back the trail up to that crumb;
- a second update or delete changes nothing;
- a merge keeps earlier entries in place.

## Model

| member | source | states |
|---|---|---|
| Score.DigitRun | src/app/api/analyze-customer-interest/route.ts:67 | the length of the leading run of digits: everything before it is a digit, and the character after it is not |
| Score.NumberAt | src/app/api/analyze-customer-interest/route.ts:67 | the greedy `\d+(\.\d+)?` match at a digit: a whole digit run, extended by a point only when a digit follows it, ending before a non-digit |
| Score.NumberValue | src/app/api/analyze-customer-interest/route.ts:67-68 | the value of the leading number is non-negative and at least its whole part |
| Score.NumberValueOfDecimal | src/app/api/analyze-customer-interest/route.ts:67-68 | for digits d, a point and digits f followed by a non-digit, the value is d plus f divided by ten to the length of f |
| Score.FirstDigit | src/app/api/analyze-customer-interest/route.ts:67 | the position of the leftmost digit, and no digit before it; none exactly when the text has no digit |
| Score.Clamp | src/app/api/analyze-customer-interest/route.ts:74 | the result lies in [0,100], equals the input inside that range, and is the nearer bound outside it |
| Score.ParseLikelihood | src/app/api/analyze-customer-interest/route.ts:66-68 | the likelihood is in [0,100]: the fallback when the text has no digit, otherwise the clamped value of the leftmost number |
| Score.PercentTokenAt | src/app/api/analyze-customer-interest/route.ts:69 | a `\d+(\.\d+)?%` token at the start is exactly the greedy number followed by `%` |
| Score.StripPercentTokens | src/app/api/analyze-customer-interest/route.ts:69 | the global removal of percentage tokens never lengthens the text |
| Score.StripPercentTokensDeletes | src/app/api/analyze-customer-interest/route.ts:69 | removal only deletes characters: the result's characters are a sub-multiset of the input's |
| Score.StripPercentTokensWithoutPercent | src/app/api/analyze-customer-interest/route.ts:69 | a text without `%` is left unchanged, so bare numbers stay in the reason |
| Score.StripPercentTokensKeepsDigitFreePrefix | src/app/api/analyze-customer-interest/route.ts:69 | a digit-free prefix passes through the removal untouched |
| Score.DecimalPercentage | src/app/api/analyze-customer-interest/route.ts:69 | a decimal percentage `d.f%` at the front is removed, and the rest of the text is stripped as on its own |
| Score.BareNumberKept | src/app/api/analyze-customer-interest/route.ts:69 | a bare number followed by a character that is not a digit, `.` or `%` is kept, and the text after it is stripped as on its own |
| Score.StripFirstNumber | src/app/api/analyze-customer-interest-cam/route.ts:95 | a digit-free text is unchanged; otherwise exactly the leftmost number, digits and at most one point, plus one `%` right after it, is cut out, and the text before and after it is kept |
| Score.ProductReason | src/app/api/analyze-customer-interest/route.ts:69-75 | when the text without its percentages trims to something, that trimmed text is the reason; when it trims to nothing, the placeholder; never empty |
| Score.CampaignReason | src/app/api/analyze-customer-interest-cam/route.ts:95-101 | when the text without its first number trims to something, that trimmed text is the reason; when it trims to nothing, the placeholder; never empty |
| Score.LeadingPercentage | src/app/api/analyze-customer-interest/route.ts:66-69 | for a reply that opens with `n%`, the score is n capped at 100; the product route strips that token and the campaign route strips it too |
| Score.ProductVerdict | src/app/api/analyze-customer-interest/route.ts:66-84 | a thrown call gives likelihood 0 and the error reason; otherwise the parsed likelihood and the product reason; always in range and non-empty |
| Score.CampaignVerdict | src/app/api/analyze-customer-interest-cam/route.ts:92-111 | the same shape with the campaign route's first-number stripping |
| ProductInterestRoute.PromptLines | src/app/api/analyze-customer-interest/route.ts:44-56 | the prompt names the customer and product, and shows `None` for missing likes or dislikes and `Not provided` for a missing description |
| ProductInterestRoute.ResultFor | src/app/api/analyze-customer-interest/route.ts:66-84 | a result carries its customer's id and name, a likelihood in [0,100] and a non-empty reason; a completed call gives the likelihood parsed from its text and the product reason of that text; a thrown call gives the sentinel |
| ProductInterestRoute.AnalyzeAll | src/app/api/analyze-customer-interest/route.ts:42-84 | one result per customer, in customer order, with that customer's id and name, each in range; a completed call gives that customer the likelihood parsed from its text and the product reason; a thrown call gives the sentinel |
| ProductInterestRoute.FailureIsLocal | src/app/api/analyze-customer-interest/route.ts:77-84 | a customer's result depends on its own completion only, so another customer's failure cannot change it |
| ProductInterestRoute.Completions | src/app/api/analyze-customer-interest/route.ts:59-64 | one completion request per customer, in order, with that customer's prompt |
| ProductInterestRoute.Post | src/app/api/analyze-customer-interest/route.ts:28-93 | missing data gives 400 with nothing fetched; a throwing fetch gives 500; no customers gives 404; otherwise 200 with one result per customer |
| CampaignInterestRoute.DashLineNotProductLine | src/app/api/analyze-customer-interest-cam/route.ts:63-68 | a `- ` detail line is never one of the product-only lines |
| CampaignInterestRoute.FixedLinesNotProductLines | src/app/api/analyze-customer-interest-cam/route.ts:50-82 | no line that is independent of the product is a product-only line |
| CampaignInterestRoute.DateText | src/app/api/analyze-customer-interest-cam/route.ts:62 | a campaign date is shown as is, and a missing one as the text `null` |
| CampaignInterestRoute.PromptLines | src/app/api/analyze-customer-interest-cam/route.ts:50-82 | the prompt opens with the fixed heading, names the customer, its likes and dislikes or `None specified`, the campaign and its date; with a product it holds `Related Product:` and the product's name; the fifth factor exactly with a product; it ends with the fixed request |
| CampaignInterestRoute.RecordLinesNotProductLines | src/app/api/analyze-customer-interest-cam/route.ts:53-62 | the customer's and the campaign's lines are never the product heading or the product factor, whatever the records hold |
| CampaignInterestRoute.ProductSectionIffProduct | src/app/api/analyze-customer-interest-cam/route.ts:63-75 | the "Related Product" block and the fifth factor are in the prompt exactly when a product is supplied, and then so is its name |
| CampaignInterestRoute.ResultFor | src/app/api/analyze-customer-interest-cam/route.ts:92-111 | a result carries its customer's id and name, a likelihood in [0,100] and a non-empty reason; a completed call gives the likelihood parsed from its text and the campaign reason of that text; a thrown call gives the sentinel |
| CampaignInterestRoute.AnalyzeAll | src/app/api/analyze-customer-interest-cam/route.ts:48-111 | one result per customer, in order, with the customer's id and name, in range; a completed call gives the parsed likelihood and the campaign reason of its text; a thrown call gives the sentinel |
| CampaignInterestRoute.Completions | src/app/api/analyze-customer-interest-cam/route.ts:84-89 | one completion request per customer, in order, with that customer's prompt |
| CampaignInterestRoute.Post | src/app/api/analyze-customer-interest-cam/route.ts:36-118 | 400 without campaign, user or token (the product is optional) and nothing fetched; 500 on a throwing fetch; 404 without customers; otherwise one result per customer |
| Datastore.TableName | src/app/utils/supabaseRequests.ts:223 | a table's name is the kind, a dash and the seller id, and it ends in the seller id |
| Datastore.SelectAll | src/app/utils/supabaseRequests.ts:12-25 | an error exactly when the table is absent; otherwise the seller's rows of the table, each as many times as the table holds it, and no other row |
| Datastore.FetchAll | src/app/utils/supabaseRequests.ts:116-128 | null exactly when the table is absent; otherwise what the select gives: the seller's rows, each as many times as the table holds it, and no other row |
| Datastore.SelectSingle | src/app/utils/supabaseRequests.ts:78-83 | a row only when exactly one row matches key and seller, and then that row |
| Datastore.PatchRows | src/app/utils/supabaseRequests.ts:243-254 | matching rows take the patch's columns, every other row is unchanged, and the length is kept |
| Datastore.Update | src/app/utils/supabaseRequests.ts:37-48 | only the seller's table of that kind changes, and only on rows matching key and seller; an absent table is an error with nothing written |
| Datastore.UpdateIdempotent | src/app/utils/supabaseRequests.ts:153-164 | applying the same update twice leaves the store as applying it once, when the patch keeps the key and seller |
| Datastore.Delete | src/app/utils/supabaseRequests.ts:27-35 | removes every copy of the rows matching key and seller from that one table, keeps every other row with all its copies, and leaves every other table alone |
| Datastore.DeleteIdempotent | src/app/utils/supabaseRequests.ts:130-138 | a second delete of the same key changes nothing |
| Datastore.Insert | src/app/utils/supabaseRequests.ts:50-59 | appends the row to the seller's table and leaves every other table alone |
| Datastore.ListIn | src/app/utils/supabaseRequests.ts:91-94 | an absent or falsy column (null, `false`, `0`, empty text) reads as the empty list, a stored list as itself |
| Datastore.NewActivity | src/app/utils/supabaseRequests.ts:97-99 | the new entry keeps every supplied field and gains an `id`, which is the timestamp unless one was supplied |
| Datastore.CreateCustomerActivity | src/app/utils/supabaseRequests.ts:62-113 | a read error throws with nothing written; otherwise the list is written back with the new entry and that entry is returned |
| Datastore.CreateCustomerActivityAppends | src/app/utils/supabaseRequests.ts:97-112 | after success the customer's list is the previous list, or [], followed by exactly the returned activity |
| Datastore.OnlyTarget | src/app/utils/supabaseRequests.ts:78-83 | when a single-row read succeeds, every matching row is the row it returned |
| Datastore.AppendCustomers | src/app/utils/supabaseRequests.ts:183-190 | a read error is returned and nothing is written; otherwise the stored list becomes the old list followed by the incoming entries |
| Datastore.UpdateProductCustomers | src/app/utils/supabaseRequests.ts:280-318 | the product merge returns a read error without writing; when the product's row is read, its `customers` list becomes the stored list followed by the incoming entries |
| Datastore.UpdateCampaignCustomers | src/app/utils/supabaseRequests.ts:167-205 | the campaign merge returns a read error without writing; when the campaign's row is read, its `customers` list becomes the stored list followed by the incoming entries |
| Datastore.AppendCustomersKeepsPrefix | src/app/utils/supabaseRequests.ts:189-190 | a merge keeps every earlier entry in place and puts the incoming entries after them |
| Datastore.RoundIsNearest | src/app/utils/supabaseRequests.ts:348 | the rounding lands within one half of its argument |
| Datastore.SumBounds | src/app/utils/supabaseRequests.ts:347 | a sum of likelihoods in [0,100] lies between 0 and 100 times the count |
| Datastore.Estimate | src/app/utils/supabaseRequests.ts:347-348 | the rounded mean of the likelihoods; null exactly for an empty list |
| Datastore.EstimateInRange | src/app/utils/supabaseRequests.ts:347-348 | for a non-empty list of likelihoods in [0,100], the estimate is a whole number in [0,100] within one half of the mean |
| Datastore.EstimateExample | src/app/utils/supabaseRequests.ts:347-348 | 80, 60 and 40 give the estimate 60 |
| Datastore.UpdateProductLikelihood | src/app/utils/supabaseRequests.ts:338-361 | the write fails exactly when the seller's product table is absent, and then changes nothing; otherwise the rows with this id get the estimate of the likelihoods in `likeestimate`, every other column, row and table stays as it was |
| Datastore.UpdateCampaignLikelihood | src/app/utils/supabaseRequests.ts:363-386 | the write fails exactly when the seller's campaign table is absent, and then changes nothing; otherwise the rows with this uid get the estimate in `likeestimate`, every other column, row and table stays as it was |
| Datastore.LikelihoodWriteTouchesOnlyEstimate | src/app/utils/supabaseRequests.ts:351-355 | writing an estimate changes the `likeestimate` column of the matching rows and nothing else in the store |
| Selection.FindResult | src/app/products/new/page.tsx:95-102 | the first result with the customer's id, or none exactly when no result has it |
| Selection.MergeOne | src/app/products/new/page.tsx:95-102 | the merged entry keeps the customer; with a matching result it takes that likelihood and its reason, or `Analysis not available` when the reason is empty; without one, likelihood 0 and `Analysis not available` |
| Selection.Merge | src/app/products/new/page.tsx:94-102 | the same length and order as the customers, each merged on its own |
| Selection.MergeOfRouteResults | src/app/products/new/page.tsx:94-102 | with unique ids and the route's results in order, every customer gets its own result's likelihood and reason |
| Selection.ColourBands | src/app/products/new/page.tsx:143-147 | green exactly from 75, yellow exactly in [50,75), red exactly below 50 |
| Selection.AutoSelect | src/app/products/new/page.tsx:106-109 | every customer at 50 or above is selected, and every selected id belongs to such a customer |
| Selection.AutoSelectAppend | src/app/products/new/page.tsx:106-109 | auto-selection distributes over concatenation, so customer order is kept |
| Selection.AutoSelectedIffNotRed | src/app/products/new/page.tsx:106-109 | with unique ids, a customer is auto-selected exactly when its colour is not red |
| Selection.Toggle | src/app/products/new/page.tsx:149-155 | the id is selected after the toggle exactly when it was not before, and every other id keeps its membership; the products page (src/app/products/page.tsx:715-721) and the customers page (src/app/customers/page.tsx:608-614) toggle the same way |
| Selection.ToggleTwice | src/app/products/new/page.tsx:149-155 | toggling twice restores every membership |
| Selection.ToggleKeepsNoDup | src/app/products/new/page.tsx:149-155 | a repeat-free selection stays repeat-free |
| Selection.FilterKeepsNoDup | src/app/products/new/page.tsx:152 | removing entries keeps a list repeat-free |
| Selection.SelectAll | src/app/products/new/page.tsx:157-161 | clears when the counts agree and selects every id otherwise; the products and customers pages (src/app/products/page.tsx:723-727, src/app/customers/page.tsx:616-620) do the same |
| Selection.SelectAllClearsIffAllSelected | src/app/products/new/page.tsx:157-161 | for repeat-free selections of listed ids, select-all clears exactly when every id is selected |
| Selection.SelectAllCountsNotCovers | src/app/products/new/page.tsx:157-161 | a selection that repeats an id can clear the list while an id is unselected |
| Selection.Continue | src/app/products/new/page.tsx:163-182 | nothing with an empty selection; otherwise exactly the selected rows, in table order |
| Selection.ToContact | src/app/campaigns/new/page.tsx:201-217 | the contact carries the customer's id, name, email, likes, dislikes and preferences unchanged |
| Selection.ContinueCampaign | src/app/campaigns/new/page.tsx:190-226 | nothing with an empty selection; otherwise the selected rows, each projected to id, name, email, likes, dislikes and preferences |
| Seqs.Find | src/app/products/new/page.tsx:126 | `Array.prototype.find`: none exactly when no element passes, otherwise the element at the first passing index |
| NewProductPage.FindProduct | src/app/products/new/page.tsx:124-127 | the first product with that id, or none exactly when none has it |
| NewProductPage.LookupProduct | src/app/products/new/page.tsx:124-127 | none when the products could not be read or none has the id; otherwise the first listed product with that id |
| NewProductPage.Load | src/app/products/new/page.tsx:72-122 | loading always ends; each missing user, token, product, customer list or analysis gives its own toast; success merges, auto-selects and fetches in order |
| NewProductPage.LoadSelectsGreenAndYellow | src/app/products/new/page.tsx:106-109 | after a successful load a customer is pre-selected exactly when it is shown green or yellow |
| NewCampaignPage.FindCampaign | src/app/campaigns/new/page.tsx:95-96 | the first campaign with that uid, or none exactly when none has it |
| NewCampaignPage.LookupCampaign | src/app/campaigns/new/page.tsx:88-95 | none when the campaigns could not be read or none has the uid; otherwise the first listed campaign with that uid |
| NewCampaignPage.RequestAsWritten | src/app/campaigns/new/page.tsx:151-160 | the page's request carries the product state from before the load, not the product just found |
| NewCampaignPage.RequestWithLoadedProduct | src/app/campaigns/new/page.tsx:151-160 | the request carries the campaign and the product this load found |
| NewCampaignPage.Likelihoods | src/app/campaigns/new/page.tsx:120-125 | the merged list's likelihoods, in order |
| NewCampaignPage.Load | src/app/campaigns/new/page.tsx:79-160 | loading always ends and succeeds exactly when every step does; without a user or a token nothing is fetched; a failed load writes nothing; a successful load sends as its fourth call the analysis request holding the product state from before the load |
| NewCampaignPage.LoadCorrected | src/app/campaigns/new/page.tsx:79-160 | the same loader with the found product in the analysis request: same messages and failure cases, the corrected request as the fourth call |
| NewCampaignPage.CorrectionOnlyChangesRequest | src/app/campaigns/new/page.tsx:151-160 | the correction leaves state, store and every call but the analysis request as the page has them |
| NewCampaignPage.Lookups | src/app/campaigns/new/page.tsx:88-105 | after the three reads a missing campaign, product or customer list stops before any analysis, with its own message; a successful load asks for one analysis with the campaign it found, then writes the estimate |
| NewCampaignPage.Analyse | src/app/campaigns/new/page.tsx:102-131 | an empty customer list stops before the analysis; a failed analysis stops after it and writes nothing; otherwise the customers carry their scores, those at 50 or above are selected and the estimate of the merged list is written |
| NewCampaignPage.LoadWritesEstimateInRange | src/app/campaigns/new/page.tsx:120-125 | the estimate a successful load writes is a whole number in [0,100] |
| NewCampaignPage.FirstLoadSendsNoProduct | src/app/campaigns/new/page.tsx:99-116 | on the first load the loader's analysis request carries the found campaign but no product, although the load found one |
| NewCampaignPage.FirstLoadPromptHasNoProduct | src/app/campaigns/new/page.tsx:99-116 | so on the first load no customer's prompt mentions a product |
| NewCampaignPage.LoadedProductReachesPrompt | src/app/campaigns/new/page.tsx:151-160 | with the found product in the request, every prompt carries its block and name |
| NewCampaignPage.LoadPromptsCarryProduct | src/app/campaigns/new/page.tsx:99-116 | the analysis request of every successful corrected load carries the product the load found, and every prompt shows it |
| MessageRoute.PromptLines | src/app/api/generate-message/route.ts:36-56 | style and profession lines only when present, the history or `No previous conversations`, and the email instruction exactly for the `email` preference |
| MessageRoute.EmailParts | src/app/api/generate-message/route.ts:79-80 | the subject is the text up to the first newline, or the whole text; the content is the rest, trimmed, or empty |
| MessageRoute.Shape | src/app/api/generate-message/route.ts:76-82 | for `email` always a subject and content, both empty without content; otherwise the raw content |
| MessageRoute.Post | src/app/api/generate-message/route.ts:17-94 | a failed profile read answers 500 before any completion; otherwise the profile read and one completion with the fixed system text and the prompt, answered as `Respond` says; the answer is ok exactly when the read succeeds and a message can be shaped |
| MessageRoute.Respond | src/app/api/generate-message/route.ts:59-93 | a thrown completion, or a missing first choice outside `email`, answers 500 `Failed to generate message`; otherwise the shaped message with the seller's style, profile and history |
| MessagePage.Generated | src/app/products/new/message/page.tsx:211-229 | a failed request gives `Failed to generate message`, a successful one the route's message |
| MessagePage.GenerateAll | src/app/products/new/message/page.tsx:196-209 | only rows without a message are filled; other rows, length and order are kept |
| MessagePage.GenerateAllFillsEveryRow | src/app/products/new/message/page.tsx:196-209 | after bulk generation every row has a message, when successful replies carry one |
| MessagePage.ReplaceWhereUserId | src/app/products/new/message/page.tsx:244-250 | replaces exactly the rows whose `user_id` equals the key |
| MessagePage.ReplaceWhereId | src/app/products/new/message/page.tsx:244-250 | replaces exactly the rows with the given customer id |
| MessagePage.RegenerateAsWritten | src/app/products/new/message/page.tsx:231-263 | rows with another `user_id` are untouched |
| MessagePage.Regenerate | src/app/products/new/message/page.tsx:231-263 | only the target customer's row gets the new message |
| MessagePage.SavedMessage | src/app/products/new/message/page.tsx:277-285 | for `email` the text before the first blank line is the subject and the text after it the content, or the whole text is the subject with empty content when there is no blank line; otherwise the raw text |
| MessagePage.EditRoundTrip | src/app/products/new/message/page.tsx:267-282 | opening the editor on an email and saving it unchanged gives back the same email, when the subject has no blank line and does not end in a newline |
| MessagePage.PlainEditRoundTrip | src/app/products/new/message/page.tsx:267-285 | a plain message survives the editor for any preference but `email` |
| MessagePage.EditRoundTripNeedsCondition | src/app/products/new/message/page.tsx:267-282 | a subject ending in a newline does not survive the round trip |
| MessagePage.EditSubmitAsWritten | src/app/products/new/message/page.tsx:272-305 | rows with another `user_id` are untouched |
| MessagePage.EditSubmit | src/app/products/new/message/page.tsx:272-305 | only the edited customer's row changes, and it keeps its own fields |
| MessagePage.UserIdMatchesEveryRow | src/app/products/new/message/page.tsx:244-250 | rows carry no `user_id`, so an edit overwrites every row and a regeneration gives every row the new message |
| MessagePage.EditSubmitAsWrittenLosesCustomer | src/app/products/new/message/page.tsx:292-298 | one edit on two rows leaves both showing the first customer |
| MessagePage.Send | src/app/products/new/message/page.tsx:307-333 | refused exactly without a message; otherwise sent to the customer |
| MessagePage.SendAll | src/app/products/new/message/page.tsx:335-357 | sends, in order, exactly the rows that have a message, each to its own customer |
| MessagePage.CopyText | src/app/products/new/message/page.tsx:359-371 | nothing without a message; a plain text as is; an email without subject as its content |
| MessagePage.CopyIsLabelledEditText | src/app/products/new/message/page.tsx:369-370 | an email with a subject copies as `Subject: ` followed by the editor's text |
| ActivitySheet.Cleared | src/app/customers/page.tsx:132-136 | clearing resets the query to empty and both filters to `all` |
| ActivitySheet.KeepIsConjunction | src/app/customers/page.tsx:106-128 | the early return changes nothing: an activity passes exactly when search, status and type all match; a query matches exactly when one of the four fields contains it, ignoring case |
| ActivitySheet.KeepProductIsKeepOfAnyType | src/app/products/page.tsx:92-115 | the products page's filter is the customers page's filter with the type `all` |
| ActivitySheet.FilterActivities | src/app/customers/page.tsx:106-128 | the kept activities are a sub-multiset of the input and are exactly the ones that pass |
| ActivitySheet.InsertByDate | src/app/customers/page.tsx:129 | inserting into a newest-first list keeps it newest-first and adds exactly one element |
| ActivitySheet.SortByDate | src/app/customers/page.tsx:129 | the result is newest-first and a permutation of the input |
| ActivitySheet.InsertOnDate | src/app/customers/page.tsx:129 | insertion puts the new activity before the others of its date |
| ActivitySheet.SortIsStable | src/app/customers/page.tsx:129 | activities of the same date keep their relative order |
| ActivitySheet.SameElements | src/app/customers/page.tsx:129 | lists with equal multisets have the same elements |
| ActivitySheet.Shown | src/app/customers/page.tsx:106-130 | the shown list is newest-first, a sub-multiset of the activities, and holds exactly the ones that pass |
| ActivitySheet.ShownForProduct | src/app/products/page.tsx:92-117 | the products page shows what the customers page shows with the type `all` |
| ActivitySheet.ClearedShowsAll | src/app/customers/page.tsx:108 | after clearing the filters, every activity is shown |
| ActivitySheet.Transform | src/app/customers/page.tsx:412-416 | same length and order as the customer's list, or [] without one; each entry gains the customer's id and name and keeps everything else |
| ActivitySheet.SearchByOwnNameKeepsAll | src/app/customers/page.tsx:110-123 | searching a customer's sheet for part of their name keeps every activity |
| ActivitySheet.DisplayMessage | src/app/products/page.tsx:308-318 | a message with `Subject:` shows the text before its first blank line as heading and the text after it as body, or the whole message as heading when there is no blank line; any other message shows as is |
| ActivitySheet.LabelHasNoNewline | src/app/products/page.tsx:308-318 | the `Subject: ` label contains no newline |
| ActivitySheet.LabelKeepsEditable | src/app/products/page.tsx:308-318 | prefixing the label keeps a subject free of blank lines |
| ActivitySheet.DisplayOfCopiedEmail | src/app/products/page.tsx:308-318 | a copied email shows the labelled subject as heading and the content as body |
| ProductsPage.GaugeOf | src/app/products/page.tsx:137-145 | the gauge shows the estimate or 0, green exactly from 75, amber exactly in [50,75), red exactly below 50 |
| ProductsPage.GaugeMatchesSelectionColour | src/app/products/page.tsx:141-143 | the gauge's bands are the selection pages' colour bands |
| ProductsPage.NewProductId | src/app/products/page.tsx:681 | a new id is the decimal text of a whole number below 256, one to three digits long |
| ProductsPage.NewProductIdsCollide | src/app/products/page.tsx:681 | two different random draws can give the same id |
| CustomersPage.FormPreferenceNeverEmail | src/app/customers/page.tsx:799-801 | a preference picked in the form is never `email`, so a reply for that customer stays plain text |
| CampaignsPage.FindByText | src/app/campaigns/page.tsx:120-121 | the first product whose id, as text, equals the stored value; none without a stored value or a match |
| CampaignsPage.FindByTextIsFindById | src/app/campaigns/page.tsx:120-121 | looking up by the id's text is looking up by the id |
| CampaignsPage.ProductLabel | src/app/campaigns/page.tsx:119-123 | the product's name, or `No product selected` |
| CampaignsPage.ProductLabelOfListedId | src/app/campaigns/page.tsx:119-123 | with unique ids, a campaign pointing at a listed product shows its name |
| CampaignsPage.EditingProduct | src/app/campaigns/page.tsx:260-264 | opening the editor shows a stored non-empty product as is and anything else as `no_product` |
| CampaignsPage.StoredProduct | src/app/campaigns/page.tsx:279 | saving stores null exactly for `no_product`, and any other choice as text |
| CampaignsPage.EditKeepsOrNormalisesProduct | src/app/campaigns/page.tsx:262-279 | opening and saving unchanged keeps a product id and turns null or empty into null |
| CampaignsPage.Edited | src/app/campaigns/page.tsx:274-282 | only name, description, keywords, products, date and seller are overwritten; every other field carries over |
| CampaignsPage.EditUnchangedKeepsRow | src/app/campaigns/page.tsx:262-282 | saving an untouched editor writes back the same row, with the product normalised |
| CampaignsPage.NewCampaign | src/app/campaigns/page.tsx:311-319 | exactly seven fields; `no_product` becomes null but an untouched selector stays empty text; the date is the formatted day or null |
| CampaignsPage.SubmitNew | src/app/campaigns/page.tsx:326-327 | a successful create resets the date and product choice and closes the sheet; a failure keeps the sheet |
| CampaignsPage.ResetSheetStoresEmptyProduct | src/app/campaigns/page.tsx:316-327 | the next campaign created without touching the selector stores empty text, not null |
| Breadcrumb.Segments | src/app/layout-client.tsx:90 | no segment is empty or contains `/` |
| Breadcrumb.SegmentsOfCanonical | src/app/layout-client.tsx:90 | for a path `/a/b/c` without doubled or trailing slash, a slash followed by the segments joined with slashes gives the path back |
| Breadcrumb.JoinSnoc | src/app/layout-client.tsx:99 | joining one more segment appends a slash and that segment |
| Breadcrumb.HrefExtends | src/app/layout-client.tsx:99 | each crumb's link is the previous link followed by a slash and its own segment |
| Breadcrumb.SegmentsOfJoined | src/app/layout-client.tsx:90-99 | splitting a slash followed by non-empty, slash-free segments joined by slashes gives those segments back |
| Breadcrumb.HrefRoundTrip | src/app/layout-client.tsx:90-99 | the segments of a crumb's link are exactly the segments up to that crumb |
| Breadcrumb.Trail | src/app/layout-client.tsx:95-107 | `Home` then one crumb per segment; a separator before all but the first segment; the last segment is the page and the others are links to their prefixes |
| ChatRoute.FirstSystem | src/app/api/chat/route.ts:12 | the first system message, and none exactly when there is no system message |
| ChatRoute.ProfessionIn | src/app/api/chat/route.ts:13 | throws exactly without the marker; otherwise the text right after the first marker, containing no `.` and no marker, and running to the end, to the first `.` or to the next marker |
| ChatRoute.HeadStopsAtDotOrMarker | src/app/api/chat/route.ts:13 | the cut after the first marker stops only at the end of the text, at a `.` or at another marker |
| ChatRoute.HeadAfterMarker | src/app/api/chat/route.ts:13 | the piece after the first marker, cut at its first `.`, is a prefix of the text after that marker and holds neither `.` nor the marker |
| ChatRoute.Extract | src/app/api/chat/route.ts:12-13 | `unknown` without a system message, otherwise what the first system message yields |
| ChatRoute.Post | src/app/api/chat/route.ts:15-36 | throws before the handler exactly when extraction throws; 500 exactly when the completion fails; otherwise the persona followed by the non-system messages in order |
| ChatRoute.ForwardingIsStable | src/app/api/chat/route.ts:24 | the forwarded conversation holds no system message after the persona |
| SaveUserRoute.UserRow | src/app/api/save-user-data/route.ts:28-37 | the upserted row is exactly seller id, name, profession object, style and chat-history object |
| SaveUserRoute.Post | src/app/api/save-user-data/route.ts:11-59 | 401 exactly without a user, before the body; 400 exactly for a missing field; a write error is 500 with its message and no table creation; 200 after both calls |
| SaveUserRoute.ChecksShortCircuit | src/app/api/save-user-data/route.ts:11-45 | nothing after a failed check affects the answer |
| HomePage.Initial | src/app/page.tsx:19-20 | the page starts checking, with onboarding hidden |
| HomePage.Check | src/app/page.tsx:25-62 | a no-row error shows onboarding; any other outcome hides it, other errors with a toast; checking ends after a lookup and for a signed-out visitor |
| HomePage.OnboardingFlag | src/app/page.tsx:67-71 | a completed onboarding hides the dialog and changes nothing else |
| HomePage.Render | src/app/page.tsx:73-89 | loading, sign-in, onboarding and dashboard are each shown exactly under their own condition |
| HomePage.FirstCheckDecides | src/app/page.tsx:25-89 | after one check, a signed-out visitor sees sign-in and a seller sees onboarding exactly when no row was found and onboarding is not complete |
| Onboarding.WelcomeMessage | src/components/onboarding-dialog.tsx:24-28 | a system message from which the chat route cannot read a profession: it throws, when the profession has no `:` |
| Onboarding.WelcomeHasNoMarker | src/components/onboarding-dialog.tsx:27 | the welcome text says `profession is:` but never the marker `their profession is: ` |
| Onboarding.ProfessionMessage | src/components/onboarding-dialog.tsx:36-40 | a system message from which the chat route reads back exactly the profession, when name and profession hold no `:` and the profession no `.` |
| Onboarding.MessageValue | src/components/onboarding-dialog.tsx:69 | a chat message saves as an object of exactly its role and content |
| Onboarding.SaveBody | src/components/onboarding-dialog.tsx:62-71 | the body carries the name, the profession and the style as given, and the whole conversation in order, each message as its role and content |
| Onboarding.Initial | src/components/onboarding-dialog.tsx:14-30 | the dialog starts open, at step 1, not saving, with one system message |
| Onboarding.SubmitProfession | src/components/onboarding-dialog.tsx:32-42 | submitting moves to step 2 and replaces the conversation by exactly the one message with name and profession |
| Onboarding.Transcript | src/components/onboarding-dialog.tsx:130 | the transcript is the conversation without its first message |
| Onboarding.TranscriptStartsEmpty | src/components/onboarding-dialog.tsx:32-42 | right after the profession is submitted the transcript is empty |
| Onboarding.NoColonNoMarker | src/app/api/chat/route.ts:13 | a text without `:` holds no marker |
| Onboarding.NoMarkerBefore | src/components/onboarding-dialog.tsx:39 | no marker starts inside colon-free text placed before the real marker |
| Onboarding.InstructionsColonFree | src/components/onboarding-dialog.tsx:39 | the persona instructions hold no `:` |
| Onboarding.SplitAroundMarker | src/app/api/chat/route.ts:13 | one marker between two colon-free texts splits the whole into exactly those two |
| Onboarding.DotSplit | src/app/api/chat/route.ts:13 | cutting at the first `.` gives back a profession free of `.` |
| Onboarding.MarkerSplit | src/components/onboarding-dialog.tsx:39 | the dialog's message splits at the marker into the greeting with the name, and the profession with the instructions |
| Onboarding.ProfessionRoundTrip | src/components/onboarding-dialog.tsx:39 | the chat route recovers the profession from the dialog's message when name and profession contain no `:` and the profession no `.` |
| Onboarding.ChatSeesProfession | src/components/onboarding-dialog.tsx:32-42 | every step-2 chat request reaches the model with the seller's profession in the persona |
| Onboarding.ChatComplete | src/components/onboarding-dialog.tsx:44-96 | style analysis first and the save only after it succeeds; the dialog closes exactly when both succeed; saving is off after every outcome; each failure has its toast |
| Onboarding.SaveBodyMeetsRouteCheck | src/components/onboarding-dialog.tsx:62-71 | the save route accepts the dialog's body exactly when name and profession are non-empty and the style is truthy |
| Onboarding.NamelessSellerRefused | src/components/onboarding-dialog.tsx:16 | a seller without a full name is always refused with 400 |

## Left out

- The bodies of the language model, the database client and the identity
  provider. They appear only as the answers they give.
- `src/app/api/analyze-style/route.ts` and the database RPC helpers. Both
  pass their inputs through unchanged. analyze-style/route.ts is not part
  of this model.
- `updateProductLikeEstimate`: it writes a differently named column and is
  not the aggregate.
- `Promise.all` concurrency, which is modelled as an order-keeping map. Also
  left out: the 300 ms search debounce (the filter reads the settled query),
  the lost-update races of the read-modify-write merges, and timeouts.
- Floating point. Scores are exact reals. An empty likelihood list gives the
  estimate `null` (JSON for NaN) instead of being ruled out.
- `Math.random`, `Date.now` and `crypto.randomUUID`. They are parameters.
- Locale date formatting. The date text is a function parameter.
- Prompt indentation. Prompts are modelled as lists of lines.
- Lower-casing is ASCII only. Unicode case mapping is not modelled.
- `Datastore.FetchAll`: errors other than an absent table (network, policy)
  are not distinguished.
- `Datastore.ListIn`: a truthy stored value that is not a list is not
  modelled. In the source `x || []` followed by a spread splits non-empty
  text into its characters and throws on a number, `true` or an object;
  the model reads all of them as `[]`. The merges themselves only ever
  write lists to these columns.
- `Datastore.SelectSingle`: PostgREST's error codes are not modelled. Only
  "exactly one row" is.
- `CampaignsPage.EditingProduct`: the stored `products` column is treated
  as text. A non-text value is shown as `no_product`.
- `ActivitySheet.Transform`: null or undefined activity fields rendered as
  text are not modelled.
- `HomePage.Check`: the intermediate renders between state updates are not
  modelled.
- `Onboarding.ChatComplete`: the short-lived `saving = true` state while the
  requests run is not modelled. A save whose error body is not JSON is also
  not modelled.
- Null text fields in prompts. A customer's `email` and `phone` and a
  product's `category` are interpolated without a default
  (src/app/api/analyze-customer-interest/route.ts:46-47, 52). In the source
  a null value prints as `null` or `undefined`; in the model it is empty
  text. Only the campaign date (`CampaignInterestRoute.DateText`) prints
  `null`.
- `MessageRoute.PromptLines`: the customer's name, likes, dislikes and
  preferences, the product's name and description, and the seller's name
  are interpolated raw (src/app/api/generate-message/route.ts:36-52). A
  null field reads `- Likes: null` in the source and `- Likes: ` in the
  model.
- `Onboarding.SaveBody`: the saved chat history drops each message's `id`
  (`welcome`, `profession`, and the ids the chat hook generates). Only role
  and content are kept.
- `Datastore.Targets`: keys compare by exact value, so a number key never
  matches a text key. PostgREST's coercion of filter values to the column
  type is not modelled.
- Presentation: JSX, styling, the dashboard, sidebars and the search dialog.
- The onboarding-flag hook and the unused `src/app/api/supa/index.ts`.

## Findings

| source | as written | input that shows it | evidently intended | confidence | as-written member | corrected member |
|---|---|---|---|---|---|---|
| src/app/products/new/message/page.tsx:292-298 | saving an edit replaces every row whose `user_id` equals the edited row's, but rows carry no `user_id` | two rows for customers a and b; edit a | only customer a's row changes | high; not executed | MessagePage.EditSubmitAsWritten (EditSubmitAsWrittenLosesCustomer) | MessagePage.EditSubmit |
| src/app/products/new/message/page.tsx:244-250 | regenerating replaces the message of every row whose `user_id` matches, which is every row | any two rows; regenerate the first | only the target row gets the new message | high; not executed | MessagePage.RegenerateAsWritten (UserIdMatchesEveryRow) | MessagePage.Regenerate |
| src/app/campaigns/new/page.tsx:155-160 | the analysis request sends the page's `product` state captured before the load, which is still empty on the first load | first load of any campaign with a product | the product just found is sent and appears in every prompt | high; not executed | NewCampaignPage.Load (FirstLoadPromptHasNoProduct) | NewCampaignPage.LoadCorrected (LoadPromptsCarryProduct) |

=== FILE: activity_sheet.dfy ===
/**
 * The activity sheet shown from the customers table and from the products
 * table: a search / status / type filter over the activities, newest first,
 * the reset of the filters, the per-customer activity transform, and the
 * two-part display of a message carrying a subject.
 *
 * Dates are timestamps; the locale date text searched by the filter is the
 * uninterpreted `formatDate`. The query is the debounced one, the value the
 * filter reads once the search box has been still for a moment.
 */
module ActivitySheet {
  import opened Wrappers
  import opened Text
  import opened Domain
  import Seqs
  import MessagePage

  const All := "all"
  const SubjectLabel := "Subject:"

  /** The filter controls in effect: the search query, the status selector and the type selector. */
  datatype Filters = Filters(query: string, status: string, kind: string)

  /** `clearFilters`: every control back to its initial value. */
  function Cleared(): (f: Filters)
    ensures f.query == "" && f.status == All && f.kind == All
  {
    Filters("", All, All)
  }

  /** The texts the search looks in: customer name, message, product name and the date as displayed. */
  function SearchFields(a: Activity, formatDate: int -> string): seq<string> {
    [a.customerName, a.message, a.productName, formatDate(a.date)]
  }

  /** `fields.some(f => f.toLowerCase().includes(query.toLowerCase()))`. */
  predicate SomeFieldContains(fields: seq<string>, query: string) {
    exists k :: 0 <= k < |fields| && Contains(Lower(fields[k]), Lower(query))
  }

  predicate MatchesSearch(a: Activity, query: string, formatDate: int -> string) {
    query == "" || SomeFieldContains(SearchFields(a, formatDate), query)
  }

  predicate MatchesStatus(a: Activity, status: string) {
    status == All || a.status == status
  }

  predicate MatchesType(a: Activity, kind: string) {
    kind == All || a.kind == kind
  }

  /** The customers page's filter callback, early return included. */
  predicate Keep(a: Activity, f: Filters, formatDate: int -> string) {
    if f.query == "" && f.status == All && f.kind == All then true
    else MatchesSearch(a, f.query, formatDate) && MatchesStatus(a, f.status) && MatchesType(a, f.kind)
  }

  /** The products page's filter callback: the same, without a type selector. */
  predicate KeepProduct(a: Activity, query: string, status: string, formatDate: int -> string) {
    if query == "" && status == All then true
    else MatchesSearch(a, query, formatDate) && MatchesStatus(a, status)
  }

  /**
   * The early return changes nothing: the filter is exactly the conjunction
   * of the three matches, and a non-empty query matches iff one of the four
   * lower-cased fields contains the lower-cased query.
   */
  lemma KeepIsConjunction(a: Activity, f: Filters, formatDate: int -> string)
    ensures Keep(a, f, formatDate) <==>
              MatchesSearch(a, f.query, formatDate) && MatchesStatus(a, f.status) && MatchesType(a, f.kind)
    ensures f.query != "" ==>
              (MatchesSearch(a, f.query, formatDate) <==>
                 Contains(Lower(a.customerName), Lower(f.query)) || Contains(Lower(a.message), Lower(f.query)) ||
                 Contains(Lower(a.productName), Lower(f.query)) || Contains(Lower(formatDate(a.date)), Lower(f.query)))
  {
    var fields := SearchFields(a, formatDate);
    assert fields[0] == a.customerName && fields[1] == a.message;
    assert fields[2] == a.productName && fields[3] == formatDate(a.date);
  }

  /** The products page's filter is the customers page's with the type selector left at `all`. */
  lemma KeepProductIsKeepOfAnyType(a: Activity, query: string, status: string, formatDate: int -> string)
    ensures KeepProduct(a, query, status, formatDate) <==> Keep(a, Filters(query, status, All), formatDate)
  {
  }

  /** The filtered activities: those the filter keeps, in their original order. */
  function FilterActivities(acts: seq<Activity>, f: Filters, formatDate: int -> string): (r: seq<Activity>)
    ensures multiset(r) <= multiset(acts)
    ensures forall x :: x in r <==> x in acts && Keep(x, f, formatDate)
  {
    Seqs.Filter(acts, (a: Activity) => Keep(a, f, formatDate))
  }

  /** Newest first: dates never increase along the list. */
  predicate NewestFirst(s: seq<Activity>) {
    forall i, j :: 0 <= i < j < |s| ==> s[i].date >= s[j].date
  }

  /** Puts `x` into a newest-first list ahead of every entry no newer than it. */
  function InsertByDate(x: Activity, s: seq<Activity>): (r: seq<Activity>)
    requires NewestFirst(s)
    ensures NewestFirst(r)
    ensures multiset(r) == multiset(s) + multiset{x}
    ensures |r| == |s| + 1 && (r[0] == x || (|s| > 0 && r[0] == s[0]))
    decreases |s|
  {
    if |s| == 0 || s[0].date <= x.date then [x] + s
    else
      var rest := InsertByDate(x, s[1..]);
      assert s == [s[0]] + s[1..];
      [s[0]] + rest
  }

  /**
   * `sort((a, b) => date(b) - date(a))`: JavaScript's sort is stable, so
   * activities with the same date keep their relative order.
   */
  function SortByDate(s: seq<Activity>): (r: seq<Activity>)
    ensures NewestFirst(r)
    ensures multiset(r) == multiset(s)
    decreases |s|
  {
    if |s| == 0 then []
    else
      assert s == [s[0]] + s[1..];
      InsertByDate(s[0], SortByDate(s[1..]))
  }

  /** The activities of one date, in order. */
  function OnDate(s: seq<Activity>, d: int): seq<Activity>
    decreases |s|
  {
    if |s| == 0 then []
    else if s[0].date == d then [s[0]] + OnDate(s[1..], d)
    else OnDate(s[1..], d)
  }

  lemma {:induction false} InsertOnDate(x: Activity, s: seq<Activity>, d: int)
    requires NewestFirst(s)
    ensures OnDate(InsertByDate(x, s), d) == (if x.date == d then [x] else []) + OnDate(s, d)
    decreases |s|
  {
    if |s| == 0 || s[0].date <= x.date {
      var r := [x] + s;
      assert r[0] == x && r[1..] == s;
    } else {
      var rest := InsertByDate(x, s[1..]);
      var r := [s[0]] + rest;
      assert r[0] == s[0] && r[1..] == rest;
      InsertOnDate(x, s[1..], d);
    }
  }

  /** The sort is stable: restricted to any one date, it is the identity. */
  lemma {:induction false} SortIsStable(s: seq<Activity>, d: int)
    ensures OnDate(SortByDate(s), d) == OnDate(s, d)
    decreases |s|
  {
    if |s| > 0 {
      SortIsStable(s[1..], d);
      InsertOnDate(s[0], SortByDate(s[1..]), d);
    }
  }

  lemma SameElements<T>(a: seq<T>, b: seq<T>)
    requires multiset(a) == multiset(b)
    ensures forall x :: x in a <==> x in b
  {
    forall x ensures x in a <==> x in b {
      assert x in a <==> x in multiset(a);
      assert x in b <==> x in multiset(b);
    }
  }

  /** `filteredActivities` on the customers page: the kept activities, newest first. */
  function Shown(acts: seq<Activity>, f: Filters, formatDate: int -> string): (r: seq<Activity>)
    ensures NewestFirst(r)
    ensures multiset(r) <= multiset(acts)
    ensures forall x :: x in r <==> x in acts && Keep(x, f, formatDate)
  {
    var kept := FilterActivities(acts, f, formatDate);
    var r := SortByDate(kept);
    SameElements(r, kept);
    r
  }

  /** `filteredActivities` on the products page. */
  function ShownForProduct(acts: seq<Activity>, query: string, status: string, formatDate: int -> string): (r: seq<Activity>)
    ensures r == Shown(acts, Filters(query, status, All), formatDate)
  {
    var f := Filters(query, status, All);
    forall a ensures KeepProduct(a, query, status, formatDate) == Keep(a, f, formatDate) {
      KeepProductIsKeepOfAnyType(a, query, status, formatDate);
    }
    Seqs.FilterCongruent(acts, (a: Activity) => KeepProduct(a, query, status, formatDate), (a: Activity) => Keep(a, f, formatDate));
    SortByDate(Seqs.Filter(acts, (a: Activity) => KeepProduct(a, query, status, formatDate)))
  }

  /** With the filters cleared, the sheet shows every activity, reordered newest first. */
  lemma ClearedShowsAll(acts: seq<Activity>, formatDate: int -> string)
    ensures multiset(Shown(acts, Cleared(), formatDate)) == multiset(acts)
  {
    Seqs.FilterAll(acts, (a: Activity) => Keep(a, Cleared(), formatDate));
  }

  /**
   * The customers table's activity transform: the stored list (none counts
   * as empty), each entry stamped with the customer's id and name and
   * otherwise unchanged.
   */
  function Transform(c: Customer): (r: seq<Activity>)
    ensures |r| == |c.activity.GetOr([])|
    ensures forall i :: 0 <= i < |r| ==>
              var a := c.activity.GetOr([])[i];
              && r[i].customerId == c.id && r[i].customerName == c.name
              && r[i].(customerId := a.customerId, customerName := a.customerName) == a
  {
    var acts := c.activity.GetOr([]);
    seq(|acts|, i requires 0 <= i < |acts| => acts[i].(customerId := c.id, customerName := c.name))
  }

  /** Searching a customer's sheet for part of that customer's name keeps every activity. */
  lemma SearchByOwnNameKeepsAll(c: Customer, query: string, formatDate: int -> string)
    requires Contains(Lower(c.name), Lower(query))
    ensures FilterActivities(Transform(c), Filters(query, All, All), formatDate) == Transform(c)
  {
    var acts := Transform(c);
    var f := Filters(query, All, All);
    forall i | 0 <= i < |acts| ensures Keep(acts[i], f, formatDate) {
      assert SearchFields(acts[i], formatDate)[0] == c.name;
    }
    Seqs.FilterAll(acts, (a: Activity) => Keep(a, f, formatDate));
  }

  /** How a message is displayed: as is, or as a heading paragraph above the rest. */
  datatype Display = Single(text: string) | Headed(heading: string, body: string)

  /**
   * A message containing `Subject:` shows its first blank-line-separated
   * paragraph as a heading and the remaining paragraphs, re-joined, below it.
   * That is the same parse the message editor applies when saving an email.
   */
  function DisplayMessage(m: string): (d: Display)
    ensures !Contains(m, SubjectLabel) ==> d == Single(m)
    ensures Contains(m, SubjectLabel) ==> d.Headed? && !Contains(d.heading, MessagePage.ParagraphBreak)
    ensures Contains(m, SubjectLabel) ==>
              m == d.heading || m == d.heading + MessagePage.ParagraphBreak + d.body
    ensures Contains(m, SubjectLabel) && FindFirst(m, MessagePage.ParagraphBreak).None? ==> d == Headed(m, "")
    ensures Contains(m, SubjectLabel) && FindFirst(m, MessagePage.ParagraphBreak).Some? ==>
              var i := FindFirst(m, MessagePage.ParagraphBreak).value;
              d == Headed(m[..i], m[i + |MessagePage.ParagraphBreak|..])
  {
    if Contains(m, SubjectLabel) then
      var e := MessagePage.SavedMessage("email", m);
      Headed(e.subject, e.content)
    else Single(m)
  }

  /** The copy label has no line break in it. */
  lemma LabelHasNoNewline(subject: string, j: nat)
    requires j < 9
    ensures ("Subject: " + subject)[j] != '\n'
  {
    assert ("Subject: " + subject)[j] in "Subject: ";
  }

  /** Prefixing the copy label keeps a subject editable. */
  lemma LabelKeepsEditable(subject: string)
    requires MessagePage.EditableSubject(subject)
    ensures MessagePage.EditableSubject("Subject: " + subject)
  {
    var t := "Subject: " + subject;
    var pb := MessagePage.ParagraphBreak;
    forall j: nat | j + 2 <= |t| ensures !OccursAt(t, pb, j) {
      if j < 9 {
        LabelHasNoNewline(subject, j);
        assert t[j..j + 2][0] == t[j] != pb[0];
      } else {
        assert t[j..j + 2] == subject[j - 9..j - 9 + 2];
        assert !OccursAt(subject, pb, j - 9);
      }
    }
    if subject != "" {
      assert t[|t| - 1] == subject[|subject| - 1];
    }
  }

  /**
   * A message in the clipboard format, `Subject: ` + subject, a blank line,
   * then the content, displays as that labelled subject above that content.
   */
  lemma DisplayOfCopiedEmail(subject: string, content: string)
    requires subject != "" && MessagePage.EditableSubject(subject)
    ensures DisplayMessage(MessagePage.CopyText(Email(subject, content)).value) == Headed("Subject: " + subject, content)
  {
    var m := MessagePage.CopyText(Email(subject, content)).value;
    assert m[..8] == SubjectLabel;
    assert OccursAt(m, SubjectLabel, 0);
    LabelKeepsEditable(subject);
    MessagePage.EditRoundTrip("Subject: " + subject, content);
  }
}

=== FILE: breadcrumb.dfy ===
/**
 * The breadcrumb trail above every page: `Home`, then one crumb per
 * non-empty segment of the path, each linking to the path up to and
 * including that segment, the last one shown as the current page.
 */
module Breadcrumb {
  import opened Wrappers
  import opened Text
  import Seqs

  const Slash := "/"

  predicate NonEmpty(s: string) {
    s != ""
  }

  /** A text with no occurrence of a one-character separator does not contain that character. */
  lemma NoOccurrenceNoChar(s: string, c: char)
    requires !Contains(s, [c])
    ensures c !in s
  {
    if c in s {
      var k :| 0 <= k < |s| && s[k] == c;
      assert s[k..k + 1] == [c];
      assert OccursAt(s, [c], k);
    }
  }

  /** `pathname.split('/').filter(Boolean)`. */
  function Segments(path: string): (segs: seq<string>)
    ensures forall k :: 0 <= k < |segs| ==> segs[k] != "" && '/' !in segs[k]
  {
    var parts := Split(path, Slash);
    var segs := Seqs.Filter(parts, NonEmpty);
    assert forall k :: 0 <= k < |segs| ==> '/' !in segs[k] by {
      forall k | 0 <= k < |segs| ensures '/' !in segs[k] {
        var j :| 0 <= j < |parts| && parts[j] == segs[k];
        NoOccurrenceNoChar(parts[j], '/');
      }
    }
    segs
  }

  /** The link of the crumb for segment `i`: a slash, then segments `0..i` joined by slashes. */
  function Href(segs: seq<string>, i: nat): string
    requires i < |segs|
  {
    Slash + Join(segs[..i + 1], Slash)
  }

  /** Joining one more piece appends a separator and that piece. */
  lemma {:induction false} JoinSnoc(parts: seq<string>, x: string, sep: string)
    requires |parts| > 0
    ensures Join(parts + [x], sep) == Join(parts, sep) + sep + x
    decreases |parts|
  {
    if |parts| == 1 {
      assert (parts + [x])[1..] == [x];
    } else {
      assert (parts + [x])[1..] == parts[1..] + [x];
      JoinSnoc(parts[1..], x, sep);
    }
  }

  /** Each crumb's link extends the previous one by a slash and its own segment. */
  lemma HrefExtends(segs: seq<string>, i: nat)
    requires i + 1 < |segs|
    ensures Href(segs, i + 1) == Href(segs, i) + Slash + segs[i + 1]
  {
    assert segs[..i + 2] == segs[..i + 1] + [segs[i + 1]];
    JoinSnoc(segs[..i + 1], segs[i + 1], Slash);
  }

  /** A slash followed by non-empty, slash-free segments joined by slashes has exactly those segments. */
  lemma {:induction false} SegmentsOfJoined(segs: seq<string>)
    requires |segs| >= 1
    requires forall k :: 0 <= k < |segs| ==> segs[k] != "" && '/' !in segs[k]
    ensures Segments(Slash + Join(segs, Slash)) == segs
  {
    var joined := Join(segs, Slash);
    SplitJoin(segs, '/');
    assert Split(joined, Slash) == segs;
    SplitAtFirst("", Slash, joined);
    assert "" + Slash + joined == Slash + joined;
    assert Split(Slash + joined, Slash) == [""] + segs;
    Seqs.FilterAppend([""], segs, NonEmpty);
    assert Seqs.Filter([""], NonEmpty) == [];
    Seqs.FilterAll(segs, NonEmpty);
  }

  /** Following a crumb's link gives a trail whose segments are exactly those up to that crumb. */
  lemma {:induction false} HrefRoundTrip(path: string, i: nat)
    requires i < |Segments(path)|
    ensures Segments(Href(Segments(path), i)) == Segments(path)[..i + 1]
  {
    var all := Segments(path);
    var segs := all[..i + 1];
    forall k | 0 <= k < |segs| ensures segs[k] != "" && '/' !in segs[k] {
      assert segs[k] == all[k];
    }
    SegmentsOfJoined(segs);
  }

  /** A slash-free text between slashes: no empty piece anywhere. */
  ghost predicate SlashSeparated(s: string) {
    && |s| > 0 && s[0] != '/' && s[|s| - 1] != '/'
    && forall j :: 0 <= j < |s| - 1 ==> !(s[j] == '/' && s[j + 1] == '/')
  }

  /** A path of the form `/a/b/c` with no doubled or trailing slash. */
  ghost predicate Canonical(path: string) {
    |path| >= 2 && path[0] == '/' && SlashSeparated(path[1..])
  }

  /** None of the pieces is empty. */
  ghost predicate NoEmptyPiece(parts: seq<string>) {
    forall k :: 0 <= k < |parts| ==> parts[k] != ""
  }

  /** Splitting text with no empty piece at slashes gives no empty piece. */
  lemma {:induction false} PiecesNonEmpty(s: string)
    requires SlashSeparated(s)
    ensures NoEmptyPiece(Split(s, Slash))
    decreases |s|
  {
    match FindFirst(s, Slash)
    case None =>
      SplitHead(s, Slash);
    case Some(i) =>
      assert s[i..i + 1] == Slash;
      TailSlashSeparated(s, i);
      PiecesNonEmpty(s[i + 1..]);
      PiecesStep(s, i);
  }

  /** A non-empty first piece before pieces that are all non-empty. */
  lemma PiecesStep(s: string, i: nat)
    requires FindFirst(s, Slash) == Some(i) && i > 0
    requires NoEmptyPiece(Split(s[i + 1..], Slash))
    ensures NoEmptyPiece(Split(s, Slash))
  {
    SplitStep(s, Slash, i);
    var rest := Split(s[i + 1..], Slash);
    var parts := Split(s, Slash);
    forall k | 0 <= k < |parts|
      ensures parts[k] != ""
    {
      if k == 0 {
        assert |parts[0]| == i;
      } else {
        assert parts[k] == rest[k - 1];
      }
    }
  }

  /** What follows a slash inside slash-separated text is slash-separated again. */
  lemma TailSlashSeparated(s: string, i: nat)
    requires SlashSeparated(s) && i < |s| && s[i] == '/'
    ensures 0 < i < |s| - 1 && SlashSeparated(s[i + 1..])
  {
    var t := s[i + 1..];
    forall j | 0 <= j < |t| - 1
      ensures !(t[j] == '/' && t[j + 1] == '/')
    {
      assert t[j] == s[i + 1 + j] && t[j + 1] == s[i + 1 + j + 1];
    }
    assert t[0] == s[i + 1];
  }

  /** The segments of a canonical path joined back under a leading slash give the path. */
  lemma {:induction false} SegmentsOfCanonical(path: string)
    requires Canonical(path)
    ensures Slash + Join(Segments(path), Slash) == path
  {
    var rest := path[1..];
    assert path == "" + Slash + rest;
    SplitAtFirst("", Slash, rest);
    PiecesNonEmpty(rest);
    var parts := Split(rest, Slash);
    Seqs.FilterAppend([""], parts, NonEmpty);
    assert Seqs.Filter([""], NonEmpty) == [];
    Seqs.FilterAll(parts, NonEmpty);
    assert Segments(path) == parts;
    JoinSplit(rest, Slash);
  }

  /** One crumb: the `Home` link, a link to an ancestor page, or the current page. */
  datatype Crumb = Home | Link(text: string, href: string, separated: bool) | Page(text: string, separated: bool)

  function CrumbAt(segs: seq<string>, i: nat): Crumb
    requires i < |segs|
  {
    if i == |segs| - 1 then Page(segs[i], i != 0)
    else Link(segs[i], Href(segs, i), i != 0)
  }

  /** `AppBreadcrumb` for the segments of the current path. */
  function Trail(segs: seq<string>): (cs: seq<Crumb>)
    ensures |cs| == |segs| + 1 && cs[0] == Home
    ensures forall i :: 1 <= i < |cs| ==> !cs[i].Home? && cs[i].text == segs[i - 1]
    ensures forall i :: 1 <= i < |cs| ==> (cs[i].separated <==> i != 1)
    ensures forall i :: 1 <= i < |cs| ==> (cs[i].Page? <==> i == |segs|)
    ensures forall i :: 1 <= i < |cs| && cs[i].Link? ==> cs[i].href == Href(segs, i - 1)
  {
    [Home] + seq(|segs|, i requires 0 <= i < |segs| => CrumbAt(segs, i))
  }
}

=== FILE: campaign_interest_route.dfy ===
/**
 * `POST /api/analyze-customer-interest-cam`: score every customer of the
 * tenant against a campaign and, optionally, the product it promotes. It
 * differs from the product route in its prompt and in how it derives the
 * reason (`Score.CampaignVerdict`).
 */
module CampaignInterestRoute {
  import opened Wrappers
  import opened Text
  import opened Domain
  import Score

  datatype Request = Request(campaign: Option<Campaign>, product: Option<Product>, userId: string, supabaseToken: string)

  /** What `fetchCustomers` gave back: it threw, it returned null after a database error, or rows. */
  datatype CustomerFetch = FetchThrew | FetchNull | Fetched(rows: seq<Customer>)

  /** The outside calls a request makes, in order. */
  datatype Call = FetchCustomers(userId: string) | Complete(prompt: string)

  datatype Outcome = Outcome(response: Response<seq<AnalysisResult>>, calls: seq<Call>)

  const RelatedProduct := "Related Product:"
  const ProductFactor := "5. Alignment with product characteristics"

  /** A null campaign date is interpolated into the prompt as the text `null`. */
  function DateText(d: Option<string>): (r: string)
    ensures d.Some? ==> r == d.value
    ensures d.None? ==> r == "null"
  {
    d.GetOr("null")
  }

  /** The lines the optional product contributes after the campaign date. */
  function ProductBlock(product: Option<Product>): seq<string> {
    match product
    case None => [""]
    case Some(p) =>
      [ "",
        RelatedProduct,
        "- Name: " + p.name,
        "- Description: " + OrElse(p.description, "Not provided"),
        "- Keywords: " + OrElse(p.keywords, "Not provided"),
        "" ]
  }

  const Opening: seq<string> := ["", "Analyze the likelihood of customer interest in a marketing campaign.", "", "Customer Profile:"]

  function ProfileLines(c: Customer): seq<string> {
    [ "- Name: " + c.name,
      "- Interests/Likes: " + OrElse(c.likes, "None specified"),
      "- Dislikes: " + OrElse(c.dislikes, "None specified") ]
  }

  function CampaignLines(cam: Campaign): seq<string> {
    [ "",
      "Campaign Details:",
      "- Name: " + cam.name,
      "- Description: " + OrElse(cam.description, "Not provided"),
      "- Keywords: " + OrElse(cam.keywords, "Not provided"),
      "- Campaign Date: " + DateText(cam.campaignDate) ]
  }

  const Factors: seq<string> := [
    "",
    "Analyze the following factors:",
    "1. Match between customer interests and campaign theme",
    "2. Timing of the campaign relative to customer profile",
    "3. Relevance of campaign keywords to customer interests",
    "4. Past customer preferences and behavior patterns" ]

  const Closing: seq<string> := [
    "",
    "Provide:",
    "1. A percentage (0-100) indicating the likelihood of customer interest",
    "2. A three-sentence explanation of the reasoning",
    "",
    "Format: Start with the percentage, followed by the explanation.",
    "" ]

  /** The lines of the per-customer prompt (its indentation is not modelled). */
  function PromptLines(c: Customer, cam: Campaign, product: Option<Product>): (lines: seq<string>)
    ensures |lines| == if product.Some? then 33 else 28
    ensures lines[..4] == Opening && lines[|lines| - 7..] == Closing
    ensures lines[4] == "- Name: " + c.name && lines[9] == "- Name: " + cam.name
    ensures lines[5] == "- Interests/Likes: " + OrElse(c.likes, "None specified")
    ensures lines[6] == "- Dislikes: " + OrElse(c.dislikes, "None specified")
    ensures cam.campaignDate.None? ==> lines[12] == "- Campaign Date: null"
    ensures cam.campaignDate.Some? ==> lines[12] == "- Campaign Date: " + cam.campaignDate.value
    ensures product.Some? ==> lines[14] == RelatedProduct && lines[15] == "- Name: " + product.value.name
    ensures lines[|lines| - 8] == if product.Some? then ProductFactor else ""
  {
    Opening + ProfileLines(c) + CampaignLines(cam) + ProductBlock(product)
    + Factors + [if product.Some? then ProductFactor else ""] + Closing
  }

  function Prompt(c: Customer, cam: Campaign, product: Option<Product>): string {
    Join(PromptLines(c, cam, product), "\n")
  }

  /** A line that starts with `- ` is neither of the product-only lines. */
  lemma DashLineNotProductLine(prefix: string, x: string)
    requires |prefix| >= 2 && prefix[..2] == "- "
    ensures prefix + x != RelatedProduct && prefix + x != ProductFactor
  {
    assert (prefix + x)[0] == '-';
  }

  /** The fixed blocks hold neither product-only line: each of their lines starts with another character. */
  lemma FixedBlocksNotProductLines()
    ensures RelatedProduct !in Opening && ProductFactor !in Opening
    ensures RelatedProduct !in Factors && ProductFactor !in Factors
    ensures RelatedProduct !in Closing && ProductFactor !in Closing
  {
  }

  /** The customer's and the campaign's lines all start with `- `, except two fixed ones. */
  lemma RecordLinesNotProductLines(c: Customer, cam: Campaign)
    ensures RelatedProduct !in ProfileLines(c) && ProductFactor !in ProfileLines(c)
    ensures RelatedProduct !in CampaignLines(cam) && ProductFactor !in CampaignLines(cam)
  {
    DashLineNotProductLine("- Name: ", c.name);
    DashLineNotProductLine("- Interests/Likes: ", OrElse(c.likes, "None specified"));
    DashLineNotProductLine("- Dislikes: ", OrElse(c.dislikes, "None specified"));
    DashLineNotProductLine("- Name: ", cam.name);
    DashLineNotProductLine("- Description: ", OrElse(cam.description, "Not provided"));
    DashLineNotProductLine("- Keywords: ", OrElse(cam.keywords, "Not provided"));
    DashLineNotProductLine("- Campaign Date: ", DateText(cam.campaignDate));
  }

  /** None of the lines that do not depend on the product is a product-only line. */
  lemma FixedLinesNotProductLines(c: Customer, cam: Campaign)
    ensures RelatedProduct !in Opening + ProfileLines(c) + CampaignLines(cam)
    ensures ProductFactor !in Opening + ProfileLines(c) + CampaignLines(cam)
    ensures RelatedProduct !in Factors + [""] + Closing
    ensures ProductFactor !in Factors + [""] + Closing
  {
    FixedBlocksNotProductLines();
    RecordLinesNotProductLines(c, cam);
  }

  /**
   * The product block and the fifth factor are in the prompt exactly when a
   * product is supplied, and the supplied product's name is then in it.
   */
  lemma {:induction false} ProductSectionIffProduct(c: Customer, cam: Campaign, product: Option<Product>)
    ensures RelatedProduct in PromptLines(c, cam, product) <==> product.Some?
    ensures ProductFactor in PromptLines(c, cam, product) <==> product.Some?
    ensures product.Some? ==> "- Name: " + product.value.name in PromptLines(c, cam, product)
  {
    var head := Opening + ProfileLines(c) + CampaignLines(cam);
    var factor := if product.Some? then ProductFactor else "";
    assert PromptLines(c, cam, product) == head + ProductBlock(product) + Factors + [factor] + Closing;
    FixedLinesNotProductLines(c, cam);
    if product.None? {
      assert PromptLines(c, cam, product) == head + [""] + (Factors + [""] + Closing);
    } else {
      assert RelatedProduct in ProductBlock(product);
      assert "- Name: " + product.value.name in ProductBlock(product);
    }
  }

  ghost predicate ValidFallbacks(fallbacks: nat -> real) {
    forall i: nat :: 0.0 <= fallbacks(i) < 100.0
  }

  /** The result for one customer, from that customer's own completion alone. */
  function ResultFor(c: Customer, completion: Option<string>, fallback: real): (r: AnalysisResult)
    requires 0.0 <= fallback < 100.0
    ensures r.customerId == c.id && r.customerName == c.name
    ensures 0.0 <= r.likelihood <= 100.0 && r.reason != ""
    ensures completion.None? ==> r.likelihood == 0.0 && r.reason == Score.ErrorReason
    ensures completion.Some? ==>
              r.likelihood == Score.ParseLikelihood(completion.value, fallback) && r.reason == Score.CampaignReason(completion.value)
  {
    var v := Score.CampaignVerdict(completion, fallback);
    AnalysisResult(c.id, c.name, v.likelihood, v.reason)
  }

  /** One result per customer, in customer order. */
  function AnalyzeAll(cs: seq<Customer>, completions: nat -> Option<string>, fallbacks: nat -> real): (rs: seq<AnalysisResult>)
    requires ValidFallbacks(fallbacks)
    ensures |rs| == |cs|
    ensures forall i :: 0 <= i < |cs| ==> rs[i].customerId == cs[i].id && rs[i].customerName == cs[i].name
    ensures forall i :: 0 <= i < |cs| ==> 0.0 <= rs[i].likelihood <= 100.0
    ensures forall i :: 0 <= i < |cs| && completions(i).None? ==> rs[i].likelihood == 0.0 && rs[i].reason == Score.ErrorReason
    ensures forall i :: 0 <= i < |cs| && completions(i).Some? ==>
              && rs[i].likelihood == Score.ParseLikelihood(completions(i).value, fallbacks(i))
              && rs[i].reason == Score.CampaignReason(completions(i).value)
  {
    seq(|cs|, i requires 0 <= i < |cs| => ResultFor(cs[i], completions(i), fallbacks(i)))
  }

  /** The completion requests, one per customer, in customer order. */
  function Completions(cs: seq<Customer>, cam: Campaign, product: Option<Product>): (calls: seq<Call>)
    ensures |calls| == |cs|
    ensures forall i :: 0 <= i < |cs| ==> calls[i] == Complete(Prompt(cs[i], cam, product))
  {
    seq(|cs|, i requires 0 <= i < |cs| => Complete(Prompt(cs[i], cam, product)))
  }

  /** Only the campaign, the user id and the token are required; the product is optional. */
  predicate MissingData(req: Request) {
    req.campaign.None? || req.userId == "" || req.supabaseToken == ""
  }

  /**
   * The route: 400 before anything is fetched when data is missing, 500 when
   * fetching customers throws, 404 when there are none, otherwise one result
   * per customer.
   */
  function Post(req: Request, fetch: CustomerFetch, completions: nat -> Option<string>, fallbacks: nat -> real): (out: Outcome)
    requires ValidFallbacks(fallbacks)
    ensures MissingData(req) <==> out.response == Fail(400, "Missing required data")
    ensures MissingData(req) ==> out.calls == []
    ensures !MissingData(req) ==> |out.calls| >= 1 && out.calls[0] == FetchCustomers(req.userId)
    ensures !MissingData(req) && fetch.FetchThrew? ==> out.response == Fail(500, "Error analyzing customer interest")
    ensures out.response == Fail(404, "No customers found") <==>
              !MissingData(req) && (fetch.FetchNull? || fetch == Fetched([]))
    ensures out.response.Ok? <==> !MissingData(req) && fetch.Fetched? && |fetch.rows| > 0
    ensures out.response.Ok? ==>
              && |out.response.body| == |fetch.rows|
              && (forall i :: 0 <= i < |fetch.rows| ==>
                    out.response.body[i] == ResultFor(fetch.rows[i], completions(i), fallbacks(i)))
              && out.calls == [FetchCustomers(req.userId)] + Completions(fetch.rows, req.campaign.value, req.product)
  {
    if MissingData(req) then Outcome(Fail(400, "Missing required data"), [])
    else
      var fetched := [FetchCustomers(req.userId)];
      match fetch
      case FetchThrew => Outcome(Fail(500, "Error analyzing customer interest"), fetched)
      case FetchNull => Outcome(Fail(404, "No customers found"), fetched)
      case Fetched(cs) =>
        if |cs| == 0 then Outcome(Fail(404, "No customers found"), fetched)
        else Outcome(Ok(AnalyzeAll(cs, completions, fallbacks)), fetched + Completions(cs, req.campaign.value, req.product))
  }
}

=== FILE: campaigns_page.dfy ===
/**
 * The campaigns table: the product column, and the records the edit and
 * create sheets send to the datastore. The product selector uses the text
 * `no_product` for "no product"; the stored column holds a product id as
 * text, or null.
 */
module CampaignsPage {
  import opened Wrappers
  import opened Domain
  import Seqs
  import Decimal
  import Datastore
  import NewProductPage

  const NoProduct := "no_product"
  const NoProductLabel := "No product selected"

  /** `products.find(p => p.id.toString() === productId)`. */
  function FindByText(ps: seq<Product>, productId: Option<string>): (r: Option<Product>)
    ensures r.None? <==> productId.None? || forall i :: 0 <= i < |ps| ==> Decimal.FromInt(ps[i].id) != productId.value
    ensures r.Some? ==> exists i :: 0 <= i < |ps| && ps[i] == r.value && Decimal.FromInt(ps[i].id) == productId.value &&
                          forall j :: 0 <= j < i ==> Decimal.FromInt(ps[j].id) != productId.value
  {
    if productId.None? then None
    else Seqs.Find(ps, (p: Product) => Decimal.FromInt(p.id) == productId.value)
  }

  /** Looking a product up by its id's text finds the same product as looking it up by the id. */
  lemma FindByTextIsFindById(ps: seq<Product>, id: int)
    ensures FindByText(ps, Some(Decimal.FromInt(id))) == NewProductPage.FindProduct(ps, id)
  {
    forall i | 0 <= i < |ps|
      ensures (Decimal.FromInt(ps[i].id) == Decimal.FromInt(id)) == (ps[i].id == id)
    {
      if Decimal.FromInt(ps[i].id) == Decimal.FromInt(id) {
        Decimal.FromIntInjective(ps[i].id, id);
      }
    }
    Seqs.FindCongruent(ps, (p: Product) => Decimal.FromInt(p.id) == Decimal.FromInt(id), (p: Product) => p.id == id);
  }

  /** The product column: the referenced product's name, or a fixed text. */
  function ProductLabel(ps: seq<Product>, products: Option<string>): (text: string)
    ensures FindByText(ps, products).None? ==> text == NoProductLabel
    ensures FindByText(ps, products).Some? ==> text == FindByText(ps, products).value.name
  {
    match FindByText(ps, products)
    case None => NoProductLabel
    case Some(p) => p.name
  }

  /** A campaign referring to a listed product by its id shows that product's name, when ids are unique. */
  lemma ProductLabelOfListedId(ps: seq<Product>, i: nat)
    requires i < |ps|
    requires forall j, k :: 0 <= j < k < |ps| ==> ps[j].id != ps[k].id
    ensures ProductLabel(ps, Some(Decimal.FromInt(ps[i].id))) == ps[i].name
  {
    FindByTextIsFindById(ps, ps[i].id);
    var found := NewProductPage.FindProduct(ps, ps[i].id);
    assert found.Some? by {
      assert ps[i].id == ps[i].id;
    }
    var k :| 0 <= k < |ps| && ps[k] == found.value;
    assert ps[k].id == ps[i].id;
    assert k == i;
  }

  /** `openEditSheet`: the selector starts on the stored product, or on `no_product` for null or empty. */
  function EditingProduct(products: Datastore.Value): (sel: string)
    ensures products.VStr? && products.s != "" ==> sel == products.s
    ensures !(products.VStr? && products.s != "") ==> sel == NoProduct
  {
    if products.VStr? && products.s != "" then products.s else NoProduct
  }

  /** The stored value for a selector value: `no_product` is null; anything else is kept, `''` included. */
  function StoredProduct(sel: string): (v: Datastore.Value)
    ensures v == Datastore.VNull <==> sel == NoProduct
    ensures v != Datastore.VNull ==> v == Datastore.VStr(sel)
  {
    if sel == NoProduct then Datastore.VNull else Datastore.VStr(sel)
  }

  /**
   * Opening the editor and saving without touching the selector keeps a
   * product id and turns null or the empty text into null.
   */
  lemma EditKeepsOrNormalisesProduct(products: Datastore.Value)
    requires products != Datastore.VStr(NoProduct)
    ensures StoredProduct(EditingProduct(products)) ==
              if products.VStr? && products.s != "" then products else Datastore.VNull
  {
  }

  /** The edit and create sheets' text inputs. */
  datatype Form = Form(name: string, description: string, keywords: string)

  /**
   * `handleEditSubmit`'s record: the campaign as loaded, with the form's
   * texts, the selector's product, the date input's text and the user's id
   * written over it.
   */
  function Edited(campaign: Datastore.Row, form: Form, sel: string, date: string, userId: string): (r: Datastore.Row)
    ensures r.Keys == campaign.Keys + {"name", "description", "keywords", "products", "campaign_date", "userid"}
    ensures forall k :: k in campaign && k !in {"name", "description", "keywords", "products", "campaign_date", "userid"} ==>
              r[k] == campaign[k]
    ensures r["name"] == Datastore.VStr(form.name) && r["description"] == Datastore.VStr(form.description)
    ensures r["keywords"] == Datastore.VStr(form.keywords)
    ensures r["products"] == StoredProduct(sel)
    ensures r["campaign_date"] == Datastore.VStr(date) && r["userid"] == Datastore.VStr(userId)
  {
    campaign + map[
      "name" := Datastore.VStr(form.name),
      "description" := Datastore.VStr(form.description),
      "keywords" := Datastore.VStr(form.keywords),
      "products" := StoredProduct(sel),
      "campaign_date" := Datastore.VStr(date),
      "userid" := Datastore.VStr(userId)]
  }

  /** The form as the edit sheet fills it from a campaign row. */
  predicate ShowsRow(campaign: Datastore.Row, form: Form, date: string, userId: string) {
    && "name" in campaign && campaign["name"] == Datastore.VStr(form.name)
    && "description" in campaign && campaign["description"] == Datastore.VStr(form.description)
    && "keywords" in campaign && campaign["keywords"] == Datastore.VStr(form.keywords)
    && "campaign_date" in campaign && campaign["campaign_date"] == Datastore.VStr(date)
    && "userid" in campaign && campaign["userid"] == Datastore.VStr(userId)
  }

  /**
   * Saving the editor unchanged writes back the row it was opened on, except
   * that a null or empty product becomes null.
   */
  lemma {:induction false} EditUnchangedKeepsRow(campaign: Datastore.Row, form: Form, date: string, userId: string)
    requires ShowsRow(campaign, form, date, userId)
    requires "products" in campaign && campaign["products"] != Datastore.VStr(NoProduct)
    ensures Edited(campaign, form, EditingProduct(campaign["products"]), date, userId) ==
              campaign["products" := StoredProduct(EditingProduct(campaign["products"]))]
  {
    var r := Edited(campaign, form, EditingProduct(campaign["products"]), date, userId);
    assert r.Keys == campaign.Keys;
  }

  /**
   * `handleNewSubmit`'s record: exactly the seven columns; `no_product`
   * becomes null while an untouched selector stores `''`, and the date is
   * the chosen day as `yyyy-MM-dd` text, or null.
   */
  function NewCampaign(uid: string, form: Form, sel: string, date: Option<int>, formatDay: int -> string, userId: string): (r: Datastore.Row)
    ensures r.Keys == {"uid", "name", "description", "keywords", "products", "campaign_date", "userid"}
    ensures r["uid"] == Datastore.VStr(uid) && r["userid"] == Datastore.VStr(userId)
    ensures r["name"] == Datastore.VStr(form.name) && r["description"] == Datastore.VStr(form.description)
    ensures r["keywords"] == Datastore.VStr(form.keywords)
    ensures r["products"] == Datastore.VNull <==> sel == NoProduct
    ensures sel == "" ==> r["products"] == Datastore.VStr("")
    ensures r["campaign_date"] == Datastore.VNull <==> date.None?
    ensures date.Some? ==> r["campaign_date"] == Datastore.VStr(formatDay(date.value))
  {
    map[
      "uid" := Datastore.VStr(uid),
      "name" := Datastore.VStr(form.name),
      "description" := Datastore.VStr(form.description),
      "keywords" := Datastore.VStr(form.keywords),
      "products" := StoredProduct(sel),
      "campaign_date" := if date.Some? then Datastore.VStr(formatDay(date.value)) else Datastore.VNull,
      "userid" := Datastore.VStr(userId)]
  }

  /** The create sheet: the chosen day, the selector, and whether the sheet is open. */
  datatype NewSheet = NewSheet(date: Option<int>, sel: string, open: bool)

  /**
   * Submitting the create sheet: the record goes to the datastore; after a
   * successful write the sheet closes and the day and selector are reset,
   * after a failed one nothing changes.
   */
  function SubmitNew(s: NewSheet, writeSucceeded: bool): (s': NewSheet)
    ensures writeSucceeded ==> s' == NewSheet(None, "", false)
    ensures !writeSucceeded ==> s' == s
  {
    if writeSucceeded then NewSheet(None, "", false) else s
  }

  /** A sheet reset after a successful create stores no product (`''`) and no date on the next create. */
  lemma ResetSheetStoresEmptyProduct(s: NewSheet, uid: string, form: Form, formatDay: int -> string, userId: string)
    ensures var s' := SubmitNew(s, true);
            NewCampaign(uid, form, s'.sel, s'.date, formatDay, userId)["products"] == Datastore.VStr("") &&
            NewCampaign(uid, form, s'.sel, s'.date, formatDay, userId)["campaign_date"] == Datastore.VNull
  {
  }
}

=== FILE: chat_route.dfy ===
/**
 * `POST /api/chat`: the onboarding conversation's back end. It recovers the
 * seller's profession from the first system message, replaces that message
 * by its own customer persona, and forwards the rest of the conversation to
 * the chat model, whose stream it returns.
 */
module ChatRoute {
  import opened Wrappers
  import opened Text
  import opened Domain
  import Seqs

  const Marker := "their profession is: "
  const Unknown := "unknown"
  const ChatFailed := "An error occurred during the chat"

  /** The persona's instructions after the profession; the onboarding dialog's messages end the same way. */
  const Instructions := Instructions0 + Instructions1 + Instructions2 + Instructions3 + Instructions4 + Instructions5 + Instructions6 + Instructions7 + Instructions8
  /** The instructions in pieces, each short enough for the verifier to inspect character by character. */
  const Instructions0 := " Engage in brief"
  const Instructions1 := " conversations as if you"
  const Instructions2 := " are the customer trying"
  const Instructions3 := " to buy a product"
  const Instructions4 := " related to their"
  const Instructions5 := " profession. Inquire"
  const Instructions6 := " about the product, ask"
  const Instructions7 := " for a demo, and ask"
  const Instructions8 := " about the price."
  const PersonaIntro := PersonaHead + "profession is "
  /** The opening every persona in the onboarding conversation shares. */
  const PersonaHead := "You are THE CUSTOMER. The user's "

  /** The profession, or the `TypeError` thrown when a system message lacks the marker. */
  datatype Extracted = Profession(text: string) | Throws

  predicate IsSystem(m: ChatMessage) {
    m.role == "system"
  }

  predicate NotSystem(m: ChatMessage) {
    m.role != "system"
  }

  /** `messages.find(m => m.role === 'system')`. */
  function FirstSystem(ms: seq<ChatMessage>): (r: Option<ChatMessage>)
    ensures r.None? <==> forall i :: 0 <= i < |ms| ==> !IsSystem(ms[i])
    ensures r.Some? ==> exists i :: 0 <= i < |ms| && ms[i] == r.value && IsSystem(ms[i]) &&
                          forall j :: 0 <= j < i ==> !IsSystem(ms[j])
  {
    Seqs.Find(ms, IsSystem)
  }

  /**
   * `content.split('their profession is: ')[1].split('.')[0]`: the text
   * after the first marker, up to the next marker or `.`.
   */
  function ProfessionIn(content: string): (r: Extracted)
    ensures r.Throws? <==> !Contains(content, Marker)
    ensures r.Profession? ==> !Contains(r.text, ".") && !Contains(r.text, Marker)
    ensures r.Profession? ==>
              var after := content[FindFirst(content, Marker).value + |Marker|..];
              |r.text| <= |after| && r.text == after[..|r.text|]
    ensures r.Profession? ==>
              var after := content[FindFirst(content, Marker).value + |Marker|..];
              |r.text| == |after| || after[|r.text|] == '.' || OccursAt(after, Marker, |r.text|)
  {
    var parts := Split(content, Marker);
    SplitHead(content, Marker);
    if |parts| < 2 then Throws
    else
      HeadAfterMarker(content);
      HeadStopsAtDotOrMarker(content);
      Profession(Split(parts[1], ".")[0])
  }

  /** The text cut after the marker runs to the end, to a `.` or to the next marker, never stopping early. */
  lemma {:induction false} HeadStopsAtDotOrMarker(content: string)
    requires |Split(content, Marker)| >= 2
    ensures FindFirst(content, Marker).Some?
    ensures var head := Split(Split(content, Marker)[1], ".")[0];
            var after := content[FindFirst(content, Marker).value + |Marker|..];
            && |head| <= |after|
            && (|head| == |after| || after[|head|] == '.' || OccursAt(after, Marker, |head|))
  {
    SplitHead(content, Marker);
    var i := FindFirst(content, Marker).value;
    SplitStep(content, Marker, i);
    var after := content[i + |Marker|..];
    var piece := Split(content, Marker)[1];
    assert piece == Split(after, Marker)[0];
    SplitHead(after, Marker);
    SplitHead(piece, ".");
    var head := Split(piece, ".")[0];
    match FindFirst(piece, ".")
    case Some(d) =>
      assert piece[d] == '.';
      SplitFirstIsPrefix(after, Marker);
      assert after[d] == piece[d];
    case None =>
      assert head == piece;
  }

  /** The text up to the first `.` after the first marker is a prefix of what follows the marker, free of both. */
  lemma HeadAfterMarker(content: string)
    requires |Split(content, Marker)| >= 2
    ensures FindFirst(content, Marker).Some?
    ensures var head := Split(Split(content, Marker)[1], ".")[0];
            var after := content[FindFirst(content, Marker).value + |Marker|..];
            && !Contains(head, ".") && !Contains(head, Marker)
            && |head| <= |after| && head == after[..|head|]
  {
    var parts := Split(content, Marker);
    SplitHead(content, Marker);
    var head := Split(parts[1], ".")[0];
    var after := content[FindFirst(content, Marker).value + |Marker|..];
    assert |parts[1]| <= |after| && parts[1] == after[..|parts[1]|] by {
      JoinStartsWithFirst(parts[1..], Marker);
    }
    SplitFirstIsPrefix(parts[1], ".");
    PrefixFree(parts[1], Marker, |head|);
  }

  /** The profession the route works with: from the first system message, or `unknown` without one. */
  function Extract(ms: seq<ChatMessage>): (r: Extracted)
    ensures (forall i :: 0 <= i < |ms| ==> !IsSystem(ms[i])) ==> r == Profession(Unknown)
    ensures FirstSystem(ms).Some? ==> r == ProfessionIn(FirstSystem(ms).value.content)
  {
    match FirstSystem(ms)
    case None => Profession(Unknown)
    case Some(m) => ProfessionIn(m.content)
  }

  /** A profession, a full stop and the instructions: how every persona ends. */
  function Brief(profession: string): string {
    profession + "." + Instructions
  }

  /** The persona the route puts in front of the conversation. */
  function Persona(profession: string): string {
    PersonaIntro + Brief(profession)
  }

  /** What the route does: throw before its `try`, stream the completion, or answer 500. */
  datatype Outcome = Uncaught | Streamed(forwarded: seq<ChatMessage>) | Failed(status: nat, error: string)

  /**
   * `POST`: `completionSucceeded` is whether the model call succeeds. The
   * model is called only when extraction did not throw, with the persona
   * followed by every non-system message in order.
   */
  function Post(ms: seq<ChatMessage>, completionSucceeded: bool): (o: Outcome)
    ensures o.Uncaught? <==> Extract(ms).Throws?
    ensures o.Failed? <==> Extract(ms).Profession? && !completionSucceeded
    ensures o.Failed? ==> o.status == 500 && o.error == ChatFailed
    ensures o.Streamed? ==> |o.forwarded| >= 1 && o.forwarded[0] == ChatMessage("system", Persona(Extract(ms).text))
    ensures o.Streamed? ==> o.forwarded[1..] == Seqs.Filter(ms, NotSystem)
    ensures o.Streamed? ==> forall i :: 1 <= i < |o.forwarded| ==> !IsSystem(o.forwarded[i])
  {
    match Extract(ms)
    case Throws => Uncaught
    case Profession(p) =>
      if completionSucceeded then
        var rest := Seqs.Filter(ms, NotSystem);
        var forwarded := [ChatMessage("system", Persona(p))] + rest;
        assert forwarded[1..] == rest;
        Streamed(forwarded)
      else Failed(500, ChatFailed)
  }

  /** Forwarding keeps the non-system messages and only those, in order: a second pass changes nothing. */
  lemma ForwardingIsStable(ms: seq<ChatMessage>)
    requires Post(ms, true).Streamed?
    ensures Seqs.Filter(Post(ms, true).forwarded[1..], NotSystem) == Post(ms, true).forwarded[1..]
  {
    var rest := Post(ms, true).forwarded[1..];
    Seqs.FilterAll(rest, NotSystem);
  }
}

=== FILE: customers_page.dfy ===
/**
 * The customers page's preference selector. The generate-message route
 * shapes an email only for the preference `email`, which the selector never
 * offers: a customer entered through the page always gets a plain message.
 */
module CustomersPage {
  import opened Wrappers
  import opened Domain
  import MessageRoute

  /** The values the add and edit forms offer for a customer's preference. */
  const PreferenceOptions: seq<string> := ["whatsapp", "mail", "sms"]

  /**
   * A customer whose preference came from the form is never an `email`
   * customer, so the message prompt's email line stays empty and a
   * completion text is returned as plain text.
   */
  lemma FormPreferenceNeverEmail(c: Customer, text: string)
    requires c.preferences in PreferenceOptions
    ensures !MessageRoute.WantsEmail(c)
    ensures MessageRoute.Shape(c, MessageRoute.Choice(Some(text))) == Some(Plain(text))
  {
  }
}

=== FILE: datastore.dfy ===
/**
 * The hosted database as the request helpers use it: one table per kind and
 * tenant, named `kind + "-" + userid`, each a sequence of JSON rows. Every
 * read, update and delete is filtered on the kind's key column (`uid` for
 * campaigns, `id` otherwise) together with `userid`. An absent table is the
 * only database error the model produces.
 */
module Datastore {
  import opened Wrappers
  import Seqs

  datatype Value = VNull | VBool(b: bool) | VNum(n: real) | VStr(s: string) | VList(items: seq<Value>) | VObj(fields: map<string, Value>)

  type Row = map<string, Value>
  type Store = map<string, seq<Row>>

  datatype Kind = Customers | Campaigns | Products

  /** The result of a query: its value, or the database's error message. */
  datatype Db<T> = DbOk(value: T) | DbErr(message: string)

  /** A write: the store afterwards and the error the helper hands back, if any. */
  datatype Written = Written(store: Store, error: Option<string>)

  const MissingTable := "relation does not exist"
  const NotSingle := "JSON object requested, multiple (or no) rows returned"

  function KindName(k: Kind): string {
    match k
    case Customers => "customers"
    case Campaigns => "campaigns"
    case Products => "products"
  }

  function TableName(k: Kind, userid: string): (t: string)
    ensures t == KindName(k) + "-" + userid
    ensures |t| > |userid| && t[|t| - |userid|..] == userid
  {
    KindName(k) + "-" + userid
  }

  function KeyColumn(k: Kind): string {
    if k == Campaigns then "uid" else "id"
  }

  predicate HasField(row: Row, column: string, v: Value) {
    column in row && row[column] == v
  }

  /** The row is selected by `.eq(key column, key).eq("userid", userid)`. */
  predicate Targets(k: Kind, row: Row, key: Value, userid: string) {
    HasField(row, KeyColumn(k), key) && HasField(row, "userid", VStr(userid))
  }

  predicate OwnedBy(row: Row, userid: string) {
    HasField(row, "userid", VStr(userid))
  }

  /** `select('*').eq('userid', userid)`: the tenant's rows, in table order. */
  function SelectAll(store: Store, k: Kind, userid: string): (r: Db<seq<Row>>)
    ensures r.DbErr? <==> TableName(k, userid) !in store
    ensures r.DbOk? ==> forall i :: 0 <= i < |r.value| ==> OwnedBy(r.value[i], userid) && r.value[i] in store[TableName(k, userid)]
    ensures r.DbOk? ==> forall row :: row in store[TableName(k, userid)] && OwnedBy(row, userid) ==> row in r.value
    ensures r.DbOk? ==> forall row :: multiset(r.value)[row] ==
                          if OwnedBy(row, userid) then multiset(store[TableName(k, userid)])[row] else 0
  {
    var t := TableName(k, userid);
    if t !in store then DbErr(MissingTable)
    else
      Seqs.FilterCount(store[t], (row: Row) => OwnedBy(row, userid));
      DbOk(Seqs.Filter(store[t], (row: Row) => OwnedBy(row, userid)))
  }

  /** `fetchCustomers`, `fetchCampaigns`, `fetchProducts`: the rows, or null on a database error. */
  function FetchAll(store: Store, k: Kind, userid: string): (r: Option<seq<Row>>)
    ensures r.None? <==> TableName(k, userid) !in store
    ensures r.Some? ==> forall i :: 0 <= i < |r.value| ==> OwnedBy(r.value[i], userid) && r.value[i] in store[TableName(k, userid)]
    ensures r.Some? ==> forall row :: row in store[TableName(k, userid)] && OwnedBy(row, userid) ==> row in r.value
    ensures r.Some? ==> r.value == SelectAll(store, k, userid).value
    ensures r.Some? ==> forall row :: multiset(r.value)[row] ==
                          if OwnedBy(row, userid) then multiset(store[TableName(k, userid)])[row] else 0
  {
    match SelectAll(store, k, userid)
    case DbErr(_) => None
    case DbOk(rows) => Some(rows)
  }

  function CountTargets(k: Kind, rows: seq<Row>, key: Value, userid: string): nat {
    |Seqs.Filter(rows, (row: Row) => Targets(k, row, key, userid))|
  }

  /** `.single()`: exactly one targeted row, or an error. */
  function SelectSingle(store: Store, k: Kind, key: Value, userid: string): (r: Db<Row>)
    ensures r.DbOk? ==> TableName(k, userid) in store && Targets(k, r.value, key, userid) && r.value in store[TableName(k, userid)]
    ensures TableName(k, userid) !in store ==> r.DbErr?
    ensures TableName(k, userid) in store ==> (r.DbOk? <==> CountTargets(k, store[TableName(k, userid)], key, userid) == 1)
  {
    var t := TableName(k, userid);
    if t !in store then DbErr(MissingTable)
    else
      var hits := Seqs.Filter(store[t], (row: Row) => Targets(k, row, key, userid));
      if |hits| == 1 then DbOk(hits[0]) else DbErr(NotSingle)
  }

  /** The rows after `.update(patch)`: targeted rows take the patch's columns, every other row is as it was. */
  function PatchRows(k: Kind, rows: seq<Row>, key: Value, userid: string, patch: Row): (r: seq<Row>)
    ensures |r| == |rows|
    ensures forall i :: 0 <= i < |rows| ==> (if Targets(k, rows[i], key, userid) then r[i] == rows[i] + patch else r[i] == rows[i])
  {
    seq(|rows|, i requires 0 <= i < |rows| => if Targets(k, rows[i], key, userid) then rows[i] + patch else rows[i])
  }

  /** `updateCustomer`, `updateCampaign`, `updateProduct` and the single-column writes built on them. */
  function Update(store: Store, k: Kind, key: Value, userid: string, patch: Row): (w: Written)
    ensures w.error.Some? <==> TableName(k, userid) !in store
    ensures w.error.Some? ==> w.store == store
    ensures w.store.Keys == store.Keys
    ensures forall t :: t in store && t != TableName(k, userid) ==> w.store[t] == store[t]
    ensures w.error.None? ==>
              var rows := store[TableName(k, userid)];
              var rows' := w.store[TableName(k, userid)];
              && |rows'| == |rows|
              && (forall i :: 0 <= i < |rows| && !Targets(k, rows[i], key, userid) ==> rows'[i] == rows[i])
              && (forall i :: 0 <= i < |rows| && Targets(k, rows[i], key, userid) ==> rows'[i] == rows[i] + patch)
  {
    var t := TableName(k, userid);
    if t !in store then Written(store, Some(MissingTable))
    else Written(store[t := PatchRows(k, store[t], key, userid, patch)], None)
  }

  /** Applying the same update twice leaves the store as applying it once. */
  lemma UpdateIdempotent(store: Store, k: Kind, key: Value, userid: string, patch: Row)
    requires HasField(patch, KeyColumn(k), key) || KeyColumn(k) !in patch
    requires HasField(patch, "userid", VStr(userid)) || "userid" !in patch
    ensures Update(Update(store, k, key, userid, patch).store, k, key, userid, patch).store
            == Update(store, k, key, userid, patch).store
  {
    var t := TableName(k, userid);
    if t in store {
      var once := PatchRows(k, store[t], key, userid, patch);
      var twice := PatchRows(k, once, key, userid, patch);
      forall i | 0 <= i < |once|
        ensures twice[i] == once[i]
      {
        if Targets(k, store[t][i], key, userid) {
          assert Targets(k, once[i], key, userid);
          assert once[i] + patch == once[i];
        } else {
          assert !Targets(k, once[i], key, userid);
        }
      }
      assert twice == once;
      assert Update(store, k, key, userid, patch).store == store[t := once];
    }
  }

  /** `deleteCustomer`, `deleteCampaign`, `deleteProduct`. */
  function Delete(store: Store, k: Kind, key: Value, userid: string): (w: Written)
    ensures w.error.Some? <==> TableName(k, userid) !in store
    ensures w.error.Some? ==> w.store == store
    ensures w.store.Keys == store.Keys
    ensures forall t :: t in store && t != TableName(k, userid) ==> w.store[t] == store[t]
    ensures w.error.None? ==>
              var rows := store[TableName(k, userid)];
              var rows' := w.store[TableName(k, userid)];
              && (forall i :: 0 <= i < |rows'| ==> !Targets(k, rows'[i], key, userid) && rows'[i] in rows)
              && (forall i :: 0 <= i < |rows| && !Targets(k, rows[i], key, userid) ==> rows[i] in rows')
              && multiset(rows') <= multiset(rows)
              && forall row :: multiset(rows')[row] == if Targets(k, row, key, userid) then 0 else multiset(rows)[row]
  {
    var t := TableName(k, userid);
    if t !in store then Written(store, Some(MissingTable))
    else
      Seqs.FilterCount(store[t], (row: Row) => !Targets(k, row, key, userid));
      Written(store[t := Seqs.Filter(store[t], (row: Row) => !Targets(k, row, key, userid))], None)
  }

  /** A second delete of the same key changes nothing. */
  lemma DeleteIdempotent(store: Store, k: Kind, key: Value, userid: string)
    ensures Delete(Delete(store, k, key, userid).store, k, key, userid).store == Delete(store, k, key, userid).store
  {
    var t := TableName(k, userid);
    if t in store {
      var p := (row: Row) => !Targets(k, row, key, userid);
      var once := Seqs.Filter(store[t], p);
      Seqs.FilterAll(once, p);
    }
  }

  /** `createCustomer`, `createCampaign`, `createProduct`: `.insert([row])` appends. */
  function Insert(store: Store, k: Kind, userid: string, row: Row): (w: Written)
    ensures w.error.Some? <==> TableName(k, userid) !in store
    ensures w.error.Some? ==> w.store == store
    ensures w.store.Keys == store.Keys
    ensures forall t :: t in store && t != TableName(k, userid) ==> w.store[t] == store[t]
    ensures w.error.None? ==> w.store[TableName(k, userid)] == store[TableName(k, userid)] + [row]
  {
    var t := TableName(k, userid);
    if t !in store then Written(store, Some(MissingTable))
    else Written(store[t := store[t] + [row]], None)
  }

  /** JavaScript truthiness of a stored value, for `x || []` and `x ? … : …`. */
  predicate Truthy(v: Value) {
    match v
    case VNull => false
    case VBool(b) => b
    case VNum(n) => n != 0.0
    case VStr(s) => s != ""
    case VList(_) => true
    case VObj(_) => true
  }

  /** `row[column] || []`: the list stored in `column`, with an absent or falsy column read as `[]`. */
  function ListIn(row: Row, column: string): (items: seq<Value>)
    ensures column !in row || !Truthy(row[column]) ==> items == []
    ensures column in row && row[column].VList? ==> items == row[column].items
  {
    if column in row && row[column].VList? then row[column].items else []
  }

  /** What `createCustomerActivity` ends in: the activity it returns, or the error it throws. */
  datatype Thrown = Returned(activity: Value) | Threw(message: string)

  datatype ActivityOutcome = ActivityOutcome(store: Store, result: Thrown)

  /** `{ id: now, ...activity }`: the supplied fields win over the generated `id`. */
  function NewActivity(now: int, fields: Row): (a: Row)
    ensures "id" in a && a.Keys == fields.Keys + {"id"}
    ensures forall c :: c in fields ==> a[c] == fields[c]
    ensures "id" !in fields ==> a["id"] == VNum(now as real)
  {
    map["id" := VNum(now as real)] + fields
  }

  /**
   * `createCustomerActivity`: read the customer's `activity` with `.single()`,
   * append the new activity, write the list back, and return the activity.
   * A read error is thrown before anything is written.
   */
  function CreateCustomerActivity(store: Store, userid: string, customerId: string, fields: Row, now: int): (out: ActivityOutcome)
    ensures SelectSingle(store, Customers, VStr(customerId), userid).DbErr? ==>
              out.result.Threw? && out.store == store
    ensures SelectSingle(store, Customers, VStr(customerId), userid).DbOk? ==>
              var old_ := SelectSingle(store, Customers, VStr(customerId), userid).value;
              && out.result == Returned(VObj(NewActivity(now, fields)))
              && out.store == Update(store, Customers, VStr(customerId), userid,
                                     map["activity" := VList(ListIn(old_, "activity") + [out.result.activity])]).store
  {
    match SelectSingle(store, Customers, VStr(customerId), userid)
    case DbErr(e) => ActivityOutcome(store, Threw(e))
    case DbOk(customer) =>
      var activity := VObj(NewActivity(now, fields));
      var updated := ListIn(customer, "activity") + [activity];
      var w := Update(store, Customers, VStr(customerId), userid, map["activity" := VList(updated)]);
      match w.error
      case Some(e) => ActivityOutcome(w.store, Threw(e))
      case None => ActivityOutcome(w.store, Returned(activity))
  }

  /**
   * After a successful `createCustomerActivity` the customer's stored list is
   * the previous list (or `[]`) followed by exactly the returned activity.
   */
  lemma {:induction false} CreateCustomerActivityAppends(store: Store, userid: string, customerId: string, fields: Row, now: int)
    requires SelectSingle(store, Customers, VStr(customerId), userid).DbOk?
    ensures var out := CreateCustomerActivity(store, userid, customerId, fields, now);
            var before := store[TableName(Customers, userid)];
            var after := out.store[TableName(Customers, userid)];
            && out.result.Returned?
            && |after| == |before|
            && (forall i :: 0 <= i < |before| && Targets(Customers, before[i], VStr(customerId), userid) ==>
                  ListIn(after[i], "activity") == ListIn(before[i], "activity") + [out.result.activity])
            && (forall i :: 0 <= i < |before| && !Targets(Customers, before[i], VStr(customerId), userid) ==>
                  after[i] == before[i])
  {
    var t := TableName(Customers, userid);
    var customer := SelectSingle(store, Customers, VStr(customerId), userid).value;
    var hits := Seqs.Filter(store[t], (row: Row) => Targets(Customers, row, VStr(customerId), userid));
    assert |hits| == 1 && customer == hits[0];
    forall i | 0 <= i < |store[t]| && Targets(Customers, store[t][i], VStr(customerId), userid)
      ensures store[t][i] == customer
    {
      OnlyTarget(store[t], hits, Customers, VStr(customerId), userid, i);
    }
  }

  /** When exactly one row is targeted, every targeted row is that row. */
  lemma OnlyTarget(rows: seq<Row>, hits: seq<Row>, k: Kind, key: Value, userid: string, i: nat)
    requires hits == Seqs.Filter(rows, (row: Row) => Targets(k, row, key, userid)) && |hits| == 1
    requires i < |rows| && Targets(k, rows[i], key, userid)
    ensures rows[i] == hits[0]
  {
    assert rows[i] in hits;
    Seqs.InSingleton(hits, rows[i]);
  }

  /**
   * `updateProductCustomers` / `updateCampaignCustomers`: read the row's
   * `customers` with `.single()`, and store the old list (or `[]`) followed by
   * the incoming entries. A read error is returned and nothing is written.
   */
  function AppendCustomers(store: Store, k: Kind, key: Value, incoming: seq<Value>, userid: string): (w: Written)
    ensures SelectSingle(store, k, key, userid).DbErr? ==> w.store == store && w.error.Some?
    ensures SelectSingle(store, k, key, userid).DbOk? ==>
              var existing := ListIn(SelectSingle(store, k, key, userid).value, "customers");
              w == Update(store, k, key, userid, map["customers" := VList(existing + incoming)])
  {
    match SelectSingle(store, k, key, userid)
    case DbErr(e) => Written(store, Some(e))
    case DbOk(row) => Update(store, k, key, userid, map["customers" := VList(ListIn(row, "customers") + incoming)])
  }

  function UpdateProductCustomers(store: Store, productId: string, incoming: seq<Value>, userid: string): (w: Written)
    ensures SelectSingle(store, Products, VStr(productId), userid).DbErr? ==> w.store == store && w.error.Some?
    ensures SelectSingle(store, Products, VStr(productId), userid).DbOk? ==>
              var existing := ListIn(SelectSingle(store, Products, VStr(productId), userid).value, "customers");
              w == Update(store, Products, VStr(productId), userid, map["customers" := VList(existing + incoming)])
  {
    AppendCustomers(store, Products, VStr(productId), incoming, userid)
  }

  function UpdateCampaignCustomers(store: Store, campaignId: string, incoming: seq<Value>, userid: string): (w: Written)
    ensures SelectSingle(store, Campaigns, VStr(campaignId), userid).DbErr? ==> w.store == store && w.error.Some?
    ensures SelectSingle(store, Campaigns, VStr(campaignId), userid).DbOk? ==>
              var existing := ListIn(SelectSingle(store, Campaigns, VStr(campaignId), userid).value, "customers");
              w == Update(store, Campaigns, VStr(campaignId), userid, map["customers" := VList(existing + incoming)])
  {
    AppendCustomers(store, Campaigns, VStr(campaignId), incoming, userid)
  }

  /**
   * A merge keeps every earlier entry in place: the stored list of the
   * targeted row is its previous list with the incoming entries after it.
   */
  lemma {:induction false} AppendCustomersKeepsPrefix(store: Store, k: Kind, key: Value, incoming: seq<Value>, userid: string)
    requires SelectSingle(store, k, key, userid).DbOk?
    ensures var t := TableName(k, userid);
            var w := AppendCustomers(store, k, key, incoming, userid);
            && w.error.None?
            && (forall i :: 0 <= i < |store[t]| && Targets(k, store[t][i], key, userid) ==>
                  ListIn(w.store[t][i], "customers") == ListIn(store[t][i], "customers") + incoming)
  {
    var t := TableName(k, userid);
    var hits := Seqs.Filter(store[t], (row: Row) => Targets(k, row, key, userid));
    forall i | 0 <= i < |store[t]| && Targets(k, store[t][i], key, userid)
      ensures store[t][i] == SelectSingle(store, k, key, userid).value
    {
      OnlyTarget(store[t], hits, k, key, userid, i);
    }
  }

  /** JavaScript's `Math.round` for the non-negative means it is applied to here. */
  function Round(x: real): int {
    (x + 0.5).Floor
  }

  lemma RoundIsNearest(x: real)
    ensures -0.5 < Round(x) as real - x <= 0.5
  {
  }

  function Sum(xs: seq<real>): real {
    if |xs| == 0 then 0.0 else Sum(xs[..|xs| - 1]) + xs[|xs| - 1]
  }

  lemma {:induction false} SumBounds(xs: seq<real>)
    requires forall i :: 0 <= i < |xs| ==> 0.0 <= xs[i] <= 100.0
    ensures 0.0 <= Sum(xs) <= 100.0 * |xs| as real
  {
    if |xs| > 0 {
      SumBounds(xs[..|xs| - 1]);
    }
  }

  /**
   * `Math.round(total / count)`. An empty list divides zero by zero: the NaN
   * is sent as JSON `null`, which is what is stored.
   */
  function Estimate(xs: seq<real>): (v: Value)
    ensures |xs| == 0 <==> v == VNull
    ensures |xs| > 0 ==> v.VNum? && v.n == Round(Sum(xs) / |xs| as real) as real
  {
    if |xs| == 0 then VNull else VNum(Round(Sum(xs) / |xs| as real) as real)
  }

  /** Likelihoods in [0,100] average to an integer estimate in [0,100], within one half of the mean. */
  lemma {:induction false} EstimateInRange(xs: seq<real>)
    requires |xs| > 0
    requires forall i :: 0 <= i < |xs| ==> 0.0 <= xs[i] <= 100.0
    ensures Estimate(xs).VNum?
    ensures Estimate(xs).n == Estimate(xs).n.Floor as real
    ensures 0.0 <= Estimate(xs).n <= 100.0
    ensures -0.5 < Estimate(xs).n - Sum(xs) / |xs| as real <= 0.5
  {
    SumBounds(xs);
    var mean := Sum(xs) / |xs| as real;
    assert 0.0 <= mean <= 100.0 by {
      assert Sum(xs) <= 100.0 * |xs| as real;
    }
    RoundIsNearest(mean);
  }

  lemma EstimateExample()
    ensures Estimate([80.0, 60.0, 40.0]) == VNum(60.0)
  {
    assert [80.0, 60.0, 40.0][..2] == [80.0, 60.0];
    assert [80.0, 60.0][..1] == [80.0];
    assert [80.0][..0] == [];
  }

  /**
   * The effect of writing estimate `est` into table `t` of `store`, giving
   * `s'`: the other tables are untouched, the table keeps its length, the
   * rows the key and seller select get `likeestimate == est` with every other
   * column kept, and the remaining rows are unchanged.
   */
  ghost predicate OnlyEstimateWritten(store: Store, s': Store, k: Kind, key: Value, userid: string, est: Value)
    requires TableName(k, userid) in store
  {
    var t := TableName(k, userid);
    && s'.Keys == store.Keys
    && (forall t' :: t' in store && t' != t ==> s'[t'] == store[t'])
    && |s'[t]| == |store[t]|
    && (forall i, c :: 0 <= i < |store[t]| && c in store[t][i] && c != "likeestimate" ==>
          c in s'[t][i] && s'[t][i][c] == store[t][i][c])
    && (forall i :: 0 <= i < |store[t]| && Targets(k, store[t][i], key, userid) ==>
          "likeestimate" in s'[t][i] && s'[t][i]["likeestimate"] == est)
    && (forall i :: 0 <= i < |store[t]| && !Targets(k, store[t][i], key, userid) ==> s'[t][i] == store[t][i])
  }

  /** `updateProductLikelihood`: only `likeestimate`, only on the row with this id and userid. */
  function UpdateProductLikelihood(store: Store, productId: string, likelihoods: seq<real>, userid: string): (w: Written)
    ensures w.error.Some? <==> TableName(Products, userid) !in store
    ensures w.error.Some? ==> w.store == store
    ensures w.error.None? ==> OnlyEstimateWritten(store, w.store, Products, VStr(productId), userid, Estimate(likelihoods))
  {
    if TableName(Products, userid) in store then
      LikelihoodWriteTouchesOnlyEstimate(store, Products, VStr(productId), likelihoods, userid);
      Update(store, Products, VStr(productId), userid, map["likeestimate" := Estimate(likelihoods)])
    else
      Update(store, Products, VStr(productId), userid, map["likeestimate" := Estimate(likelihoods)])
  }

  /** `updateCampaignLikelihood`: the same estimate, on the campaign row with this uid and userid. */
  function UpdateCampaignLikelihood(store: Store, campaignId: string, likelihoods: seq<real>, userid: string): (w: Written)
    ensures w.error.Some? <==> TableName(Campaigns, userid) !in store
    ensures w.error.Some? ==> w.store == store
    ensures w.error.None? ==> OnlyEstimateWritten(store, w.store, Campaigns, VStr(campaignId), userid, Estimate(likelihoods))
  {
    if TableName(Campaigns, userid) in store then
      LikelihoodWriteTouchesOnlyEstimate(store, Campaigns, VStr(campaignId), likelihoods, userid);
      Update(store, Campaigns, VStr(campaignId), userid, map["likeestimate" := Estimate(likelihoods)])
    else
      Update(store, Campaigns, VStr(campaignId), userid, map["likeestimate" := Estimate(likelihoods)])
  }

  /**
   * Writing an estimate changes the `likeestimate` column of the targeted
   * rows and nothing else anywhere in the store.
   */
  lemma {:induction false} LikelihoodWriteTouchesOnlyEstimate(store: Store, k: Kind, key: Value, likelihoods: seq<real>, userid: string)
    requires TableName(k, userid) in store
    ensures OnlyEstimateWritten(store, Update(store, k, key, userid, map["likeestimate" := Estimate(likelihoods)]).store,
                                k, key, userid, Estimate(likelihoods))
  {
    var t := TableName(k, userid);
    var patch := map["likeestimate" := Estimate(likelihoods)];
    var s' := Update(store, k, key, userid, patch).store;
    forall i, c | 0 <= i < |store[t]| && c in store[t][i] && c != "likeestimate"
      ensures c in s'[t][i] && s'[t][i][c] == store[t][i][c]
    {
      if Targets(k, store[t][i], key, userid) {
        assert s'[t][i] == store[t][i] + patch;
      }
    }
  }
}

=== FILE: decimal.dfy ===
/**
 * Decimal digit strings: their value, and the rendering of integers that
 * JavaScript's `Number.prototype.toString()` produces for them.
 */
module Decimal {

  /** `\d` in a JavaScript regular expression without the `u` flag. */
  predicate IsDigit(c: char) {
    '0' <= c <= '9'
  }

  predicate AllDigits(s: string) {
    forall i :: 0 <= i < |s| ==> IsDigit(s[i])
  }

  function DigitValue(c: char): (d: nat)
    requires IsDigit(c)
    ensures d < 10
  {
    c as int - '0' as int
  }

  function DigitChar(d: nat): (c: char)
    requires d < 10
    ensures IsDigit(c) && DigitValue(c) == d
  {
    ('0' as int + d) as char
  }

  /** The value of a string of decimal digits, most significant first. */
  function Value(s: string): nat
    requires AllDigits(s)
    decreases |s|
  {
    if |s| == 0 then 0 else Value(s[..|s| - 1]) * 10 + DigitValue(s[|s| - 1])
  }

  function Pow10(n: nat): (p: nat)
    ensures p >= 1
  {
    if n == 0 then 1 else 10 * Pow10(n - 1)
  }

  lemma {:induction false} Pow10Monotone(a: nat, b: nat)
    requires a <= b
    ensures Pow10(a) <= Pow10(b)
    decreases b
  {
    if a < b {
      Pow10Monotone(a, b - 1);
    }
  }

  /** The decimal rendering of a natural number, without leading zeros. */
  function FromNat(n: nat): (s: string)
    ensures |s| >= 1 && AllDigits(s)
    ensures |s| > 1 ==> s[0] != '0'
    ensures Value(s) == n
    ensures n < Pow10(|s|) && (|s| > 1 ==> Pow10(|s| - 1) <= n)
    decreases n
  {
    if n < 10 then [DigitChar(n)]
    else
      var prefix := FromNat(n / 10);
      var s := prefix + [DigitChar(n % 10)];
      assert s[..|s| - 1] == prefix;
      s
  }

  /** Different numbers render differently. */
  lemma FromNatInjective(a: nat, b: nat)
    requires FromNat(a) == FromNat(b)
    ensures a == b
  {
  }

  /** `Number.prototype.toString()` on an integer. */
  function FromInt(i: int): (s: string)
    ensures |s| >= 1
    ensures i >= 0 ==> s == FromNat(i)
    ensures i < 0 ==> s == "-" + FromNat(-i)
  {
    if i < 0 then "-" + FromNat(-i) else FromNat(i)
  }

  /** Different integers render differently. */
  lemma FromIntInjective(a: int, b: int)
    requires FromInt(a) == FromInt(b)
    ensures a == b
  {
    if a >= 0 && b >= 0 {
      FromNatInjective(a, b);
    } else if a < 0 && b < 0 {
      assert FromNat(-a) == FromInt(a)[1..] == FromInt(b)[1..] == FromNat(-b);
      FromNatInjective(-a, -b);
    }
  }
}

=== FILE: domain.dfy ===
/**
 * The records the application passes between its pages, its API routes and
 * the per-tenant tables. A text field that may be absent or `null` is the
 * empty string here. Truthiness tests and `||` defaults treat those like
 * empty text, but a prompt that interpolates such a field directly prints
 * `null` or `undefined`, which this model does not reproduce.
 */
module Domain {
  import opened Wrappers

  /** One entry of a customer's activity history, or of a product's / campaign's customer list. */
  datatype Activity = Activity(
    id: Option<int>,
    customerId: string,
    customerName: string,
    kind: string,
    productId: string,
    productName: string,
    message: string,
    status: string,
    date: int)

  /** A row of `customers-<userid>`. `activity` is `None` when the column is null. */
  datatype Customer = Customer(
    id: string,
    name: string,
    email: string,
    phone: string,
    likes: string,
    dislikes: string,
    preferences: string,
    userid: string,
    activity: Option<seq<Activity>>)

  /** A row of `products-<userid>`. */
  datatype Product = Product(
    id: int,
    name: string,
    price: string,
    description: string,
    keywords: string,
    category: string,
    likeestimate: Option<real>)

  /** A row of `campaigns-<userid>`; `products` holds a product id as text, or null. */
  datatype Campaign = Campaign(
    uid: string,
    name: string,
    description: string,
    keywords: string,
    products: Option<string>,
    campaignDate: Option<string>,
    userid: string,
    likeestimate: Option<real>,
    customers: seq<Activity>)

  /** One element of an analysis route's answer. */
  datatype AnalysisResult = AnalysisResult(customerId: string, customerName: string, likelihood: real, reason: string)

  /** An API route's JSON answer: the body, or an HTTP error status with `{error}`. */
  datatype Response<T> = Ok(body: T) | Fail(status: nat, error: string)

  /** A chat message as the chat hook and the chat route exchange them. */
  datatype ChatMessage = ChatMessage(role: string, content: string)

  /** A drafted outreach message: none, plain text, or an email with subject and body. */
  datatype Message = NoMessage | Plain(text: string) | Email(subject: string, content: string)
}

=== FILE: home_page.dfy ===
/**
 * The home page's gate: while the session loads or the seller's `users` row
 * is being looked up it shows a loading text; a signed-out visitor is asked
 * to sign in; a signed-in seller without a row gets the onboarding dialog,
 * and everybody else the dashboard.
 */
module HomePage {
  import opened Wrappers

  /** PostgREST's code for "no row" on `.single()`. */
  const NoRowCode := "PGRST116"
  const CheckFailed := "Failed to check user status. Please try again later."

  datatype State = State(showOnboarding: bool, checking: bool, toast: Option<string>)

  function Initial(): (s: State)
    ensures !s.showOnboarding && s.checking && s.toast.None?
  {
    State(false, true, None)
  }

  /** The lookup of the seller's row: found, failed with an error code, or thrown. */
  datatype Lookup = RowFound | LookupError(code: string) | LookupThrew

  /** The session as the identity provider reports it. */
  datatype Session = Session(loaded: bool, signedIn: bool, user: Option<string>)

  predicate LooksUp(session: Session) {
    session.loaded && session.signedIn && session.user.Some?
  }

  /**
   * `checkUserInDatabase`. Only a "no row" error opens onboarding; any other
   * error or exception shows an error toast and keeps it closed; checking
   * ends after every lookup and for a loaded, signed-out session.
   */
  function Check(s: State, session: Session, lookup: Lookup): (s': State)
    ensures LooksUp(session) ==> (s'.showOnboarding <==> lookup == LookupError(NoRowCode))
    ensures LooksUp(session) && (lookup.LookupThrew? || (lookup.LookupError? && lookup.code != NoRowCode)) ==>
              s'.toast == Some(CheckFailed)
    ensures !(lookup.LookupThrew? || (lookup.LookupError? && lookup.code != NoRowCode)) ==> s'.toast == s.toast
    ensures LooksUp(session) || (session.loaded && !session.signedIn) ==> !s'.checking
    ensures !LooksUp(session) ==> s'.showOnboarding == s.showOnboarding && s'.toast == s.toast
    ensures !LooksUp(session) && !(session.loaded && !session.signedIn) ==> s' == s
  {
    if LooksUp(session) then
      match lookup
      case RowFound => s.(showOnboarding := false, checking := false)
      case LookupError(code) =>
        if code == NoRowCode then s.(showOnboarding := true, checking := false)
        else s.(showOnboarding := false, checking := false, toast := Some(CheckFailed))
      case LookupThrew => s.(showOnboarding := false, checking := false, toast := Some(CheckFailed))
    else if session.loaded && !session.signedIn then s.(checking := false)
    else s
  }

  /** The effect on the onboarding flag: a completed onboarding hides the dialog. */
  function OnboardingFlag(s: State, complete: bool): (s': State)
    ensures complete ==> !s'.showOnboarding
    ensures s'.checking == s.checking && s'.toast == s.toast
    ensures !complete ==> s' == s
  {
    if complete then s.(showOnboarding := false) else s
  }

  datatype Screen = Loading | SignInPrompt | Onboarding | Dashboard

  /** `Home`'s render. */
  function Render(session: Session, s: State): (v: Screen)
    ensures v == Loading <==> !session.loaded || s.checking
    ensures v == SignInPrompt <==> session.loaded && !s.checking && !session.signedIn
    ensures v == Onboarding <==> session.loaded && !s.checking && session.signedIn && s.showOnboarding
    ensures v == Dashboard <==> session.loaded && !s.checking && session.signedIn && !s.showOnboarding
  {
    if !session.loaded || s.checking then Loading
    else if !session.signedIn then SignInPrompt
    else if s.showOnboarding then Onboarding
    else Dashboard
  }

  /**
   * From the initial state, one check on a loaded session decides the
   * screen: sign-in when signed out, onboarding exactly when the lookup
   * found no row, the dashboard otherwise; a completed onboarding always
   * leads to the dashboard.
   */
  lemma FirstCheckDecides(session: Session, lookup: Lookup, complete: bool)
    requires session.loaded && (session.signedIn ==> session.user.Some?)
    ensures var v := Render(session, OnboardingFlag(Check(Initial(), session, lookup), complete));
            && (!session.signedIn ==> v == SignInPrompt)
            && (session.signedIn ==> (v == Onboarding <==> lookup == LookupError(NoRowCode) && !complete))
            && (session.signedIn ==> (v == Dashboard <==> lookup != LookupError(NoRowCode) || complete))
  {
  }
}

=== FILE: message_page.dfy ===
/**
 * The message page of the new-product flow: generate a message for every
 * selected customer that has none, regenerate or edit one message, send,
 * send all, and copy a message to the clipboard.
 *
 * The page's rows come from the selection page and carry the customer's
 * `id` and the tenant's `userid`, but no `user_id`; the page nevertheless
 * matches rows on `user_id`. `userIdField` is that (absent) property.
 */
module MessagePage {
  import opened Wrappers
  import opened Text
  import opened Domain
  import Seqs
  import MessageRoute

  datatype Recipient = Recipient(customer: Customer, userIdField: Option<string>, message: Message)

  const GenerationFailed := "Failed to generate message"
  const ParagraphBreak := "\n\n"

  /** JavaScript truthiness of `customer.message`: an email object, or a non-empty string. */
  predicate HasMessage(m: Message) {
    m.Email? || (m.Plain? && m.text != "")
  }

  /** `generateMessageForCustomer`: the route's `message`, or a fixed text when the request fails. */
  function Generated(reply: Response<MessageRoute.Reply>): (m: Message)
    ensures reply.Fail? ==> m == Plain(GenerationFailed)
    ensures reply.Ok? ==> m == reply.body.message
  {
    match reply
    case Ok(body) => body.message
    case Fail(_, _) => Plain(GenerationFailed)
  }

  /** `generateAllMessages`: fill in a message only where there is none; keep length and order. */
  function GenerateAll(rs: seq<Recipient>, replies: nat -> Response<MessageRoute.Reply>): (out: seq<Recipient>)
    ensures |out| == |rs|
    ensures forall i :: 0 <= i < |rs| && HasMessage(rs[i].message) ==> out[i] == rs[i]
    ensures forall i :: 0 <= i < |rs| && !HasMessage(rs[i].message) ==>
              out[i] == rs[i].(message := Generated(replies(i)))
  {
    seq(|rs|, i requires 0 <= i < |rs| =>
      if HasMessage(rs[i].message) then rs[i] else rs[i].(message := Generated(replies(i))))
  }

  /** After bulk generation every row has a message, provided a successful reply always carries one. */
  lemma {:induction false} GenerateAllFillsEveryRow(rs: seq<Recipient>, replies: nat -> Response<MessageRoute.Reply>)
    requires forall i: nat :: replies(i).Ok? ==> HasMessage(replies(i).body.message)
    ensures forall i :: 0 <= i < |rs| ==> HasMessage(GenerateAll(rs, replies)[i].message)
  {
    forall i | 0 <= i < |rs|
      ensures HasMessage(GenerateAll(rs, replies)[i].message)
    {
      if !HasMessage(rs[i].message) {
        assert HasMessage(Generated(replies(i)));
      }
    }
  }

  /** `prev.map(c => c.user_id === key ? f(c) : c)`: rows matching on the absent `user_id`. */
  function ReplaceWhereUserId(rs: seq<Recipient>, key: Option<string>, updated: Recipient -> Recipient): (out: seq<Recipient>)
    ensures |out| == |rs|
    ensures forall i :: 0 <= i < |rs| ==> out[i] == (if rs[i].userIdField == key then updated(rs[i]) else rs[i])
  {
    seq(|rs|, i requires 0 <= i < |rs| => if rs[i].userIdField == key then updated(rs[i]) else rs[i])
  }

  /** The intended matching, on the customer's `id`. */
  function ReplaceWhereId(rs: seq<Recipient>, id: string, updated: Recipient -> Recipient): (out: seq<Recipient>)
    ensures |out| == |rs|
    ensures forall i :: 0 <= i < |rs| && rs[i].customer.id != id ==> out[i] == rs[i]
    ensures forall i :: 0 <= i < |rs| && rs[i].customer.id == id ==> out[i] == updated(rs[i])
  {
    seq(|rs|, i requires 0 <= i < |rs| => if rs[i].customer.id == id then updated(rs[i]) else rs[i])
  }

  /** `generateMessage` as written: the new message goes to every row with the same `user_id`. */
  function RegenerateAsWritten(rs: seq<Recipient>, target: Recipient, reply: Response<MessageRoute.Reply>): (out: seq<Recipient>)
    ensures |out| == |rs|
    ensures forall i :: 0 <= i < |rs| && rs[i].userIdField != target.userIdField ==> out[i] == rs[i]
  {
    ReplaceWhereUserId(rs, target.userIdField, (c: Recipient) => c.(message := Generated(reply)))
  }

  /** `generateMessage` with rows matched on `id`: only the target's row changes. */
  function Regenerate(rs: seq<Recipient>, target: Recipient, reply: Response<MessageRoute.Reply>): (out: seq<Recipient>)
    ensures |out| == |rs|
    ensures forall i :: 0 <= i < |rs| && rs[i].customer.id != target.customer.id ==> out[i] == rs[i]
    ensures forall i :: 0 <= i < |rs| && rs[i].customer.id == target.customer.id ==>
              out[i] == rs[i].(message := Generated(reply))
  {
    ReplaceWhereId(rs, target.customer.id, (c: Recipient) => c.(message := Generated(reply)))
  }

  /** `openEditDialog`: the text put into the editor. */
  function EditText(m: Message): string {
    match m
    case NoMessage => ""
    case Plain(t) => t
    case Email(subject, content) => subject + ParagraphBreak + content
  }

  /**
   * `handleEditSubmit`'s message: for `email`, the first paragraph is the
   * subject and the remaining paragraphs, re-joined, the content; otherwise
   * the raw text.
   */
  function SavedMessage(preferences: string, text: string): (m: Message)
    ensures preferences != "email" ==> m == Plain(text)
    ensures preferences == "email" ==> m.Email? && !Contains(m.subject, ParagraphBreak)
    ensures preferences == "email" ==> text == m.subject || text == m.subject + ParagraphBreak + m.content
    ensures preferences == "email" && FindFirst(text, ParagraphBreak).None? ==> m == Email(text, "")
    ensures preferences == "email" && FindFirst(text, ParagraphBreak).Some? ==>
              var i := FindFirst(text, ParagraphBreak).value;
              m == Email(text[..i], text[i + |ParagraphBreak|..])
  {
    if preferences == "email" then
      var parts := Split(text, ParagraphBreak);
      SplitHead(text, ParagraphBreak);
      Email(parts[0], Join(parts[1..], ParagraphBreak))
    else Plain(text)
  }

  /** A subject the editor can carry through unchanged. */
  predicate EditableSubject(subject: string) {
    !Contains(subject, ParagraphBreak) && (subject == "" || subject[|subject| - 1] != '\n')
  }

  /**
   * Opening the editor on an email and saving it unchanged gives back the same
   * subject and content, provided the subject has no blank line in it and
   * does not end in a newline.
   */
  lemma {:induction false} EditRoundTrip(subject: string, content: string)
    requires EditableSubject(subject)
    ensures SavedMessage("email", EditText(Email(subject, content))) == Email(subject, content)
  {
    var text := subject + ParagraphBreak + content;
    forall j: nat | j < |subject|
      ensures !OccursAt(text, ParagraphBreak, j)
    {
      if j + 2 <= |subject| {
        assert text[j..j + 2] == subject[j..j + 2];
        assert !OccursAt(subject, ParagraphBreak, j);
      } else {
        assert text[j] == subject[|subject| - 1];
        assert text[j..j + 2][0] == text[j];
      }
    }
    SplitAtFirst(subject, ParagraphBreak, content);
    JoinSplit(content, ParagraphBreak);
    assert Split(text, ParagraphBreak)[1..] == Split(content, ParagraphBreak);
  }

  /** A plain message survives the editor unchanged for any preference but `email`. */
  lemma PlainEditRoundTrip(preferences: string, t: string)
    requires preferences != "email"
    ensures SavedMessage(preferences, EditText(Plain(t))) == Plain(t)
  {
  }

  /** A subject ending in a newline loses it: the newline moves into the content. */
  lemma EditRoundTripNeedsCondition()
    ensures SavedMessage("email", EditText(Email("a\n", "b"))) == Email("a", "\nb")
  {
    var text := "a\n" + ParagraphBreak + "b";
    assert text == "a" + ParagraphBreak + "\nb";
    forall j: nat | j < 1 ensures !OccursAt(text, ParagraphBreak, j) {
      assert text[0] == 'a';
    }
    SplitAtFirst("a", ParagraphBreak, "\nb");
    forall j: nat ensures !OccursAt("\nb", ParagraphBreak, j) {
      if j == 0 {
        assert "\nb"[0..2][1] == 'b';
      }
    }
    SplitHead("\nb", ParagraphBreak);
  }

  /** `handleEditSubmit` as written: every row with the editing row's `user_id` becomes the edited row. */
  function EditSubmitAsWritten(rs: seq<Recipient>, editing: Recipient, text: string): (out: seq<Recipient>)
    ensures |out| == |rs|
    ensures forall i :: 0 <= i < |rs| && rs[i].userIdField != editing.userIdField ==> out[i] == rs[i]
  {
    var updated := editing.(message := SavedMessage(editing.customer.preferences, text));
    ReplaceWhereUserId(rs, editing.userIdField, (c: Recipient) => updated)
  }

  /** `handleEditSubmit` with rows matched on `id`: only the edited row changes, and it keeps its own fields. */
  function EditSubmit(rs: seq<Recipient>, editing: Recipient, text: string): (out: seq<Recipient>)
    ensures |out| == |rs|
    ensures forall i :: 0 <= i < |rs| && rs[i].customer.id != editing.customer.id ==> out[i] == rs[i]
    ensures forall i :: 0 <= i < |rs| && rs[i] == editing ==>
              out[i] == rs[i].(message := SavedMessage(editing.customer.preferences, text))
  {
    var updated := editing.(message := SavedMessage(editing.customer.preferences, text));
    ReplaceWhereId(rs, editing.customer.id, (c: Recipient) => updated)
  }

  /**
   * No row carries `user_id`, so `undefined === undefined` holds for every row:
   * as written, saving an edit overwrites every row, customer included, with
   * the edited one, and regenerating gives every row the new message.
   */
  lemma {:induction false} UserIdMatchesEveryRow(rs: seq<Recipient>, editing: Recipient, text: string, reply: Response<MessageRoute.Reply>)
    requires forall i :: 0 <= i < |rs| ==> rs[i].userIdField.None?
    requires editing.userIdField.None?
    ensures forall i :: 0 <= i < |rs| ==>
              EditSubmitAsWritten(rs, editing, text)[i] == editing.(message := SavedMessage(editing.customer.preferences, text))
    ensures forall i :: 0 <= i < |rs| ==> RegenerateAsWritten(rs, editing, reply)[i].message == Generated(reply)
  {
  }

  /** Two rows, two customers: one edit as written leaves both rows showing the first customer. */
  lemma EditSubmitAsWrittenLosesCustomer(a: Customer, b: Customer, text: string)
    requires a != b
    ensures var rs := [Recipient(a, None, NoMessage), Recipient(b, None, NoMessage)];
            EditSubmitAsWritten(rs, rs[0], text)[1].customer == a != b
  {
  }

  /** `sendMessage`: refused without a message, otherwise sent to the customer. */
  datatype Delivery = Refused | Sent(to: string)

  function Send(r: Recipient): (d: Delivery)
    ensures d == Refused <==> !HasMessage(r.message)
    ensures d.Sent? ==> d.to == r.customer.name
  {
    if HasMessage(r.message) then Sent(r.customer.name) else Refused
  }

  predicate RowHasMessage(r: Recipient) {
    HasMessage(r.message)
  }

  /**
   * `sendAllMessages`: walk the rows in order and send each one that has a
   * message; every delivery succeeds, and the rows sent are exactly the rows
   * with a message, in table order.
   */
  method SendAll(rs: seq<Recipient>) returns (sent: seq<Recipient>, deliveries: seq<Delivery>)
    ensures sent == Seqs.Filter(rs, RowHasMessage)
    ensures |deliveries| == |sent|
    ensures forall k :: 0 <= k < |sent| ==> deliveries[k] == Sent(sent[k].customer.name)
  {
    sent := [];
    deliveries := [];
    var i := 0;
    while i < |rs|
      invariant 0 <= i <= |rs|
      invariant SentSoFar(rs, i, sent, deliveries)
    {
      SendStep(rs, i, sent, deliveries);
      if HasMessage(rs[i].message) {
        deliveries := deliveries + [Send(rs[i])];
        sent := sent + [rs[i]];
      }
      i := i + 1;
    }
    assert rs[..|rs|] == rs;
  }

  /** After the first `i` rows: the rows sent are those with a message, each delivered to its customer. */
  ghost predicate SentSoFar(rs: seq<Recipient>, i: nat, sent: seq<Recipient>, deliveries: seq<Delivery>)
    requires i <= |rs|
  {
    && sent == Seqs.Filter(rs[..i], RowHasMessage)
    && |deliveries| == |sent|
    && forall k :: 0 <= k < |sent| ==> deliveries[k] == Sent(sent[k].customer.name)
  }

  /** One row of `sendAllMessages` keeps `SentSoFar`. */
  lemma {:induction false} SendStep(rs: seq<Recipient>, i: nat, sent: seq<Recipient>, deliveries: seq<Delivery>)
    requires i < |rs| && SentSoFar(rs, i, sent, deliveries)
    ensures HasMessage(rs[i].message) ==> SentSoFar(rs, i + 1, sent + [rs[i]], deliveries + [Send(rs[i])])
    ensures !HasMessage(rs[i].message) ==> SentSoFar(rs, i + 1, sent, deliveries)
  {
    Seqs.FilterPrefixStep(rs, i, RowHasMessage);
  }

  /** `copyMessageToClipboard`: nothing without a message; a subject is prefixed with `Subject: `. */
  function CopyText(m: Message): (t: Option<string>)
    ensures t.None? <==> !HasMessage(m)
    ensures m.Plain? && m.text != "" ==> t == Some(m.text)
    ensures m.Email? && m.subject == "" ==> t == Some(m.content)
  {
    match m
    case NoMessage => None
    case Plain(text) => if text == "" then None else Some(text)
    case Email(subject, content) =>
      if subject != "" then Some("Subject: " + subject + ParagraphBreak + content) else Some(content)
  }

  /** For an email with a subject the copied text is the editor's text behind a `Subject: ` label. */
  lemma CopyIsLabelledEditText(subject: string, content: string)
    requires subject != ""
    ensures CopyText(Email(subject, content)) == Some("Subject: " + EditText(Email(subject, content)))
  {
    assert "Subject: " + subject + ParagraphBreak + content == "Subject: " + (subject + ParagraphBreak + content);
  }
}

=== FILE: message_route.dfy ===
/**
 * `POST /api/generate-message`: build a prompt from the customer, the
 * product and the seller's stored profile, ask the chat model for a
 * message, and shape the answer. For customers whose preference is the
 * literal `email` the answer is split into a subject line and a body.
 * `JSON.stringify` is a parameter of the model.
 */
module MessageRoute {
  import opened Wrappers
  import opened Text
  import opened Domain
  import Datastore

  /** The `users` row the route reads: `userprof, userstyle, useronchat, name`. */
  datatype UserData = UserData(userprof: Datastore.Value, userstyle: Datastore.Value, useronchat: Datastore.Value, name: string)

  /** The chat completion: it threw, it had no first choice, or its first choice's (nullable) content. */
  datatype Completion = CompletionThrew | NoChoice | Choice(content: Option<string>)

  /** The JSON body of a successful answer. */
  datatype Reply = Reply(message: Message, style: Datastore.Value, profile: Datastore.Value, context: Datastore.Value)

  datatype Call = FetchUser(userId: Option<string>) | Chat(system: string, prompt: string)

  datatype Outcome = Outcome(response: Response<Reply>, calls: seq<Call>)

  const SystemMessage := "You are an expert in generating personalized customer messages that match specific writing styles and professional levels while maintaining context from previous interactions."
  const EmailInstruction := "For email format, provide a subject line followed by the email content."
  const NoHistory := "No previous conversations"

  predicate WantsEmail(c: Customer) {
    c.preferences == "email"
  }

  const Intro: seq<string> := ["Generate a personalized message for a customer about a product.", "", "Customer Details:"]

  function DetailLines(c: Customer, p: Product): seq<string> {
    [ "- Name: " + c.name,
      "- Likes: " + c.likes,
      "- Dislikes: " + c.dislikes,
      "",
      "Product Details:",
      "- Name: " + p.name,
      "- Description: " + p.description,
      "",
      "Writing Style Instructions:" ]
  }

  /** A stored profile value contributes its line only when it is truthy. */
  function OptionalLine(heading: string, v: Datastore.Value, json: Datastore.Value -> string): string {
    if Datastore.Truthy(v) then heading + json(v) else ""
  }

  function HistoryLine(u: UserData, json: Datastore.Value -> string): string {
    if Datastore.Truthy(u.useronchat) then json(u.useronchat) else NoHistory
  }

  function EmailLine(c: Customer): string {
    if WantsEmail(c) then EmailInstruction else ""
  }

  const Consistency := "Please maintain consistency with the user's writing style and professional level while incorporating relevant context from previous conversations."

  /** The last line names the customer and the seller. */
  function ClosingLine(c: Customer, u: UserData): string {
    Consistency + " The Customer is " + c.name + ". The person selling the product is " + u.name + "."
  }

  /** The two style lines, the history block and the closing instructions. */
  function ProfileLines(c: Customer, u: UserData, json: Datastore.Value -> string): seq<string> {
    [ OptionalLine("- Writing Style: ", u.userstyle, json),
      OptionalLine("- Professional Level: ", u.userprof, json),
      "",
      "Previous Conversations for Context:",
      HistoryLine(u, json),
      "",
      "The message should be in " + c.preferences + " format and should be personalized based on their likes and dislikes.",
      EmailLine(c),
      ClosingLine(c, u) ]
  }

  /**
   * The prompt's lines. The style line and the profession line are empty
   * unless the stored value is truthy, the history line falls back to a fixed
   * text, and the email instruction follows the format line only for `email`.
   */
  function PromptLines(c: Customer, p: Product, u: UserData, json: Datastore.Value -> string): (lines: seq<string>)
    ensures |lines| == 21
    ensures lines[12] != "" <==> Datastore.Truthy(u.userstyle)
    ensures lines[13] != "" <==> Datastore.Truthy(u.userprof)
    ensures !Datastore.Truthy(u.useronchat) ==> lines[16] == NoHistory
    ensures Datastore.Truthy(u.useronchat) ==> lines[16] == json(u.useronchat)
    ensures lines[19] == EmailInstruction <==> WantsEmail(c)
    ensures !WantsEmail(c) ==> lines[19] == ""
  {
    Intro + DetailLines(c, p) + ProfileLines(c, u, json)
  }

  function Prompt(c: Customer, p: Product, u: UserData, json: Datastore.Value -> string): string {
    Join(PromptLines(c, p, u, json), "\n")
  }

  /**
   * The `email` shaping of a completion text: the subject is everything up
   * to the first newline, the content everything after it, trimmed.
   */
  function EmailParts(text: string): (m: Message)
    ensures m.Email?
    ensures FindFirst(text, "\n").None? ==> m == Email(text, "")
    ensures FindFirst(text, "\n").Some? ==>
              var i := FindFirst(text, "\n").value;
              && m == Email(text[..i], Trim(text[i + 1..]))
              && text == m.subject + "\n" + text[i + 1..]
    ensures !Contains(m.subject, "\n")
  {
    var lines := Split(text, "\n");
    SplitHead(text, "\n");
    TrimEmpty();
    Email(lines[0], Trim(Join(lines[1..], "\n")))
  }

  lemma TrimEmpty()
    ensures Trim("") == ""
  {
  }

  /** The message in the answer, from the first choice of the completion. */
  function Shape(c: Customer, completion: Completion): (r: Option<Message>)
    requires !completion.CompletionThrew?
    ensures WantsEmail(c) ==> r.Some? && r.value.Email?
    ensures WantsEmail(c) && !(completion.Choice? && completion.content.Some?) ==> r == Some(Email("", ""))
    ensures !WantsEmail(c) ==> (r.None? <==> completion.NoChoice?)
    ensures !WantsEmail(c) && completion.Choice? ==>
              r == Some(if completion.content.Some? then Plain(completion.content.value) else NoMessage)
  {
    if WantsEmail(c) then
      match completion
      case Choice(Some(text)) => Some(EmailParts(text))
      case _ => Some(Email("", ""))
    else
      match completion
      case NoChoice => None
      case Choice(content) => Some(if content.Some? then Plain(content.value) else NoMessage)
  }

  /** The calls of a request whose profile read succeeds: the read, then the chat completion. */
  function CallsWith(userId: Option<string>, c: Customer, p: Product, u: UserData, json: Datastore.Value -> string): seq<Call> {
    [FetchUser(userId), Chat(SystemMessage, Prompt(c, p, u, json))]
  }

  /**
   * The route: 500 `Failed to fetch user data` before any completion when the
   * profile cannot be read; 500 `Failed to generate message` when the
   * completion throws or, outside `email`, has no first choice.
   */
  function Post(userId: Option<string>, c: Customer, p: Product, user: Option<UserData>, completion: Completion,
                json: Datastore.Value -> string): (out: Outcome)
    ensures user.None? ==> out == Outcome(Fail(500, "Failed to fetch user data"), [FetchUser(userId)])
    ensures user.Some? ==> out == Outcome(Respond(c, user.value, completion), CallsWith(userId, c, p, user.value, json))
    ensures out.response.Ok? <==> user.Some? && !completion.CompletionThrew? && (WantsEmail(c) || !completion.NoChoice?)
  {
    match user
    case None => Outcome(Fail(500, "Failed to fetch user data"), [FetchUser(userId)])
    case Some(u) => Outcome(Respond(c, u, completion), CallsWith(userId, c, p, u, json))
  }

  /**
   * The answer once the profile is read: 500 `Failed to generate message`
   * when the completion throws or, outside `email`, has no first choice;
   * otherwise the shaped message with the seller's stored profile.
   */
  function Respond(c: Customer, u: UserData, completion: Completion): (r: Response<Reply>)
    ensures completion.CompletionThrew? ==> r == Fail(500, "Failed to generate message")
    ensures r.Ok? <==> !completion.CompletionThrew? && (WantsEmail(c) || !completion.NoChoice?)
    ensures !r.Ok? ==> r == Fail(500, "Failed to generate message")
    ensures r.Ok? ==>
              && r.body.message == Shape(c, completion).value
              && r.body.style == u.userstyle
              && r.body.profile == u.userprof
              && r.body.context == u.useronchat
  {
    if completion.CompletionThrew? then Fail(500, "Failed to generate message")
    else
      match Shape(c, completion)
      case None => Fail(500, "Failed to generate message")
      case Some(m) => Ok(Reply(m, u.userstyle, u.userprof, u.useronchat))
  }
}

=== FILE: new_campaign_page.dfy ===
/**
 * The new-campaign page's loader `fetchCampaignAndCustomers`: find the
 * campaign and the product, fetch the customers, ask the campaign analysis
 * route for scores, merge them in, store the campaign's estimate and
 * pre-select the promising customers. The product lookup is the one the
 * new-product page uses.
 *
 * The page builds the analysis request from its `product` state as it was
 * when the load began, not from the product this load has just found:
 * `Load` does the same (`RequestAsWritten`). `LoadCorrected` sends the
 * product it found (`RequestWithLoadedProduct`), which is what the route's
 * optional product block is for, and otherwise behaves exactly like `Load`.
 */
module NewCampaignPage {
  import opened Wrappers
  import opened Domain
  import Seqs
  import Selection
  import Datastore
  import CampaignInterestRoute
  import NewProductPage

  datatype State = State(
    campaign: Option<Campaign>,
    product: Option<Product>,
    customers: seq<Selection.Analyzed>,
    selected: seq<string>,
    loading: bool,
    toast: Option<string>)

  const Initial := State(None, None, [], [], true, None)

  /** The outside world's answers during one load; `analysis` is `None` when the route's response is not ok. */
  datatype Env = Env(
    user: Option<string>,
    token: Option<string>,
    campaigns: Option<seq<Campaign>>,
    products: Option<seq<Product>>,
    customers: Option<seq<Customer>>,
    analysis: Option<seq<AnalysisResult>>)

  datatype Call =
    | FetchCampaigns
    | FetchProducts
    | FetchCustomers
    | Analyze(request: CampaignInterestRoute.Request)
    | WriteEstimate(campaignId: string)

  /** The three reads every signed-in load starts with. */
  const Fetches := [FetchCampaigns, FetchProducts, FetchCustomers]

  datatype Outcome = Outcome(state: State, store: Datastore.Store, calls: seq<Call>)

  /** `campaigns.find(c => c.uid === uid)`. */
  function FindCampaign(cs: seq<Campaign>, uid: string): (r: Option<Campaign>)
    ensures r.None? <==> forall i :: 0 <= i < |cs| ==> cs[i].uid != uid
    ensures r.Some? ==> exists i :: 0 <= i < |cs| && cs[i] == r.value && cs[i].uid == uid &&
                          forall j :: 0 <= j < i ==> cs[j].uid != uid
  {
    Seqs.Find(cs, (c: Campaign) => c.uid == uid)
  }

  /** `c` is the first campaign in `cs` with this uid. */
  predicate FirstWithUid(cs: seq<Campaign>, uid: string, c: Campaign) {
    exists i :: 0 <= i < |cs| && cs[i] == c && c.uid == uid && forall j :: 0 <= j < i ==> cs[j].uid != uid
  }

  /** `fetchCampaign`: the campaign with this uid, or null when there is none or the fetch failed. */
  function LookupCampaign(campaigns: Option<seq<Campaign>>, uid: string): (r: Option<Campaign>)
    ensures r.None? <==> campaigns.None? || forall i :: 0 <= i < |campaigns.value| ==> campaigns.value[i].uid != uid
    ensures r.Some? ==> campaigns.Some? && r == FindCampaign(campaigns.value, uid) && FirstWithUid(campaigns.value, uid, r.value)
  {
    if campaigns.None? then None else FindCampaign(campaigns.value, uid)
  }

  /** The request as written: the product is the page state captured when the load started. */
  function RequestAsWritten(prior: State, campaign: Campaign, userId: string, token: string): (r: CampaignInterestRoute.Request)
    ensures r.product == prior.product && r.campaign == Some(campaign)
  {
    CampaignInterestRoute.Request(Some(campaign), prior.product, userId, token)
  }

  /** The request with the product this load has just found. */
  function RequestWithLoadedProduct(campaign: Campaign, product: Product, userId: string, token: string): (r: CampaignInterestRoute.Request)
    ensures r.product == Some(product) && r.campaign == Some(campaign)
  {
    CampaignInterestRoute.Request(Some(campaign), Some(product), userId, token)
  }

  function Likelihoods(ms: seq<Selection.Analyzed>): (xs: seq<real>)
    ensures |xs| == |ms|
    ensures forall i :: 0 <= i < |ms| ==> xs[i] == ms[i].likelihood
  {
    seq(|ms|, i requires 0 <= i < |ms| => ms[i].likelihood)
  }

  ghost predicate Signed(env: Env) {
    env.user.Some? && env.token.Some? && env.token.value != ""
  }

  ghost predicate Succeeds(env: Env, campaignId: string, productId: int) {
    && Signed(env)
    && LookupCampaign(env.campaigns, campaignId).Some?
    && NewProductPage.LookupProduct(env.products, productId).Some?
    && env.customers.Some? && |env.customers.value| > 0
    && env.analysis.Some?
  }

  function Failed(s: State, message: string): State {
    s.(loading := false, toast := Some(message))
  }

  /**
   * The part of the load after campaign and product are found: stop on an
   * empty customer list, otherwise ask for the analysis, and on success
   * merge, pre-select and write the campaign's estimate.
   */
  function Analyse(s: State, store: Datastore.Store, env: Env, campaignId: string, userId: string,
                   request: CampaignInterestRoute.Request, fetched: seq<Call>): (out: Outcome)
    ensures !out.state.loading
    ensures out.state.toast.None? <==> env.customers.Some? && |env.customers.value| > 0 && env.analysis.Some?
    ensures out.state.toast.Some? ==> out.store == store
    ensures env.customers.None? || env.customers.value == [] ==>
              out.state.customers == [] && out.state.toast == Some("No customers found") && out.calls == fetched
    ensures env.customers.Some? && env.customers.value != [] && env.analysis.None? ==>
              out.state.toast == Some("Failed to analyze customer interest") && out.calls == fetched + [Analyze(request)]
    ensures out.state.toast.None? ==>
              var merged := Selection.Merge(env.customers.value, env.analysis.value);
              && out.state.customers == merged
              && out.state.selected == Selection.AutoSelect(merged)
              && out.store == Datastore.UpdateCampaignLikelihood(store, campaignId, Likelihoods(merged), userId).store
              && out.calls == fetched + [Analyze(request), WriteEstimate(campaignId)]
  {
    if env.customers.None? || |env.customers.value| == 0 then
      Outcome(Failed(s.(customers := []), "No customers found"), store, fetched)
    else
      var asked := fetched + [Analyze(request)];
      match env.analysis
      case None => Outcome(Failed(s, "Failed to analyze customer interest"), store, asked)
      case Some(results) =>
        var merged := Selection.Merge(env.customers.value, results);
        var written := Datastore.UpdateCampaignLikelihood(store, campaignId, Likelihoods(merged), userId);
        Outcome(s.(customers := merged, selected := Selection.AutoSelect(merged), loading := false, toast := None),
                written.store, asked + [WriteEstimate(campaignId)])
  }

  /**
   * The request the loader sends once campaign and product are found: as
   * written it carries the product state `s` held when the load began; the
   * corrected loader sends the product just found.
   */
  function PageRequest(s: State, campaign: Campaign, product: Product, userId: string, token: string,
                       corrected: bool): CampaignInterestRoute.Request {
    if corrected then RequestWithLoadedProduct(campaign, product, userId, token)
    else RequestAsWritten(s, campaign, userId, token)
  }

  /**
   * The lookups after the three fetches, for a signed-in seller `userId`
   * holding `token`, started from state `s`; `corrected` picks the request.
   */
  function Lookups(s: State, store: Datastore.Store, env: Env, campaignId: string, productId: int,
                   userId: string, token: string, corrected: bool): (out: Outcome)
    requires env.user == Some(userId) && env.token == Some(token) && token != ""
    ensures !out.state.loading
    ensures out.state.toast.None? <==> Succeeds(env, campaignId, productId)
    ensures out.state.toast.Some? ==> out.store == store
    ensures LookupCampaign(env.campaigns, campaignId).None? ==>
              out.state == Failed(s, "Campaign not found") && out.calls == Fetches
    ensures LookupCampaign(env.campaigns, campaignId).Some? && NewProductPage.LookupProduct(env.products, productId).None? ==>
              out.state.toast == Some("Product not found") && out.calls == Fetches
    ensures LookupCampaign(env.campaigns, campaignId).Some? && NewProductPage.LookupProduct(env.products, productId).Some? &&
            (env.customers.None? || env.customers.value == []) ==>
              out.state.customers == [] && out.state.toast == Some("No customers found") && out.calls == Fetches
    ensures Succeeds(env, campaignId, productId) ==>
              var merged := Selection.Merge(env.customers.value, env.analysis.value);
              && out.state.customers == merged
              && out.state.selected == Selection.AutoSelect(merged)
              && out.store == Datastore.UpdateCampaignLikelihood(store, campaignId, Likelihoods(merged), userId).store
              && out.calls == [FetchCampaigns, FetchProducts, FetchCustomers,
                               Analyze(PageRequest(s, LookupCampaign(env.campaigns, campaignId).value,
                                                   NewProductPage.LookupProduct(env.products, productId).value,
                                                   userId, token, corrected)),
                               WriteEstimate(campaignId)]
  {
    var fetched := Fetches;
    match LookupCampaign(env.campaigns, campaignId)
    case None => Outcome(Failed(s, "Campaign not found"), store, fetched)
    case Some(campaign) =>
      var s1 := s.(campaign := Some(campaign));
      match NewProductPage.LookupProduct(env.products, productId)
      case None => Outcome(Failed(s1, "Product not found"), store, fetched)
      case Some(product) =>
        var request := PageRequest(s, campaign, product, userId, token, corrected);
        assert fetched + [Analyze(request), WriteEstimate(campaignId)]
            == [FetchCampaigns, FetchProducts, FetchCustomers, Analyze(request), WriteEstimate(campaignId)];
        Analyse(s1.(product := Some(product)), store, env, campaignId, userId, request, fetched)
  }

  /** `fetchCampaignAndCustomers(campaignId, productId)` from state `s`, as the page has it. */
  function Load(s: State, store: Datastore.Store, env: Env, campaignId: string, productId: int): (out: Outcome)
    ensures !out.state.loading
    ensures out.state.toast.None? <==> Succeeds(env, campaignId, productId)
    ensures !Succeeds(env, campaignId, productId) ==> out.store == store
    ensures env.user.None? ==> out.state == Failed(s, "No user found") && out.calls == []
    ensures env.user.Some? && (env.token.None? || env.token.value == "") ==>
              out.state == Failed(s, "No token found") && out.calls == []
    ensures Signed(env) ==> out == Lookups(s, store, env, campaignId, productId, env.user.value, env.token.value, false)
    ensures Succeeds(env, campaignId, productId) ==>
              |out.calls| == 5 &&
              out.calls[3] == Analyze(RequestAsWritten(s, LookupCampaign(env.campaigns, campaignId).value, env.user.value, env.token.value))
  {
    if env.user.None? then Outcome(Failed(s, "No user found"), store, [])
    else if env.token.None? || env.token.value == "" then Outcome(Failed(s, "No token found"), store, [])
    else Lookups(s, store, env, campaignId, productId, env.user.value, env.token.value, false)
  }

  /** The loader with the request corrected to carry the product the load found. */
  function LoadCorrected(s: State, store: Datastore.Store, env: Env, campaignId: string, productId: int): (out: Outcome)
    ensures !out.state.loading
    ensures out.state.toast.None? <==> Succeeds(env, campaignId, productId)
    ensures !Succeeds(env, campaignId, productId) ==> out.store == store
    ensures env.user.None? ==> out.state == Failed(s, "No user found") && out.calls == []
    ensures env.user.Some? && (env.token.None? || env.token.value == "") ==>
              out.state == Failed(s, "No token found") && out.calls == []
    ensures Signed(env) ==> out == Lookups(s, store, env, campaignId, productId, env.user.value, env.token.value, true)
    ensures Succeeds(env, campaignId, productId) ==>
              |out.calls| == 5 &&
              out.calls[3] == Analyze(RequestWithLoadedProduct(LookupCampaign(env.campaigns, campaignId).value,
                                                               NewProductPage.LookupProduct(env.products, productId).value,
                                                               env.user.value, env.token.value))
  {
    if env.user.None? then Outcome(Failed(s, "No user found"), store, [])
    else if env.token.None? || env.token.value == "" then Outcome(Failed(s, "No token found"), store, [])
    else Lookups(s, store, env, campaignId, productId, env.user.value, env.token.value, true)
  }

  /** The analysis step's state, store and call count do not depend on the request it sends. */
  lemma {:induction false} AnalyseIgnoresRequest(s: State, store: Datastore.Store, env: Env, campaignId: string, userId: string,
                                                 r1: CampaignInterestRoute.Request, r2: CampaignInterestRoute.Request, fetched: seq<Call>)
    ensures var a := Analyse(s, store, env, campaignId, userId, r1, fetched);
            var b := Analyse(s, store, env, campaignId, userId, r2, fetched);
            && a.state == b.state && a.store == b.store && |a.calls| == |b.calls|
            && (forall i :: 0 <= i < |a.calls| && i != |fetched| ==> a.calls[i] == b.calls[i])
  {
  }

  /**
   * The correction changes nothing but the analysis request: the same state,
   * the same store and the same calls everywhere except the fourth.
   */
  lemma {:induction false} CorrectionOnlyChangesRequest(s: State, store: Datastore.Store, env: Env, campaignId: string, productId: int)
    ensures var a := Load(s, store, env, campaignId, productId);
            var b := LoadCorrected(s, store, env, campaignId, productId);
            && a.state == b.state && a.store == b.store && |a.calls| == |b.calls|
            && (forall i :: 0 <= i < |a.calls| && i != 3 ==> a.calls[i] == b.calls[i])
  {
    if Signed(env) {
      var userId, token := env.user.value, env.token.value;
      match LookupCampaign(env.campaigns, campaignId)
      case None =>
      case Some(campaign) =>
        match NewProductPage.LookupProduct(env.products, productId)
        case None =>
        case Some(product) =>
          var s1 := s.(campaign := Some(campaign), product := Some(product));
          AnalyseIgnoresRequest(s1, store, env, campaignId, userId,
                                RequestAsWritten(s, campaign, userId, token), RequestWithLoadedProduct(campaign, product, userId, token), Fetches);
    }
  }

  /**
   * The estimate a successful load writes is a whole number in [0,100] when
   * the route's likelihoods are in [0,100]: the merged list is non-empty and
   * every merged likelihood is a result's or 0.
   */
  lemma {:induction false} LoadWritesEstimateInRange(s: State, store: Datastore.Store, env: Env, campaignId: string, productId: int)
    requires Succeeds(env, campaignId, productId)
    requires forall k :: 0 <= k < |env.analysis.value| ==> 0.0 <= env.analysis.value[k].likelihood <= 100.0
    ensures var merged := Selection.Merge(env.customers.value, env.analysis.value);
            var v := Datastore.Estimate(Likelihoods(merged));
            v.VNum? && 0.0 <= v.n <= 100.0 && v.n == v.n.Floor as real
  {
    var merged := Selection.Merge(env.customers.value, env.analysis.value);
    var xs := Likelihoods(merged);
    forall i | 0 <= i < |xs|
      ensures 0.0 <= xs[i] <= 100.0
    {
      var c := env.customers.value[i];
      var found := Selection.FindResult(env.analysis.value, c.id);
      if found.Some? {
        var k :| 0 <= k < |env.analysis.value| && env.analysis.value[k] == found.value && env.analysis.value[k].customerId == c.id &&
                 forall j :: 0 <= j < k ==> env.analysis.value[j].customerId != c.id;
      }
    }
    Datastore.EstimateInRange(xs);
  }

  /**
   * On the first load the page's product state is still empty, so the
   * analysis request the loader sends carries no product, although the load
   * has just found one.
   */
  lemma {:induction false} FirstLoadSendsNoProduct(store: Datastore.Store, env: Env, campaignId: string, productId: int)
    requires Succeeds(env, campaignId, productId)
    ensures var request := Load(Initial, store, env, campaignId, productId).calls[3].request;
            && request.product.None?
            && request.campaign == LookupCampaign(env.campaigns, campaignId)
            && NewProductPage.LookupProduct(env.products, productId).Some?
  {
  }

  /** So on the first load no customer's prompt mentions a product. */
  lemma {:induction false} FirstLoadPromptHasNoProduct(store: Datastore.Store, env: Env, campaignId: string, productId: int, c: Customer)
    requires Succeeds(env, campaignId, productId)
    ensures var request := Load(Initial, store, env, campaignId, productId).calls[3].request;
            CampaignInterestRoute.RelatedProduct !in CampaignInterestRoute.PromptLines(c, request.campaign.value, request.product)
  {
    FirstLoadSendsNoProduct(store, env, campaignId, productId);
    var request := Load(Initial, store, env, campaignId, productId).calls[3].request;
    CampaignInterestRoute.ProductSectionIffProduct(c, request.campaign.value, request.product);
  }

  /** With the loaded product in the request, every customer's prompt carries the product block. */
  lemma {:induction false} LoadedProductReachesPrompt(campaign: Campaign, product: Product, userId: string, token: string, c: Customer)
    ensures var request := RequestWithLoadedProduct(campaign, product, userId, token);
            && CampaignInterestRoute.RelatedProduct in CampaignInterestRoute.PromptLines(c, campaign, request.product)
            && "- Name: " + product.name in CampaignInterestRoute.PromptLines(c, campaign, request.product)
  {
    CampaignInterestRoute.ProductSectionIffProduct(c, campaign, Some(product));
  }

  /**
   * Every corrected load that reaches the analysis asks with the product it
   * found: the prompt of each customer carries that product's block and name.
   */
  lemma {:induction false} LoadPromptsCarryProduct(s: State, store: Datastore.Store, env: Env, campaignId: string, productId: int, c: Customer)
    requires Succeeds(env, campaignId, productId)
    ensures var request := LoadCorrected(s, store, env, campaignId, productId).calls[3].request;
            && request.product == NewProductPage.LookupProduct(env.products, productId)
            && CampaignInterestRoute.RelatedProduct in CampaignInterestRoute.PromptLines(c, request.campaign.value, request.product)
            && "- Name: " + request.product.value.name in CampaignInterestRoute.PromptLines(c, request.campaign.value, request.product)
  {
    var campaign := LookupCampaign(env.campaigns, campaignId).value;
    var product := NewProductPage.LookupProduct(env.products, productId).value;
    LoadedProductReachesPrompt(campaign, product, env.user.value, env.token.value, c);
  }
}

=== FILE: new_product_page.dfy ===
/**
 * The new-product page's loader `fetchProductAndCustomers`: look the product
 * up, fetch the customers, ask the analysis route for scores, merge them in
 * and pre-select the promising customers. Every outcome ends loading; a
 * failure is reported as one error toast.
 */
module NewProductPage {
  import opened Wrappers
  import opened Domain
  import Seqs
  import Selection

  datatype State = State(
    product: Option<Product>,
    customers: seq<Selection.Analyzed>,
    selected: seq<string>,
    loading: bool,
    toast: Option<string>)

  const Initial := State(None, [], [], true, None)

  /**
   * What the outside world answers during one load: the signed-in user, the
   * datastore token, the two fetches (null on a database error), and the
   * analysis route's results (`None` when its response is not ok).
   */
  datatype Env = Env(
    user: Option<string>,
    token: Option<string>,
    products: Option<seq<Product>>,
    customers: Option<seq<Customer>>,
    analysis: Option<seq<AnalysisResult>>)

  datatype Call = FetchProducts | FetchCustomers | Analyze(product: Product, userId: string, token: string)

  datatype Outcome = Outcome(state: State, calls: seq<Call>)

  /** `products.find(p => p.id === id)`. */
  function FindProduct(ps: seq<Product>, id: int): (r: Option<Product>)
    ensures r.None? <==> forall i :: 0 <= i < |ps| ==> ps[i].id != id
    ensures r.Some? ==> exists i :: 0 <= i < |ps| && ps[i] == r.value && ps[i].id == id &&
                          forall j :: 0 <= j < i ==> ps[j].id != id
  {
    Seqs.Find(ps, (p: Product) => p.id == id)
  }

  /** `p` is the first product in `ps` with this id. */
  predicate FirstWithId(ps: seq<Product>, id: int, p: Product) {
    exists i :: 0 <= i < |ps| && ps[i] == p && p.id == id && forall j :: 0 <= j < i ==> ps[j].id != id
  }

  /** `fetchProduct`: the product with this id, or null when there is none or the fetch failed. */
  function LookupProduct(products: Option<seq<Product>>, id: int): (r: Option<Product>)
    ensures r.None? <==> products.None? || forall i :: 0 <= i < |products.value| ==> products.value[i].id != id
    ensures r.Some? ==> products.Some? && r == FindProduct(products.value, id) && FirstWithId(products.value, id, r.value)
  {
    if products.None? then None else FindProduct(products.value, id)
  }

  ghost predicate Succeeds(env: Env, id: int) {
    && env.user.Some? && env.token.Some? && env.token.value != ""
    && LookupProduct(env.products, id).Some?
    && env.customers.Some? && |env.customers.value| > 0
    && env.analysis.Some?
  }

  function Failed(s: State, message: string): State {
    s.(loading := false, toast := Some(message))
  }

  /** `fetchProductAndCustomers(id)` from state `s`. */
  function Load(s: State, env: Env, id: int): (out: Outcome)
    ensures !out.state.loading
    ensures out.state.toast.None? <==> Succeeds(env, id)
    ensures env.user.None? ==> out == Outcome(Failed(s, "No user found"), [])
    ensures env.user.Some? && (env.token.None? || env.token.value == "") ==> out == Outcome(Failed(s, "No token found"), [])
    ensures env.user.Some? && env.token.Some? && env.token.value != "" ==> |out.calls| >= 2 && out.calls[..2] == [FetchProducts, FetchCustomers]
    ensures env.user.Some? && env.token.Some? && env.token.value != "" && LookupProduct(env.products, id).None? ==>
              out.state == Failed(s, "Product not found") && |out.calls| == 2
    ensures env.user.Some? && env.token.Some? && env.token.value != "" && LookupProduct(env.products, id).Some? ==>
              out.state.product == LookupProduct(env.products, id)
    ensures env.user.Some? && env.token.Some? && env.token.value != "" && LookupProduct(env.products, id).Some? &&
            (env.customers.None? || env.customers.value == []) ==>
              out.state.customers == [] && out.state.toast == Some("No customers found") && |out.calls| == 2
    ensures Succeeds(env, id) ==>
              && out.state.customers == Selection.Merge(env.customers.value, env.analysis.value)
              && out.state.selected == Selection.AutoSelect(out.state.customers)
              && out.calls == [FetchProducts, FetchCustomers, Analyze(LookupProduct(env.products, id).value, env.user.value, env.token.value)]
  {
    if env.user.None? then Outcome(Failed(s, "No user found"), [])
    else if env.token.None? || env.token.value == "" then Outcome(Failed(s, "No token found"), [])
    else
      var fetched := [FetchProducts, FetchCustomers];
      match LookupProduct(env.products, id)
      case None => Outcome(Failed(s, "Product not found"), fetched)
      case Some(product) =>
        var s1 := s.(product := Some(product));
        if env.customers.None? || |env.customers.value| == 0 then
          Outcome(Failed(s1.(customers := []), "No customers found"), fetched)
        else
          var calls := fetched + [Analyze(product, env.user.value, env.token.value)];
          match env.analysis
          case None => Outcome(Failed(s1, "Failed to analyze customer interest"), calls)
          case Some(results) =>
            var merged := Selection.Merge(env.customers.value, results);
            Outcome(s1.(customers := merged, selected := Selection.AutoSelect(merged), loading := false, toast := None), calls)
  }

  /**
   * After a successful load the pre-selection is exactly the customers shown
   * green or yellow (ids being unique), and everyone pre-selected can be
   * carried on to the message page.
   */
  lemma {:induction false} LoadSelectsGreenAndYellow(s: State, env: Env, id: int, i: nat)
    requires Succeeds(env, id)
    requires Selection.UniqueIds(env.customers.value)
    requires i < |env.customers.value|
    ensures var st := Load(s, env, id).state;
            st.customers[i].customer.id in st.selected <==> Selection.ColourOf(st.customers[i].likelihood) != Selection.Red
  {
    var ms := Load(s, env, id).state.customers;
    assert forall p, q :: 0 <= p < q < |ms| ==> ms[p].customer.id != ms[q].customer.id by {
      forall p, q | 0 <= p < q < |ms| ensures ms[p].customer.id != ms[q].customer.id {
        assert ms[p].customer == env.customers.value[p];
        assert ms[q].customer == env.customers.value[q];
      }
    }
    Selection.AutoSelectedIffNotRed(ms, i);
  }
}

=== FILE: onboarding.dfy ===
/**
 * The onboarding dialog: the seller names a profession (step 1), chats with
 * a simulated customer (step 2), and on completion the conversation is sent
 * for style analysis and then saved with the seller's name and profession.
 */
module Onboarding {
  import opened Wrappers
  import opened Text
  import opened Domain
  import Datastore
  import ChatRoute
  import SaveUserRoute

  const WelcomeIntro := ChatRoute.PersonaHead + "profession is: "
  const NameIntro := ChatRoute.PersonaHead + NameTopic
  const NameTopic := "name is "
  const Conjunction := " and "
  const StyleFailed := "Failed to analyze style: "
  const SaveFailed := "Failed to save user data: "
  const Completed := "Your profile has been saved successfully."

  /**
   * The conversation's first message before a profession is given. It says
   * "The user's profession is", not the route's marker, so the chat route
   * could not read a profession from it.
   */
  function WelcomeMessage(profession: string): (m: ChatMessage)
    ensures m.role == "system"
    ensures ':' !in profession ==> ChatRoute.ProfessionIn(m.content) == ChatRoute.Throws
  {
    assert ':' !in profession ==> !Contains(WelcomeText(profession), ChatRoute.Marker) by {
      if ':' !in profession { WelcomeHasNoMarker(profession); }
    }
    ChatMessage("system", WelcomeText(profession))
  }

  /** The welcome message's text. */
  function WelcomeText(profession: string): string {
    WelcomeIntro + ChatRoute.Brief(profession)
  }

  /**
   * The system message that replaces the conversation once the profession
   * is submitted; the chat route reads the profession back from it.
   */
  function ProfessionMessage(name: string, profession: string): (m: ChatMessage)
    ensures m.role == "system"
    ensures ':' !in name && ':' !in profession && '.' !in profession ==>
              ChatRoute.ProfessionIn(m.content) == ChatRoute.Profession(profession)
  {
    assert ':' !in name && ':' !in profession && '.' !in profession ==>
             ChatRoute.ProfessionIn(ProfessionText(name, profession)) == ChatRoute.Profession(profession) by {
      if ':' !in name && ':' !in profession && '.' !in profession { ProfessionRoundTrip(name, profession); }
    }
    ChatMessage("system", ProfessionText(name, profession))
  }

  /** The profession message's text: the name, the marker, then the persona brief. */
  function ProfessionText(name: string, profession: string): string {
    NameIntro + name + Conjunction + ChatRoute.Marker + ChatRoute.Brief(profession)
  }

  /**
   * The welcome text holds a single `:`, and the 19 characters before it
   * are not the marker's: no marker occurs in it.
   */
  lemma WelcomeHasNoMarker(profession: string)
    requires ':' !in profession
    ensures !Contains(WelcomeText(profession), ChatRoute.Marker)
  {
    var h := WelcomeIntro;
    var b := ChatRoute.Brief(profession);
    var m := ChatRoute.Marker;
    var s := WelcomeText(profession);
    assert |h| == 48 && h[46] == ':' && h[27] == 's';
    assert ':' !in h[..46];
    InstructionsColonFree();
    assert ':' !in b;
    forall j: nat | j + |m| <= |s|
      ensures !OccursAt(s, m, j)
    {
      assert m[19] == ':' && m[0] == 't';
      assert s[j..j + |m|][19] == s[j + 19];
      if j + 19 < 46 {
        assert s[j + 19] == h[..46][j + 19];
      } else if j + 19 >= |h| {
        assert s[j + 19] == b[j + 19 - |h|];
      } else if j + 19 == 47 {
        assert s[j + 19] == h[47] == ' ';
      } else {
        assert s[j..j + |m|][0] == h[27];
      }
    }
    assert FindFirst(s, m).None?;
  }

  datatype Dialog = Dialog(open: bool, step: nat, profession: string, messages: seq<ChatMessage>, saving: bool, toast: Option<string>)

  /** The dialog as it first renders: open, at step 1, with the welcome message. */
  function Initial(): (d: Dialog)
    ensures d.open && d.step == 1 && !d.saving && |d.messages| == 1 && d.messages[0].role == "system"
  {
    Dialog(true, 1, "", [WelcomeMessage("")], false, None)
  }

  /** `handleProfessionSubmit`: step 2, and a conversation of exactly the one profession message. */
  function SubmitProfession(d: Dialog, name: string): (d': Dialog)
    ensures d'.step == 2 && d'.messages == [ProfessionMessage(name, d.profession)]
    ensures d'.open == d.open && d'.profession == d.profession && d'.saving == d.saving
  {
    d.(step := 2, messages := [ProfessionMessage(name, d.profession)])
  }

  /** The messages shown in step 2: all but the first, the system message. */
  function Transcript(d: Dialog): (shown: seq<ChatMessage>)
    ensures |d.messages| > 0 ==> [d.messages[0]] + shown == d.messages
    ensures |d.messages| == 0 ==> shown == []
  {
    if |d.messages| == 0 then [] else d.messages[1..]
  }

  /** Right after the profession is submitted, the transcript is empty. */
  lemma TranscriptStartsEmpty(d: Dialog, name: string)
    ensures Transcript(SubmitProfession(d, name)) == []
  {
  }

  /** A marker occurrence has a `:` at offset 19. */
  lemma NoColonNoMarker(s: string)
    requires ':' !in s
    ensures !Contains(s, ChatRoute.Marker)
  {
    var m := ChatRoute.Marker;
    forall j: nat | j + |m| <= |s| ensures !OccursAt(s, m, j) {
      assert s[j..j + |m|][19] == s[j + 19];
      assert s[j + 19] in s;
    }
  }

  /** No marker occurrence starts inside a colon-free text placed before a marker. */
  lemma NoMarkerBefore(a: string, b: string, j: nat)
    requires ':' !in a && j < |a|
    ensures !OccursAt(a + ChatRoute.Marker + b, ChatRoute.Marker, j)
  {
    var m := ChatRoute.Marker;
    var c := a + m + b;
    if j + |m| <= |c| {
      assert c[j..j + |m|][19] == c[j + 19];
      if j + 19 < |a| {
        assert c[j + 19] == a[j + 19];
        assert a[j + 19] in a;
      } else {
        assert c[j + 19] == m[j + 19 - |a|];
        assert m[..19] == "their profession is";
        assert m[j + 19 - |a|] == m[..19][j + 19 - |a|];
        assert m[..19][j + 19 - |a|] in m[..19];
      }
    }
  }

  /** The first three pieces of the persona's instructions contain no `:`. */
  lemma OpeningColonFree()
    ensures ':' !in ChatRoute.Instructions0 + ChatRoute.Instructions1 + ChatRoute.Instructions2
  {
    assert ':' !in ChatRoute.Instructions0;
    assert ':' !in ChatRoute.Instructions1;
    assert ':' !in ChatRoute.Instructions2;
  }

  /** The middle three pieces contain no `:`. */
  lemma MiddleColonFree()
    ensures ':' !in ChatRoute.Instructions3 + ChatRoute.Instructions4 + ChatRoute.Instructions5
  {
    assert ':' !in ChatRoute.Instructions3;
    assert ':' !in ChatRoute.Instructions4;
    assert ':' !in ChatRoute.Instructions5;
  }

  /** The last three pieces contain no `:`. */
  lemma ClosingColonFree()
    ensures ':' !in ChatRoute.Instructions6 + ChatRoute.Instructions7 + ChatRoute.Instructions8
  {
    assert ':' !in ChatRoute.Instructions6;
    assert ':' !in ChatRoute.Instructions7;
    assert ':' !in ChatRoute.Instructions8;
  }

  /** The persona's instructions contain no `:`, so no marker either. */
  lemma InstructionsColonFree()
    ensures ':' !in ChatRoute.Instructions
  {
    OpeningColonFree();
    MiddleColonFree();
    ClosingColonFree();
    var a := ChatRoute.Instructions0 + ChatRoute.Instructions1 + ChatRoute.Instructions2;
    var b := ChatRoute.Instructions3 + ChatRoute.Instructions4 + ChatRoute.Instructions5;
    var c := ChatRoute.Instructions6 + ChatRoute.Instructions7 + ChatRoute.Instructions8;
    assert ChatRoute.Instructions == a + b + c;
  }

  /** A marker between two colon-free texts splits the whole into exactly those two. */
  lemma SplitAroundMarker(a: string, b: string)
    requires ':' !in a && ':' !in b
    ensures Split(a + ChatRoute.Marker + b, ChatRoute.Marker) == [a, b]
  {
    var m := ChatRoute.Marker;
    forall j: nat | j < |a| ensures !OccursAt(a + m + b, m, j) {
      NoMarkerBefore(a, b, j);
    }
    SplitAtFirst(a, m, b);
    NoColonNoMarker(b);
    SplitHead(b, m);
  }

  /** Cutting at the first `.` gives back a profession free of `.`. */
  lemma DotSplit(profession: string)
    requires '.' !in profession
    ensures Split(ChatRoute.Brief(profession), ".")[0] == profession
  {
    var b := profession + "." + ChatRoute.Instructions;
    forall j: nat | j < |profession| ensures !OccursAt(b, ".", j) {
      assert b[j..j + 1] == [profession[j]];
    }
    SplitAtFirst(profession, ".", ChatRoute.Instructions);
  }

  /** The dialog's message splits at the marker into the part before it and the part after it. */
  lemma MarkerSplit(name: string, profession: string)
    requires ':' !in name && ':' !in profession
    ensures Split(ProfessionText(name, profession), ChatRoute.Marker) ==
              [NameIntro + name + Conjunction, ChatRoute.Brief(profession)]
  {
    var a := NameIntro + name + Conjunction;
    var b := ChatRoute.Brief(profession);
    assert ':' !in NameIntro by {
      assert ':' !in ChatRoute.PersonaHead;
      assert ':' !in NameTopic;
    }
    assert ':' !in a;
    InstructionsColonFree();
    assert ':' !in b;
    SplitAroundMarker(a, b);
  }

  /**
   * The chat route recovers the profession from the dialog's message when
   * neither the name nor the profession contains `:` and the profession
   * contains no `.`.
   */
  lemma ProfessionRoundTrip(name: string, profession: string)
    requires ':' !in name && ':' !in profession && '.' !in profession
    ensures ChatRoute.ProfessionIn(ProfessionText(name, profession)) == ChatRoute.Profession(profession)
  {
    MarkerSplit(name, profession);
    DotSplit(profession);
  }

  /** Every chat request of step 2 reaches the model with the seller's profession in the persona. */
  lemma ChatSeesProfession(d: Dialog, name: string, chat: seq<ChatMessage>)
    requires ':' !in name && ':' !in d.profession && '.' !in d.profession
    ensures var ms := SubmitProfession(d, name).messages + chat;
            ChatRoute.Extract(ms) == ChatRoute.Profession(d.profession) &&
            ChatRoute.Post(ms, true).forwarded[0] == ChatMessage("system", ChatRoute.Persona(d.profession))
  {
    var ms := SubmitProfession(d, name).messages + chat;
    assert ms[0] == ProfessionMessage(name, d.profession);
    ProfessionRoundTrip(name, d.profession);
  }

  /** The style analysis's reply: a thrown error, a non-ok status, or the style. */
  datatype StyleReply = StyleThrew(message: string) | StyleNotOk(statusText: string) | StyleOk(style: Datastore.Value)

  /** The save request's reply: a thrown error, a non-ok status with the body's `error`, or success. */
  datatype SaveReply = SaveThrew(reason: string) | SaveNotOk(error: string, status: string) | SaveOk

  datatype Call = AnalyzeStyle(messages: seq<ChatMessage>) | SaveUserData(body: SaveUserRoute.Body)

  datatype Completion = Completion(dialog: Dialog, calls: seq<Call>)

  /** A chat message as the JSON object the save request carries: its role and content. */
  function MessageValue(m: ChatMessage): (v: Datastore.Value)
    ensures v.VObj? && v.fields.Keys == {"role", "content"}
    ensures v.fields["role"] == Datastore.VStr(m.role) && v.fields["content"] == Datastore.VStr(m.content)
  {
    Datastore.VObj(map["role" := Datastore.VStr(m.role), "content" := Datastore.VStr(m.content)])
  }

  /** The body of the save request: the name, the profession, the style and the whole conversation, in order. */
  function SaveBody(name: string, profession: string, style: Datastore.Value, ms: seq<ChatMessage>): (b: SaveUserRoute.Body)
    ensures b.name == Datastore.VStr(name) && b.profession == Datastore.VStr(profession) && b.style == style
    ensures b.chatHistory.VList? && |b.chatHistory.items| == |ms|
    ensures forall i :: 0 <= i < |ms| ==>
              var v := b.chatHistory.items[i];
              v.VObj? && "role" in v.fields && "content" in v.fields && v.fields["role"] == Datastore.VStr(ms[i].role) && v.fields["content"] == Datastore.VStr(ms[i].content)
  {
    SaveUserRoute.Body(Datastore.VStr(name), Datastore.VStr(profession), style,
                       Datastore.VList(seq(|ms|, i requires 0 <= i < |ms| => MessageValue(ms[i]))))
  }

  /**
   * `handleChatComplete`: the style request first; only when it succeeds the
   * save request; the dialog closes only when both succeed, and the saving
   * flag is off again after every outcome.
   */
  function ChatComplete(d: Dialog, name: string, style: StyleReply, save: SaveReply): (r: Completion)
    ensures !r.dialog.saving
    ensures |r.calls| >= 1 && r.calls[0] == AnalyzeStyle(d.messages)
    ensures !style.StyleOk? ==> |r.calls| == 1 && r.dialog.open == d.open
    ensures style.StyleNotOk? ==> r.dialog.toast == Some(StyleFailed + style.statusText)
    ensures style.StyleOk? ==> r.calls == [AnalyzeStyle(d.messages), SaveUserData(SaveBody(name, d.profession, style.style, d.messages))]
    ensures d.open ==> (!r.dialog.open <==> style.StyleOk? && save.SaveOk?)
    ensures style.StyleOk? && save.SaveNotOk? ==> r.dialog.toast == Some(SaveFailed + OrElse(save.error, save.status))
    ensures style.StyleOk? && save.SaveOk? ==> r.dialog.toast == Some(Completed)
    ensures r.dialog.step == d.step && r.dialog.messages == d.messages && r.dialog.profession == d.profession
  {
    var first := AnalyzeStyle(d.messages);
    match style
    case StyleThrew(message) => Completion(d.(saving := false, toast := Some(message)), [first])
    case StyleNotOk(statusText) => Completion(d.(saving := false, toast := Some(StyleFailed + statusText)), [first])
    case StyleOk(v) =>
      var calls := [first, SaveUserData(SaveBody(name, d.profession, v, d.messages))];
      match save
      case SaveThrew(reason) => Completion(d.(saving := false, toast := Some(reason)), calls)
      case SaveNotOk(error, status) =>
        Completion(d.(saving := false, toast := Some(SaveFailed + OrElse(error, status))), calls)
      case SaveOk => Completion(d.(saving := false, open := false, toast := Some(Completed)), calls)
  }

  /**
   * The save route accepts the dialog's body exactly when the name and the
   * profession are non-empty and the style is truthy: the conversation, an
   * array, always passes. A seller without a full name is always refused.
   */
  lemma SaveBodyMeetsRouteCheck(name: string, profession: string, style: Datastore.Value, ms: seq<ChatMessage>)
    ensures SaveUserRoute.HasAllFields(SaveBody(name, profession, style, ms)) <==>
              name != "" && profession != "" && Datastore.Truthy(style)
  {
  }

  /** For a seller without a full name the save route answers 400 whatever the rest. */
  lemma NamelessSellerRefused(
    userId: string, d: Dialog, style: Datastore.Value,
    upsert: SaveUserRoute.Upserted, tables: Option<Datastore.Value>)
    requires userId != ""
    ensures SaveUserRoute.Post(Some(userId), Some(SaveBody("", d.profession, style, d.messages)), upsert, tables).status == 400
  {
  }
}

=== FILE: product_interest_route.dfy ===
/**
 * `POST /api/analyze-customer-interest`: score every customer of the tenant
 * against one product. The completion service and the random fallback are
 * oracles indexed by the customer's position; `Promise.all` is a map that
 * keeps that order.
 */
module ProductInterestRoute {
  import opened Wrappers
  import opened Text
  import opened Domain
  import Score

  datatype Request = Request(product: Option<Product>, userId: string, supabaseToken: string)

  /** What `fetchCustomers` gave back: it threw, it returned null after a database error, or rows. */
  datatype CustomerFetch = FetchThrew | FetchNull | Fetched(rows: seq<Customer>)

  /** The outside calls a request makes, in order. */
  datatype Call = FetchCustomers(userId: string) | Complete(prompt: string)

  datatype Outcome = Outcome(response: Response<seq<AnalysisResult>>, calls: seq<Call>)

  const Instruction := "Based on the customer's likes, and dislikes, assess the likelihood (as a percentage) that they would be interested in purchasing this product and provide the main reason. Make sure the reason is 3 sentences. If the same people are given for the same product, don't change the answer."

  /**
   * The lines of the per-customer prompt (its indentation is not modelled);
   * absent likes and dislikes read `None`, an absent description `Not provided`.
   */
  function PromptLines(c: Customer, p: Product): (lines: seq<string>)
    ensures c.likes == "" ==> "Likes: " + "None" in lines
    ensures c.likes != "" ==> "Likes: " + c.likes in lines
    ensures c.dislikes == "" ==> "Dislikes: " + "None" in lines
    ensures c.dislikes != "" ==> "Dislikes: " + c.dislikes in lines
    ensures p.description == "" ==> "Description: " + "Not provided" in lines
    ensures p.description != "" ==> "Description: " + p.description in lines
    ensures "Customer name: " + c.name in lines && "Product: " + p.name in lines
  {
    [ "",
      "Customer name: " + c.name,
      "Email: " + c.email,
      "Phone: " + c.phone,
      "Likes: " + OrElse(c.likes, "None"),
      "Dislikes: " + OrElse(c.dislikes, "None"),
      "",
      "Product: " + p.name,
      "Category: " + p.category,
      "Description: " + OrElse(p.description, "Not provided"),
      "",
      Instruction,
      "" ]
  }

  function Prompt(c: Customer, p: Product): string {
    Join(PromptLines(c, p), "\n")
  }

  ghost predicate ValidFallbacks(fallbacks: nat -> real) {
    forall i: nat :: 0.0 <= fallbacks(i) < 100.0
  }

  /** The result for the customer at position `i`, from that customer's own completion alone. */
  function ResultFor(c: Customer, completion: Option<string>, fallback: real): (r: AnalysisResult)
    requires 0.0 <= fallback < 100.0
    ensures r.customerId == c.id && r.customerName == c.name
    ensures 0.0 <= r.likelihood <= 100.0 && r.reason != ""
    ensures completion.None? ==> r.likelihood == 0.0 && r.reason == Score.ErrorReason
    ensures completion.Some? ==>
              r.likelihood == Score.ParseLikelihood(completion.value, fallback) && r.reason == Score.ProductReason(completion.value)
  {
    var v := Score.ProductVerdict(completion, fallback);
    AnalysisResult(c.id, c.name, v.likelihood, v.reason)
  }

  /** One result per customer, in customer order. */
  function AnalyzeAll(cs: seq<Customer>, p: Product, completions: nat -> Option<string>, fallbacks: nat -> real): (rs: seq<AnalysisResult>)
    requires ValidFallbacks(fallbacks)
    ensures |rs| == |cs|
    ensures forall i :: 0 <= i < |cs| ==> rs[i].customerId == cs[i].id && rs[i].customerName == cs[i].name
    ensures forall i :: 0 <= i < |cs| ==> 0.0 <= rs[i].likelihood <= 100.0
    ensures forall i :: 0 <= i < |cs| && completions(i).None? ==> rs[i].likelihood == 0.0 && rs[i].reason == Score.ErrorReason
    ensures forall i :: 0 <= i < |cs| && completions(i).Some? ==>
              && rs[i].likelihood == Score.ParseLikelihood(completions(i).value, fallbacks(i))
              && rs[i].reason == Score.ProductReason(completions(i).value)
  {
    seq(|cs|, i requires 0 <= i < |cs| => ResultFor(cs[i], completions(i), fallbacks(i)))
  }

  /** A failing completion affects only its own customer: results at positions whose completion is the same are equal. */
  lemma FailureIsLocal(cs: seq<Customer>, p: Product, c1: nat -> Option<string>, c2: nat -> Option<string>, fallbacks: nat -> real, i: nat)
    requires ValidFallbacks(fallbacks)
    requires i < |cs| && c1(i) == c2(i)
    ensures AnalyzeAll(cs, p, c1, fallbacks)[i] == AnalyzeAll(cs, p, c2, fallbacks)[i]
  {
  }

  predicate MissingData(req: Request) {
    req.product.None? || req.userId == "" || req.supabaseToken == ""
  }

  /** The completion requests, one per customer, in customer order. */
  function Completions(cs: seq<Customer>, p: Product): (calls: seq<Call>)
    ensures |calls| == |cs|
    ensures forall i :: 0 <= i < |cs| ==> calls[i] == Complete(Prompt(cs[i], p))
  {
    seq(|cs|, i requires 0 <= i < |cs| => Complete(Prompt(cs[i], p)))
  }

  /**
   * The route: 400 before anything is fetched when data is missing, 500 when
   * fetching customers throws, 404 when there are none, otherwise one result
   * per customer.
   */
  function Post(req: Request, fetch: CustomerFetch, completions: nat -> Option<string>, fallbacks: nat -> real): (out: Outcome)
    requires ValidFallbacks(fallbacks)
    ensures MissingData(req) <==> out.response == Fail(400, "Missing required data")
    ensures MissingData(req) ==> out.calls == []
    ensures !MissingData(req) ==> |out.calls| >= 1 && out.calls[0] == FetchCustomers(req.userId)
    ensures !MissingData(req) && fetch.FetchThrew? ==> out.response == Fail(500, "Error analyzing customer interest")
    ensures out.response == Fail(404, "No customers found") <==>
              !MissingData(req) && (fetch.FetchNull? || fetch == Fetched([]))
    ensures out.response.Ok? <==> !MissingData(req) && fetch.Fetched? && |fetch.rows| > 0
    ensures out.response.Ok? ==>
              && |out.response.body| == |fetch.rows|
              && (forall i :: 0 <= i < |fetch.rows| ==>
                    out.response.body[i] == ResultFor(fetch.rows[i], completions(i), fallbacks(i)))
              && out.calls == [FetchCustomers(req.userId)] + Completions(fetch.rows, req.product.value)
  {
    if MissingData(req) then Outcome(Fail(400, "Missing required data"), [])
    else
      var fetched := [FetchCustomers(req.userId)];
      match fetch
      case FetchThrew => Outcome(Fail(500, "Error analyzing customer interest"), fetched)
      case FetchNull => Outcome(Fail(404, "No customers found"), fetched)
      case Fetched(cs) =>
        if |cs| == 0 then Outcome(Fail(404, "No customers found"), fetched)
        else
          var p := req.product.value;
          Outcome(Ok(AnalyzeAll(cs, p, completions, fallbacks)), fetched + Completions(cs, p))
  }
}

=== FILE: products_page.dfy ===
/**
 * The products table: the likelihood gauge of a product's activity sheet
 * and the id given to a new product.
 */
module ProductsPage {
  import opened Wrappers
  import Decimal
  import Selection

  const GreenFill := "#22c55e"
  const AmberFill := "#f59e0b"
  const RedFill := "#ef4444"

  /** The single bar of the gauge. */
  datatype Gauge = Gauge(value: real, fill: string)

  /**
   * The gauge for a stored estimate: a missing estimate shows as 0, and the
   * fill is green from 75, amber from 50, red below.
   */
  function GaugeOf(likeestimate: Option<real>): (g: Gauge)
    ensures likeestimate.None? ==> g.value == 0.0
    ensures likeestimate.Some? ==> g.value == likeestimate.value
    ensures g.fill == GreenFill <==> g.value >= 75.0
    ensures g.fill == AmberFill <==> 50.0 <= g.value < 75.0
    ensures g.fill == RedFill <==> g.value < 50.0
  {
    var e := likeestimate.GetOr(0.0);
    Gauge(e, if e >= 75.0 then GreenFill else if e >= 50.0 then AmberFill else RedFill)
  }

  /** The fill colour of a selection page's band for the same score. */
  function FillOf(c: Selection.Colour): string {
    match c
    case Green => GreenFill
    case Yellow => AmberFill
    case Red => RedFill
  }

  /** The gauge and the selection pages colour a score alike. */
  lemma GaugeMatchesSelectionColour(likeestimate: Option<real>)
    ensures GaugeOf(likeestimate).fill == FillOf(Selection.ColourOf(GaugeOf(likeestimate).value))
  {
  }

  /** `Math.floor(Math.random() * 256).toString()` for a draw `r` in [0, 1). */
  function NewProductId(r: real): (id: string)
    requires 0.0 <= r < 1.0
    ensures exists n: nat :: n < 256 && id == Decimal.FromNat(n)
    ensures Decimal.AllDigits(id) && 1 <= |id| <= 3
  {
    var n := (r * 256.0).Floor;
    assert |Decimal.FromNat(n)| <= 3 by {
      assert Decimal.Pow10(3) == 1000;
      if |Decimal.FromNat(n)| > 3 {
        Decimal.Pow10Monotone(3, |Decimal.FromNat(n)| - 1);
      }
    }
    Decimal.FromNat(n)
  }

  /** Different draws can give the same id: there are only 256 of them. */
  lemma NewProductIdsCollide()
    ensures NewProductId(0.0) == NewProductId(0.003)
  {
    assert (0.003 * 256.0).Floor == 0;
  }
}

=== FILE: save_user_route.dfy ===
/**
 * `POST /api/save-user-data`: store the seller's onboarding answers in the
 * `users` table, then create the seller's own tables. The checks run in a
 * fixed order: authentication, then the body's fields, then the write.
 */
module SaveUserRoute {
  import opened Wrappers
  import Datastore

  const Unauthorized := "Unauthorized: User not authenticated"
  const MissingFields := "Missing required fields"
  const DatabaseError := "Database error: "
  const InternalError := "Internal server error"

  /** The request body's four fields, as parsed JSON values. */
  datatype Body = Body(name: Datastore.Value, profession: Datastore.Value, style: Datastore.Value, chatHistory: Datastore.Value)

  /** The upsert's result: its error, its data, or a thrown exception. */
  datatype Upserted = UpsertError(message: string) | UpsertData(data: Datastore.Value) | UpsertThrew

  datatype Call = Upsert(row: Datastore.Row) | CreateTables(userId: string)

  /** The status and JSON body sent back, and the calls made on the way. */
  datatype Outcome = Outcome(status: nat, body: Datastore.Value, calls: seq<Call>)

  function ErrorBody(message: string): Datastore.Value {
    Datastore.VObj(map["error" := Datastore.VStr(message)])
  }

  predicate HasAllFields(b: Body) {
    Datastore.Truthy(b.name) && Datastore.Truthy(b.profession) && Datastore.Truthy(b.style) && Datastore.Truthy(b.chatHistory)
  }

  /** The `users` row written for a seller. */
  function UserRow(userId: string, b: Body): (row: Datastore.Row)
    ensures row.Keys == {"userid", "name", "userprof", "userstyle", "useronchat"}
    ensures row["userid"] == Datastore.VStr(userId) && row["name"] == b.name && row["userstyle"] == b.style
    ensures row["userprof"] == Datastore.VObj(map["profession" := b.profession])
    ensures row["useronchat"] == Datastore.VObj(map["messages" := b.chatHistory])
  {
    map[
      "userid" := Datastore.VStr(userId),
      "name" := b.name,
      "userprof" := Datastore.VObj(map["profession" := b.profession]),
      "userstyle" := b.style,
      "useronchat" := Datastore.VObj(map["messages" := b.chatHistory])]
  }

  /**
   * `POST`. `userId` is the session's user, `body` the parsed body (none
   * when parsing throws), `upsert` the write's result and `tables` the
   * result of creating the seller's tables (none when that throws).
   */
  function Post(userId: Option<string>, body: Option<Body>, upsert: Upserted, tables: Option<Datastore.Value>): (o: Outcome)
    ensures (userId.None? || userId.value == "") <==> o.status == 401
    ensures o.status == 401 ==> o.body == ErrorBody(Unauthorized) && o.calls == []
    ensures o.status == 400 <==> userId.Some? && userId.value != "" && body.Some? && !HasAllFields(body.value)
    ensures o.status == 400 ==> o.body == ErrorBody(MissingFields) && o.calls == []
    ensures o.status == 200 || o.status == 401 || o.status == 400 || o.status == 500
    ensures o.calls != [] ==> userId.Some? && body.Some? && HasAllFields(body.value)
    ensures o.calls != [] ==> o.calls[0] == Upsert(UserRow(userId.value, body.value))
    ensures upsert.UpsertError? && o.calls != [] ==>
              o.status == 500 && o.body == ErrorBody(DatabaseError + upsert.message) && |o.calls| == 1
    ensures o.status == 200 <==> o.calls != [] && upsert.UpsertData? && tables.Some?
    ensures o.status == 200 ==>
              o.calls == [Upsert(UserRow(userId.value, body.value)), CreateTables(userId.value)] &&
              o.body == Datastore.VObj(map["userData" := upsert.data, "tableResults" := tables.value])
    ensures o.status == 500 && !upsert.UpsertError? ==> o.body == ErrorBody(InternalError)
  {
    if userId.None? || userId.value == "" then Outcome(401, ErrorBody(Unauthorized), [])
    else if body.None? then Outcome(500, ErrorBody(InternalError), [])
    else if !HasAllFields(body.value) then Outcome(400, ErrorBody(MissingFields), [])
    else
      var write := Upsert(UserRow(userId.value, body.value));
      match upsert
      case UpsertThrew => Outcome(500, ErrorBody(InternalError), [write])
      case UpsertError(message) => Outcome(500, ErrorBody(DatabaseError + message), [write])
      case UpsertData(data) =>
        var calls := [write, CreateTables(userId.value)];
        if tables.None? then Outcome(500, ErrorBody(InternalError), calls)
        else Outcome(200, Datastore.VObj(map["userData" := data, "tableResults" := tables.value]), calls)
  }

  /**
   * Nothing after a failed check matters: without a user neither the body
   * nor the datastore is consulted, with incomplete fields the datastore is
   * not, and after a write error table creation is not.
   */
  lemma ChecksShortCircuit(
    userId: Option<string>, b1: Option<Body>, b2: Option<Body>,
    u1: Upserted, u2: Upserted, t1: Option<Datastore.Value>, t2: Option<Datastore.Value>)
    ensures userId.None? ==> Post(userId, b1, u1, t1) == Post(userId, b2, u2, t2)
    ensures b1.Some? && !HasAllFields(b1.value) ==> Post(userId, b1, u1, t1) == Post(userId, b1, u2, t2)
    ensures u1.UpsertError? ==> Post(userId, b1, u1, t1) == Post(userId, b1, u1, t2)
  {
  }
}

=== FILE: score.dfy ===
/**
 * Turning one free-text completion into an interest score and a reason, as
 * both analysis routes do: the leftmost match of `\d+(\.\d+)?` is the score
 * (a fallback stands in for `Math.random() * 100` when there is none), then
 * clamped to [0, 100]; the reason is the text with numbers stripped out and
 * trimmed. Numbers are exact reals rather than IEEE doubles.
 */
module Score {
  import opened Wrappers
  import opened Text
  import opened Decimal

  /** Number of leading digits of `s`. */
  function DigitRun(s: string): (n: nat)
    ensures n <= |s|
    ensures AllDigits(s[..n])
    ensures n < |s| ==> !IsDigit(s[n])
    decreases |s|
  {
    if |s| > 0 && IsDigit(s[0]) then
      var m := DigitRun(s[1..]);
      assert s[..1 + m] == [s[0]] + s[1..][..m];
      1 + m
    else 0
  }

  /** A digit string followed by a non-digit (or nothing) has exactly its own length as digit run. */
  lemma {:induction false} DigitRunOfDigits(a: string, b: string)
    requires AllDigits(a)
    requires b == [] || !IsDigit(b[0])
    ensures DigitRun(a + b) == |a|
    decreases |a|
  {
    if |a| > 0 {
      assert (a + b)[1..] == a[1..] + b;
      DigitRunOfDigits(a[1..], b);
    } else {
      assert a + b == b;
    }
  }

  /**
   * The shape of a match of `\d+(\.\d+)?` at the start of a string:
   * `intLen` integer digits, then, when `fracLen > 0`, a point and
   * `fracLen` fraction digits.
   */
  datatype Token = Token(intLen: nat, fracLen: nat) {
    function Len(): nat {
      if fracLen == 0 then intLen else intLen + 1 + fracLen
    }
  }

  /**
   * The greedy match of `\d+(\.\d+)?` anchored at the first character of
   * `s`: the whole digit run, extended by a point and the following digit
   * run exactly when a digit follows the point.
   */
  function NumberAt(s: string): (t: Token)
    requires |s| > 0 && IsDigit(s[0])
    ensures 1 <= t.intLen && t.Len() <= |s|
    ensures AllDigits(s[..t.intLen])
    ensures t.intLen < |s| ==> !IsDigit(s[t.intLen])
    ensures t.fracLen > 0 ==> s[t.intLen] == '.' && AllDigits(s[t.intLen + 1..t.Len()])
    ensures t.fracLen > 0 && t.Len() < |s| ==> !IsDigit(s[t.Len()])
    ensures t.fracLen == 0 ==> !(t.intLen + 1 < |s| && s[t.intLen] == '.' && IsDigit(s[t.intLen + 1]))
  {
    var d := DigitRun(s);
    if d + 1 < |s| && s[d] == '.' && IsDigit(s[d + 1]) then
      var f := DigitRun(s[d + 1..]);
      assert s[d + 1..][..f] == s[d + 1..d + 1 + f];
      Token(d, f)
    else Token(d, 0)
  }

  /** `parseFloat` of the match at the start of `s`, exactly. */
  function NumberValue(s: string): (v: real)
    requires |s| > 0 && IsDigit(s[0])
    ensures v >= 0.0
    ensures v >= Value(s[..NumberAt(s).intLen]) as real
  {
    var t := NumberAt(s);
    var whole := Value(s[..t.intLen]) as real;
    if t.fracLen == 0 then whole
    else whole + Value(s[t.intLen + 1..t.Len()]) as real / Pow10(t.fracLen) as real
  }

  /** Where the leftmost match of `\d+(\.\d+)?` starts: every match starts at a digit, so at the first one. */
  function FirstDigit(s: string): (p: Option<nat>)
    ensures p.Some? ==> p.value < |s| && IsDigit(s[p.value])
    ensures p.Some? ==> forall j :: 0 <= j < p.value ==> !IsDigit(s[j])
    ensures p.None? ==> forall j :: 0 <= j < |s| ==> !IsDigit(s[j])
    decreases |s|
  {
    if |s| == 0 then None
    else if IsDigit(s[0]) then Some(0)
    else
      match FirstDigit(s[1..])
      case None => None
      case Some(k) => Some(k + 1)
  }

  /** `Math.min(Math.max(x, 0), 100)`. */
  function Clamp(x: real): (r: real)
    ensures 0.0 <= r <= 100.0
    ensures 0.0 <= x <= 100.0 ==> r == x
    ensures x > 100.0 ==> r == 100.0
    ensures x < 0.0 ==> r == 0.0
  {
    var lo := if x > 0.0 then x else 0.0;
    if lo < 100.0 then lo else 100.0
  }

  /**
   * The score read from a completion: the value of the leftmost
   * `\d+(\.\d+)?` match, or `fallback` when the text holds no digit, then
   * clamped to [0, 100].
   */
  function ParseLikelihood(text: string, fallback: real): (r: real)
    requires 0.0 <= fallback < 100.0
    ensures 0.0 <= r <= 100.0
    ensures FirstDigit(text).None? ==> r == fallback
    ensures FirstDigit(text).Some? ==> r == Clamp(NumberValue(text[FirstDigit(text).value..]))
  {
    match FirstDigit(text)
    case None => Clamp(fallback)
    case Some(p) => Clamp(NumberValue(text[p..]))
  }

  /** Length of a match of `\d+(\.\d+)?%` at the start of `s`, if one starts there. */
  function PercentTokenAt(s: string): (n: Option<nat>)
    ensures n.Some? ==> 2 <= n.value <= |s| && IsDigit(s[0]) && s[n.value - 1] == '%'
    ensures n.Some? ==> n.value == NumberAt(s).Len() + 1
  {
    if |s| > 0 && IsDigit(s[0]) && NumberAt(s).Len() < |s| && s[NumberAt(s).Len()] == '%'
    then Some(NumberAt(s).Len() + 1)
    else None
  }

  /**
   * `s.replace(/\d+(\.\d+)?%/g, '')`: scanning left to right, every match
   * is deleted and the scan resumes after it; elsewhere characters are kept.
   * The pattern cannot match without its `%`, so backtracking into a shorter
   * digit run never succeeds where the greedy match failed.
   */
  function StripPercentTokens(s: string): (r: string)
    ensures |r| <= |s|
    decreases |s|
  {
    if |s| == 0 then ""
    else
      assert s == [s[0]] + s[1..];
      match PercentTokenAt(s)
      case Some(n) =>
        assert s == s[..n] + s[n..];
        StripPercentTokens(s[n..])
      case None => [s[0]] + StripPercentTokens(s[1..])
  }

  /** The global replacement only deletes characters. */
  lemma {:induction false} StripPercentTokensDeletes(s: string)
    ensures multiset(StripPercentTokens(s)) <= multiset(s)
    decreases |s|
  {
    if |s| > 0 {
      match PercentTokenAt(s)
      case Some(n) =>
        assert s == s[..n] + s[n..];
        assert multiset(s) == multiset(s[..n]) + multiset(s[n..]);
        StripPercentTokensDeletes(s[n..]);
      case None =>
        assert s == [s[0]] + s[1..];
        assert StripPercentTokens(s) == [s[0]] + StripPercentTokens(s[1..]);
        StripPercentTokensDeletes(s[1..]);
        assert multiset(s) == multiset([s[0]]) + multiset(s[1..]);
    }
  }

  /** A number without a `%` after it is never removed: text with no `%` at all comes back unchanged. */
  lemma {:induction false} StripPercentTokensWithoutPercent(s: string)
    requires forall i :: 0 <= i < |s| ==> s[i] != '%'
    ensures StripPercentTokens(s) == s
    decreases |s|
  {
    if |s| > 0 {
      assert PercentTokenAt(s) == None;
      StripPercentTokensWithoutPercent(s[1..]);
      assert s == [s[0]] + s[1..];
    }
  }

  lemma StripNonDigit(s: string)
    requires |s| > 0 && !IsDigit(s[0])
    ensures StripPercentTokens(s) == [s[0]] + StripPercentTokens(s[1..])
  {
    assert PercentTokenAt(s) == None;
  }

  lemma NonDigitKept(a: string, b: string)
    requires |a| > 0 && !IsDigit(a[0])
    ensures StripPercentTokens(a + b) == [a[0]] + StripPercentTokens(a[1..] + b)
  {
    var s := a + b;
    assert s[0] == a[0] && s[1..] == a[1..] + b;
    StripNonDigit(s);
  }

  /** Text without digits before the first match is kept verbatim. */
  lemma {:induction false} StripPercentTokensKeepsDigitFreePrefix(a: string, b: string)
    requires forall i :: 0 <= i < |a| ==> !IsDigit(a[i])
    ensures StripPercentTokens(a + b) == a + StripPercentTokens(b)
    decreases |a|
  {
    if |a| == 0 {
      assert a + b == b;
    } else {
      calc {
        StripPercentTokens(a + b);
        { NonDigitKept(a, b); }
        [a[0]] + StripPercentTokens(a[1..] + b);
        { StripPercentTokensKeepsDigitFreePrefix(a[1..], b); }
        [a[0]] + (a[1..] + StripPercentTokens(b));
        { assert a == [a[0]] + a[1..]; }
        a + StripPercentTokens(b);
      }
    }
  }

  /** A decimal `d.f` followed by a non-digit is matched whole. */
  lemma {:induction false} NumberAtDecimal(d: string, f: string, rest: string)
    requires |d| > 0 && AllDigits(d) && |f| > 0 && AllDigits(f)
    requires rest == [] || !IsDigit(rest[0])
    ensures NumberAt(d + ("." + (f + rest))) == Token(|d|, |f|)
  {
    var t := "." + (f + rest);
    var s := d + t;
    DigitRunOfDigits(d, t);
    assert s[|d|..] == t;
    assert s[|d|] == '.' && s[|d| + 1] == f[0];
    assert s[|d| + 1..] == f + rest;
    DigitRunOfDigits(f, rest);
  }

  /**
   * `parseFloat` of a decimal `d.f` followed by a non-digit: the integer
   * part plus the fraction digits scaled down.
   */
  lemma {:induction false} NumberValueOfDecimal(d: string, f: string, rest: string)
    requires |d| > 0 && AllDigits(d) && |f| > 0 && AllDigits(f)
    requires rest == [] || !IsDigit(rest[0])
    ensures NumberValue(d + ("." + (f + rest))) == Value(d) as real + Value(f) as real / Pow10(|f|) as real
  {
    var s := d + ("." + (f + rest));
    NumberAtDecimal(d, f, rest);
    var t := NumberAt(s);
    assert t.intLen == |d| && t.fracLen == |f| && t.Len() == |d| + 1 + |f|;
    assert s[..t.intLen] == d;
    assert s[t.intLen + 1..t.Len()] == f;
    var whole := Value(d) as real;
    var frac := Value(f) as real / Pow10(|f|) as real;
    assert NumberValue(s) == whole + frac;
  }

  /** Where a percentage token starts, the scan drops it and resumes after it. */
  lemma PercentTokenDropped(s: string, n: nat)
    requires PercentTokenAt(s) == Some(n)
    ensures StripPercentTokens(s) == StripPercentTokens(s[n..])
  {
  }

  /** `d.f%` at the start of a string is one percentage token. */
  lemma {:induction false} DecimalToken(d: string, f: string, rest: string)
    requires |d| > 0 && AllDigits(d) && |f| > 0 && AllDigits(f)
    ensures var s := d + "." + f + "%" + rest;
            PercentTokenAt(s) == Some(|d| + |f| + 2) && s[|d| + |f| + 2..] == rest
  {
    var s := d + "." + f + "%" + rest;
    assert s == d + ("." + (f + ("%" + rest)));
    NumberAtDecimal(d, f, "%" + rest);
    assert s[|d| + 1 + |f|] == '%';
  }

  /** A decimal percentage such as `12.5%` is removed as one token. */
  lemma {:induction false} DecimalPercentage(d: string, f: string, rest: string)
    requires |d| > 0 && AllDigits(d) && |f| > 0 && AllDigits(f)
    ensures StripPercentTokens(d + "." + f + "%" + rest) == StripPercentTokens(rest)
  {
    DecimalToken(d, f, rest);
    PercentTokenDropped(d + "." + f + "%" + rest, |d| + |f| + 2);
  }

  /** A leading digit whose number ends in a character other than `.` or `%` is kept as it is. */
  lemma {:induction false} BareDigitKept(d: string, t: string)
    requires |d| > 0 && AllDigits(d) && |t| > 0 && !IsDigit(t[0]) && t[0] != '.' && t[0] != '%'
    ensures StripPercentTokens(d + t) == [d[0]] + StripPercentTokens(d[1..] + t)
  {
    var s := d + t;
    DigitRunOfDigits(d, t);
    assert s[|d|] == t[0];
    assert NumberAt(s) == Token(|d|, 0);
    assert PercentTokenAt(s) == None;
    assert s[1..] == d[1..] + t;
  }

  /** Digits ending in a character other than `.` or `%` pass through the scan unchanged. */
  lemma {:induction false} DigitsKept(d: string, t: string)
    requires AllDigits(d) && |t| > 0 && !IsDigit(t[0]) && t[0] != '.' && t[0] != '%'
    ensures StripPercentTokens(d + t) == d + StripPercentTokens(t)
    decreases |d|
  {
    if |d| == 0 {
      assert d + t == t;
    } else {
      calc {
        StripPercentTokens(d + t);
        { BareDigitKept(d, t); }
        [d[0]] + StripPercentTokens(d[1..] + t);
        { DigitsKept(d[1..], t); }
        [d[0]] + (d[1..] + StripPercentTokens(t));
        { assert d == [d[0]] + d[1..]; }
        d + StripPercentTokens(t);
      }
    }
  }

  /**
   * A number with no `%` after it is kept, and the scan goes on after the
   * character `t[0]` that ends it: only later percentages are removed.
   */
  lemma {:induction false} BareNumberKept(d: string, t: string)
    requires AllDigits(d) && |t| > 0 && !IsDigit(t[0]) && t[0] != '.' && t[0] != '%'
    ensures StripPercentTokens(d + t) == d + [t[0]] + StripPercentTokens(t[1..])
  {
    DigitsKept(d, t);
    StripNonDigit(t);
  }

  /**
   * `s.replace(/\d+(\.\d+)?%?/, '')`: only the leftmost match is deleted,
   * together with a `%` right after it when there is one.
   */
  function StripFirstNumber(s: string): (r: string)
    ensures FirstDigit(s).None? ==> r == s
    ensures FirstDigit(s).Some? ==>
              var p := FirstDigit(s).value;
              var m := NumberAt(s[p..]).Len();
              var n := |s| - |r|;
              && p <= |r| < |s|
              && r == s[..p] + s[p + n..]
              && (n == m || n == m + 1)
              && (n == m + 1 <==> p + m < |s| && s[p + m] == '%')
  {
    match FirstDigit(s)
    case None => s
    case Some(p) =>
      var e := p + NumberAt(s[p..]).Len();
      var e' := if e < |s| && s[e] == '%' then e + 1 else e;
      s[..p] + s[e'..]
  }

  const NoReason := "No specific reason provided"
  const ErrorReason := "Error occurred during analysis"

  /** The product route's reason: every percentage removed, trimmed, and never empty. */
  function ProductReason(text: string): (r: string)
    ensures r != ""
    ensures Trim(StripPercentTokens(text)) != "" ==> r == Trim(StripPercentTokens(text))
    ensures Trim(StripPercentTokens(text)) == "" ==> r == NoReason
  {
    OrElse(Trim(StripPercentTokens(text)), NoReason)
  }

  /** The campaign route's reason: the first number (and its `%`) removed, trimmed, and never empty. */
  function CampaignReason(text: string): (r: string)
    ensures r != ""
    ensures Trim(StripFirstNumber(text)) != "" ==> r == Trim(StripFirstNumber(text))
    ensures Trim(StripFirstNumber(text)) == "" ==> r == NoReason
  {
    OrElse(Trim(StripFirstNumber(text)), NoReason)
  }

  /**
   * A completion that opens with a whole percentage `n%` scores `n` (at
   * most 100); the product route's reason is the rest with its own
   * percentages removed, the campaign route's reason is the rest as it is.
   */
  lemma LeadingPercentage(n: nat, rest: string, fallback: real)
    requires 0.0 <= fallback < 100.0
    ensures ParseLikelihood(FromNat(n) + "%" + rest, fallback) == (if n <= 100 then n as real else 100.0)
    ensures StripPercentTokens(FromNat(n) + "%" + rest) == StripPercentTokens(rest)
    ensures StripFirstNumber(FromNat(n) + "%" + rest) == rest
  {
    var digits := FromNat(n);
    var s := digits + "%" + rest;
    assert s == digits + ("%" + rest);
    DigitRunOfDigits(digits, "%" + rest);
    assert s[|digits|] == '%';
    var t := NumberAt(s);
    assert t == Token(|digits|, 0);
    assert s[..|digits|] == digits;
    assert NumberValue(s) == n as real;
    assert FirstDigit(s) == Some(0);
    assert s[0..] == s;
    assert PercentTokenAt(s) == Some(|digits| + 1);
    assert s[|digits| + 1..] == rest;
  }

  /** The per-customer outcome of one analysis: a score and the reason for it. */
  datatype Verdict = Verdict(likelihood: real, reason: string)

  /** What a customer gets when the completion call throws. */
  const ErrorVerdict := Verdict(0.0, ErrorReason)

  /**
   * The product route's verdict for one completion (`None` when the call
   * threw): the sentinel on failure, otherwise the parsed score and reason.
   */
  function ProductVerdict(completion: Option<string>, fallback: real): (v: Verdict)
    requires 0.0 <= fallback < 100.0
    ensures 0.0 <= v.likelihood <= 100.0 && v.reason != ""
    ensures completion.None? ==> v == ErrorVerdict
    ensures completion.Some? ==> v == Verdict(ParseLikelihood(completion.value, fallback), ProductReason(completion.value))
  {
    match completion
    case None => ErrorVerdict
    case Some(text) => Verdict(ParseLikelihood(text, fallback), ProductReason(text))
  }

  /** The campaign route's verdict for one completion; only the reason differs from the product route. */
  function CampaignVerdict(completion: Option<string>, fallback: real): (v: Verdict)
    requires 0.0 <= fallback < 100.0
    ensures 0.0 <= v.likelihood <= 100.0 && v.reason != ""
    ensures completion.None? ==> v == ErrorVerdict
    ensures completion.Some? ==> v == Verdict(ParseLikelihood(completion.value, fallback), CampaignReason(completion.value))
  {
    match completion
    case None => ErrorVerdict
    case Some(text) => Verdict(ParseLikelihood(text, fallback), CampaignReason(text))
  }
}

=== FILE: selection.dfy ===
/**
 * The customer-selection logic shared by the new-product and new-campaign
 * pages, and the id selection of the product and customer lists: merging
 * analysis results onto customers, colour bands, auto-selection, the
 * per-id toggle, select-all and the payload of "continue".
 */
module Selection {
  import opened Wrappers
  import opened Text
  import opened Domain
  import Seqs

  /** A customer row with its analysis merged in (`{...customer, likelihood, reason}`). */
  datatype Analyzed = Analyzed(customer: Customer, likelihood: real, reason: string)

  const NoAnalysis := "Analysis not available"

  /** `results.find(r => r.customerId === id)`: the first result for the id. */
  function FindResult(rs: seq<AnalysisResult>, id: string): (r: Option<AnalysisResult>)
    ensures r.None? <==> forall i :: 0 <= i < |rs| ==> rs[i].customerId != id
    ensures r.Some? ==> exists i :: 0 <= i < |rs| && rs[i] == r.value && rs[i].customerId == id &&
                          forall j :: 0 <= j < i ==> rs[j].customerId != id
  {
    Seqs.Find(rs, (r: AnalysisResult) => r.customerId == id)
  }

  /** The merge of one customer: the matching result's likelihood or 0, its reason or a placeholder. */
  function MergeOne(c: Customer, rs: seq<AnalysisResult>): (a: Analyzed)
    ensures a.customer == c
    ensures FindResult(rs, c.id).None? ==> a.likelihood == 0.0 && a.reason == NoAnalysis
    ensures FindResult(rs, c.id).Some? ==> a.likelihood == FindResult(rs, c.id).value.likelihood
    ensures FindResult(rs, c.id).Some? && FindResult(rs, c.id).value.reason != "" ==> a.reason == FindResult(rs, c.id).value.reason
    ensures FindResult(rs, c.id).Some? && FindResult(rs, c.id).value.reason == "" ==> a.reason == NoAnalysis
    ensures a.reason != ""
  {
    match FindResult(rs, c.id)
    case None => Analyzed(c, 0.0, NoAnalysis)
    case Some(r) => Analyzed(c, r.likelihood, OrElse(r.reason, NoAnalysis))
  }

  /** `customers.map(...)`: same length and order as the customers. */
  function Merge(cs: seq<Customer>, rs: seq<AnalysisResult>): (ms: seq<Analyzed>)
    ensures |ms| == |cs|
    ensures forall i :: 0 <= i < |cs| ==> ms[i] == MergeOne(cs[i], rs)
  {
    seq(|cs|, i requires 0 <= i < |cs| => MergeOne(cs[i], rs))
  }

  ghost predicate UniqueIds(cs: seq<Customer>) {
    forall i, j :: 0 <= i < j < |cs| ==> cs[i].id != cs[j].id
  }

  /**
   * When the results are the analysis routes' answer for these customers
   * (one per customer, in order, carrying its id) and ids are unique, every
   * customer gets its own result's likelihood.
   */
  lemma {:induction false} MergeOfRouteResults(cs: seq<Customer>, rs: seq<AnalysisResult>)
    requires |rs| == |cs| && UniqueIds(cs)
    requires forall i :: 0 <= i < |cs| ==> rs[i].customerId == cs[i].id
    ensures forall i :: 0 <= i < |cs| ==> Merge(cs, rs)[i].likelihood == rs[i].likelihood
    ensures forall i :: 0 <= i < |cs| && rs[i].reason != "" ==> Merge(cs, rs)[i].reason == rs[i].reason
  {
    forall i | 0 <= i < |cs|
      ensures FindResult(rs, cs[i].id) == Some(rs[i])
    {
      var r := FindResult(rs, cs[i].id);
      assert r.Some?;
      var k :| 0 <= k < |rs| && rs[k] == r.value && rs[k].customerId == cs[i].id &&
               forall j :: 0 <= j < k ==> rs[j].customerId != cs[i].id;
    }
  }

  datatype Colour = Green | Yellow | Red

  /** `getLikelihoodColor`: green from 75, yellow from 50, red below. */
  function ColourOf(likelihood: real): Colour {
    if likelihood >= 75.0 then Green else if likelihood >= 50.0 then Yellow else Red
  }

  /** The three bands partition the scores at 50 and 75. */
  lemma ColourBands(likelihood: real)
    ensures ColourOf(likelihood) == Green <==> 75.0 <= likelihood
    ensures ColourOf(likelihood) == Yellow <==> 50.0 <= likelihood < 75.0
    ensures ColourOf(likelihood) == Red <==> likelihood < 50.0
  {
  }

  /** The ids of the merged customers scoring at least 50, in customer order. */
  function AutoSelect(ms: seq<Analyzed>): (ids: seq<string>)
    ensures |ids| <= |ms|
    ensures forall i :: 0 <= i < |ms| && ms[i].likelihood >= 50.0 ==> ms[i].customer.id in ids
    ensures forall k :: 0 <= k < |ids| ==> exists i :: 0 <= i < |ms| && ms[i].likelihood >= 50.0 && ms[i].customer.id == ids[k]
  {
    if |ms| == 0 then []
    else
      var rest := AutoSelect(ms[1..]);
      assert forall i :: 1 <= i < |ms| ==> ms[i] == ms[1..][i - 1];
      if ms[0].likelihood >= 50.0 then [ms[0].customer.id] + rest else rest
  }

  lemma {:induction false} AutoSelectAppend(a: seq<Analyzed>, b: seq<Analyzed>)
    ensures AutoSelect(a + b) == AutoSelect(a) + AutoSelect(b)
  {
    if |a| > 0 {
      assert (a + b)[1..] == a[1..] + b;
      AutoSelectAppend(a[1..], b);
    } else {
      assert a + b == b;
    }
  }

  /**
   * With unique ids, a customer is auto-selected exactly when its colour is
   * green or yellow.
   */
  lemma {:induction false} AutoSelectedIffNotRed(ms: seq<Analyzed>, i: nat)
    requires i < |ms|
    requires forall p, q :: 0 <= p < q < |ms| ==> ms[p].customer.id != ms[q].customer.id
    ensures ms[i].customer.id in AutoSelect(ms) <==> ColourOf(ms[i].likelihood) != Red
  {
    if ms[i].customer.id in AutoSelect(ms) {
      var k :| 0 <= k < |AutoSelect(ms)| && AutoSelect(ms)[k] == ms[i].customer.id;
      var j :| 0 <= j < |ms| && ms[j].likelihood >= 50.0 && ms[j].customer.id == AutoSelect(ms)[k];
      assert j == i;
    }
  }

  /** `handleCheckboxChange`: remove the id if present, append it otherwise. */
  function Toggle(sel: seq<string>, id: string): (r: seq<string>)
    ensures id in r <==> id !in sel
    ensures forall x :: x != id ==> (x in r <==> x in sel)
  {
    if id in sel then Seqs.Filter(sel, (x: string) => x != id) else sel + [id]
  }

  /** Toggling twice restores the same membership. */
  lemma ToggleTwice(sel: seq<string>, id: string, x: string)
    ensures x in Toggle(Toggle(sel, id), id) <==> x in sel
  {
  }

  /** A selection without repeats stays without repeats. */
  lemma {:induction false} ToggleKeepsNoDup(sel: seq<string>, id: string)
    requires Seqs.NoDup(sel)
    ensures Seqs.NoDup(Toggle(sel, id))
  {
    if id in sel {
      FilterKeepsNoDup(sel, (x: string) => x != id);
    }
  }

  lemma {:induction false} FilterKeepsNoDup<T>(s: seq<T>, p: T -> bool)
    requires Seqs.NoDup(s)
    ensures Seqs.NoDup(Seqs.Filter(s, p))
    decreases |s|
  {
    if |s| > 0 {
      FilterKeepsNoDup(s[1..], p);
      var rest := Seqs.Filter(s[1..], p);
      if p(s[0]) {
        assert s[0] !in s[1..];
        assert s[0] !in rest;
        assert Seqs.Filter(s, p) == [s[0]] + rest;
      } else {
        assert Seqs.Filter(s, p) == rest;
      }
    }
  }

  /** `handleSelectAll`: clear when the counts agree, otherwise every id in table order. */
  function SelectAll(sel: seq<string>, ids: seq<string>): (r: seq<string>)
    ensures |sel| == |ids| ==> r == []
    ensures |sel| != |ids| ==> r == ids
  {
    if |sel| == |ids| then [] else ids
  }

  /**
   * Counting stands in for "everything is selected": for a repeat-free
   * selection of listed ids, drawn from repeat-free ids, the counts agree
   * exactly when every id is selected.
   */
  lemma {:induction false} SelectAllClearsIffAllSelected(sel: seq<string>, ids: seq<string>)
    requires Seqs.NoDup(sel) && Seqs.NoDup(ids)
    requires forall k :: 0 <= k < |sel| ==> sel[k] in ids
    ensures SelectAll(sel, ids) == [] <==> |ids| == 0 || forall k :: 0 <= k < |ids| ==> ids[k] in sel
  {
    Seqs.NoDupCard(sel);
    Seqs.NoDupCard(ids);
    var a := set x | x in sel;
    var b := set x | x in ids;
    assert a <= b;
    if forall k :: 0 <= k < |ids| ==> ids[k] in sel {
      forall x | x in b
        ensures x in a
      {
        var k :| 0 <= k < |ids| && ids[k] == x;
      }
      assert a == b;
      assert |sel| == |ids|;
    }
    if |sel| == |ids| {
      Seqs.SubsetSameCard(a, b);
      assert forall k :: 0 <= k < |ids| ==> ids[k] in b;
    }
  }

  /** Counting is not the same as covering when the selection repeats an id. */
  lemma SelectAllCountsNotCovers()
    ensures SelectAll(["a", "a"], ["a", "b"]) == []
    ensures "b" !in ["a", "a"]
  {
  }

  /** `handleContinue`: nothing when no one is selected, otherwise the selected rows in table order. */
  function Continue(ms: seq<Analyzed>, sel: seq<string>): (r: Option<seq<Analyzed>>)
    ensures r.None? <==> |sel| == 0
    ensures r.Some? ==> forall i :: 0 <= i < |r.value| ==> r.value[i] in ms && r.value[i].customer.id in sel
    ensures r.Some? ==> forall i :: 0 <= i < |ms| && ms[i].customer.id in sel ==> ms[i] in r.value
    ensures r.Some? ==> r.value == Seqs.Filter(ms, (m: Analyzed) => m.customer.id in sel)
  {
    if |sel| == 0 then None else Some(Seqs.Filter(ms, (m: Analyzed) => m.customer.id in sel))
  }

  /** The six fields the campaign flow passes on. */
  datatype Contact = Contact(id: string, name: string, email: string, likes: string, dislikes: string, preferences: string)

  /** The customer's row cut down to the six fields, each carried over unchanged. */
  function ToContact(c: Customer): (r: Contact)
    ensures r.id == c.id && r.name == c.name && r.email == c.email
    ensures r.likes == c.likes && r.dislikes == c.dislikes && r.preferences == c.preferences
  {
    Contact(c.id, c.name, c.email, c.likes, c.dislikes, c.preferences)
  }

  /** The campaign page's `handleContinue`: the selected rows projected to six fields. */
  function ContinueCampaign(ms: seq<Analyzed>, sel: seq<string>): (r: Option<seq<Contact>>)
    ensures r.None? <==> |sel| == 0
    ensures r.Some? ==> |r.value| == |Continue(ms, sel).value|
    ensures r.Some? ==> forall i :: 0 <= i < |r.value| ==>
              var c := Continue(ms, sel).value[i].customer;
              r.value[i] == Contact(c.id, c.name, c.email, c.likes, c.dislikes, c.preferences)
  {
    match Continue(ms, sel)
    case None => None
    case Some(chosen) => Some(seq(|chosen|, i requires 0 <= i < |chosen| => ToContact(chosen[i].customer)))
  }
}

=== FILE: seqs.dfy ===
/** Order-preserving filtering and duplicate-freedom over sequences. */
module Seqs {
  import opened Wrappers

  /** `Array.prototype.find`: the first element satisfying `p`, or none. */
  function Find<T>(s: seq<T>, p: T -> bool): (r: Option<T>)
    ensures r.None? <==> forall i :: 0 <= i < |s| ==> !p(s[i])
    ensures r.Some? ==> exists i :: 0 <= i < |s| && s[i] == r.value && p(s[i]) &&
                          forall j :: 0 <= j < i ==> !p(s[j])
    decreases |s|
  {
    if |s| == 0 then None
    else if p(s[0]) then Some(s[0])
    else
      var r := Find(s[1..], p);
      if r.Some? then
        ghost var i :| 0 <= i < |s[1..]| && s[1..][i] == r.value && p(s[1..][i]) &&
                       forall j :: 0 <= j < i ==> !p(s[1..][j]);
        assert s[i + 1] == r.value;
        r
      else r
  }

  /** Two tests that agree on every element find the same element. */
  lemma {:induction false} FindCongruent<T>(s: seq<T>, p: T -> bool, q: T -> bool)
    requires forall i :: 0 <= i < |s| ==> p(s[i]) == q(s[i])
    ensures Find(s, p) == Find(s, q)
    decreases |s|
  {
    if |s| > 0 {
      FindCongruent(s[1..], p, q);
    }
  }

  /** `Array.prototype.filter`: the elements satisfying `p`, in their original order. */
  function Filter<T>(s: seq<T>, p: T -> bool): (r: seq<T>)
    ensures |r| <= |s|
    ensures forall i :: 0 <= i < |r| ==> r[i] in s && p(r[i])
    ensures forall i :: 0 <= i < |s| && p(s[i]) ==> s[i] in r
    ensures multiset(r) <= multiset(s)
    decreases |s|
  {
    if |s| == 0 then []
    else
      assert s == [s[0]] + s[1..];
      if p(s[0]) then [s[0]] + Filter(s[1..], p) else Filter(s[1..], p)
  }

  /** Filtering keeps every copy of a passing element and no copy of a failing one. */
  lemma {:induction false} FilterCount<T>(s: seq<T>, p: T -> bool)
    ensures forall x :: multiset(Filter(s, p))[x] == if p(x) then multiset(s)[x] else 0
    decreases |s|
  {
    if |s| > 0 {
      FilterCount(s[1..], p);
      assert s == [s[0]] + s[1..];
      assert multiset(s) == multiset([s[0]]) + multiset(s[1..]);
    }
  }

  /** Filtering distributes over concatenation, so relative order is kept. */
  lemma {:induction false} FilterAppend<T>(a: seq<T>, b: seq<T>, p: T -> bool)
    ensures Filter(a + b, p) == Filter(a, p) + Filter(b, p)
    decreases |a|
  {
    if |a| == 0 {
      assert a + b == b;
    } else {
      assert (a + b)[0] == a[0];
      assert (a + b)[1..] == a[1..] + b;
      FilterAppend(a[1..], b, p);
    }
  }

  /** A filter whose predicate holds everywhere returns its input unchanged. */
  lemma {:induction false} FilterAll<T>(s: seq<T>, p: T -> bool)
    requires forall i :: 0 <= i < |s| ==> p(s[i])
    ensures Filter(s, p) == s
    decreases |s|
  {
    if |s| > 0 {
      FilterAll(s[1..], p);
    }
  }

  /** Filters with predicates that agree on every element agree. */
  lemma {:induction false} FilterCongruent<T>(s: seq<T>, p: T -> bool, q: T -> bool)
    requires forall x :: p(x) == q(x)
    ensures Filter(s, p) == Filter(s, q)
    decreases |s|
  {
    if |s| > 0 {
      FilterCongruent(s[1..], p, q);
    }
  }

  predicate NoDup<T(==)>(s: seq<T>) {
    forall i, j :: 0 <= i < j < |s| ==> s[i] != s[j]
  }

  /** A duplicate-free sequence has as many elements as its element set. */
  lemma {:induction false} NoDupCard<T>(s: seq<T>)
    requires NoDup(s)
    ensures |set x | x in s| == |s|
    decreases |s|
  {
    if |s| > 0 {
      var rest := set x | x in s[1..];
      NoDupCard(s[1..]);
      assert (set x | x in s) == rest + {s[0]};
      assert s[0] !in rest;
    }
  }

  /** A subset with as many elements as its superset is the whole superset. */
  lemma SubsetSameCard<T>(a: set<T>, b: set<T>)
    requires a <= b && |a| == |b|
    ensures a == b
  {
    var d := b - a;
    assert b == a + d;
    assert a * d == {};
    assert |b| == |a| + |d|;
    assert d == {};
  }

  lemma InSingleton<T>(s: seq<T>, x: T)
    requires |s| == 1 && x in s
    ensures x == s[0]
  {
  }

  lemma FilterSingleton<T>(x: T, p: T -> bool)
    ensures Filter([x], p) == if p(x) then [x] else []
  {
    assert [x][1..] == [];
  }

  /** Filtering one more element of a prefix keeps it exactly when the predicate holds. */
  lemma {:induction false} FilterPrefixStep<T>(s: seq<T>, i: nat, p: T -> bool)
    requires i < |s|
    ensures Filter(s[..i + 1], p) == Filter(s[..i], p) + (if p(s[i]) then [s[i]] else [])
  {
    assert s[..i + 1] == s[..i] + [s[i]];
    FilterAppend(s[..i], [s[i]], p);
    FilterSingleton(s[i], p);
  }
}

=== FILE: text.dfy ===
/**
 * The JavaScript string operations the application relies on, over
 * `string == seq<char>`: `indexOf`/`includes`, `split` and `join` with a
 * literal separator, `trim`, `toLowerCase`, and `||` used as a default.
 */
module Text {
  import opened Wrappers

  /** `sep` occurs in `s` starting at index `i`. */
  predicate OccursAt(s: string, sep: string, i: nat) {
    i + |sep| <= |s| && s[i..i + |sep|] == sep
  }

  lemma OccursShift(s: string, sep: string, j: nat)
    requires |s| > 0
    ensures OccursAt(s, sep, j + 1) <==> OccursAt(s[1..], sep, j)
  {
    if j + 1 + |sep| <= |s| {
      assert s[j + 1..j + 1 + |sep|] == s[1..][j..j + |sep|];
    }
  }

  /** `s.indexOf(sep)`: the leftmost occurrence of `sep` in `s`, if any. */
  function FindFirst(s: string, sep: string): (r: Option<nat>)
    ensures r.Some? ==> OccursAt(s, sep, r.value)
    ensures r.Some? ==> forall j: nat :: j < r.value ==> !OccursAt(s, sep, j)
    ensures r.None? ==> forall j: nat :: !OccursAt(s, sep, j)
    decreases |s|
  {
    if |s| < |sep| then None
    else if s[..|sep|] == sep then Some(0)
    else
      var rest := FindFirst(s[1..], sep);
      assert !OccursAt(s, sep, 0);
      assert forall j: nat :: 0 < j ==> (OccursAt(s, sep, j) <==> OccursAt(s[1..], sep, j - 1)) by {
        forall j: nat | 0 < j ensures OccursAt(s, sep, j) <==> OccursAt(s[1..], sep, j - 1) {
          OccursShift(s, sep, j - 1);
        }
      }
      match rest
      case None => None
      case Some(k) => Some(k + 1)
  }

  /** The leftmost-occurrence search is pinned down by its two properties. */
  lemma FindFirstIs(s: string, sep: string, i: nat)
    requires OccursAt(s, sep, i)
    requires forall j: nat :: j < i ==> !OccursAt(s, sep, j)
    ensures FindFirst(s, sep) == Some(i)
  {
    var r := FindFirst(s, sep);
    assert r.Some?;
    if r.value < i {
    } else if r.value > i {
    }
  }

  /** `s.includes(t)`. */
  predicate Contains(s: string, t: string) {
    FindFirst(s, t).Some?
  }

  /** An occurrence inside a prefix is an occurrence in the whole string. */
  lemma OccursInPrefix(s: string, sep: string, n: nat, j: nat)
    requires n <= |s| && OccursAt(s[..n], sep, j)
    ensures OccursAt(s, sep, j)
  {
    assert s[..n][j..j + |sep|] == s[j..j + |sep|];
  }

  /** A prefix of a string free of `sep` is free of it too. */
  lemma PrefixFree(s: string, sep: string, n: nat)
    requires n <= |s| && !Contains(s, sep)
    ensures !Contains(s[..n], sep)
  {
    forall j: nat ensures !OccursAt(s[..n], sep, j) {
      if j + |sep| <= n {
        assert !OccursAt(s, sep, j);
        assert s[..n][j..j + |sep|] == s[j..j + |sep|];
      }
    }
  }

  /** An occurrence inside a suffix is an occurrence in the whole string. */
  lemma OccursInSuffix(s: string, sep: string, n: nat, j: nat)
    requires n <= |s| && OccursAt(s[n..], sep, j)
    ensures OccursAt(s, sep, n + j)
  {
    assert s[n..][j..j + |sep|] == s[n + j..n + j + |sep|];
  }

  /** `s.split(sep)` for a non-empty literal separator, as JavaScript scans it: left to right, non-overlapping. */
  function Split(s: string, sep: string): (parts: seq<string>)
    requires |sep| > 0
    ensures |parts| >= 1
    ensures forall k :: 0 <= k < |parts| ==> !Contains(parts[k], sep)
    decreases |s|
  {
    match FindFirst(s, sep)
    case None => [s]
    case Some(i) =>
      var head := s[..i];
      assert !Contains(head, sep) by {
        forall j: nat ensures !OccursAt(head, sep, j) {
          if j + |sep| <= |head| {
            assert j < i && !OccursAt(s, sep, j);
            assert head[j..j + |sep|] == s[j..j + |sep|];
          }
        }
      }
      [head] + Split(s[i + |sep|..], sep)
  }

  /** `parts.join(sep)`. */
  function Join(parts: seq<string>, sep: string): string
    decreases |parts|
  {
    if |parts| == 0 then ""
    else if |parts| == 1 then parts[0]
    else parts[0] + sep + Join(parts[1..], sep)
  }

  /** One step of a split: the text before the first separator, then the split of the rest. */
  lemma SplitStep(s: string, sep: string, i: nat)
    requires |sep| > 0 && FindFirst(s, sep) == Some(i)
    ensures i + |sep| <= |s| && s[i..i + |sep|] == sep
    ensures Split(s, sep) == [s[..i]] + Split(s[i + |sep|..], sep)
  {
  }

  /** Joining the pieces of a split with the same separator restores the string. */
  lemma {:induction false} JoinSplit(s: string, sep: string)
    requires |sep| > 0
    ensures Join(Split(s, sep), sep) == s
    decreases |s|
  {
    match FindFirst(s, sep)
    case None =>
    case Some(i) =>
      var tail := s[i + |sep|..];
      var rest := Split(tail, sep);
      SplitStep(s, sep, i);
      JoinCons(s[..i], rest, sep);
      JoinSplit(tail, sep);
      SliceAround(s, i, |sep|);
  }

  /** A string is its prefix, a middle slice and the rest. */
  lemma SliceAround(s: string, i: nat, n: nat)
    requires i + n <= |s|
    ensures s == s[..i] + s[i..i + n] + s[i + n..]
  {
  }

  /** Joining a non-empty list after a first piece puts the separator between them. */
  lemma JoinCons(head: string, rest: seq<string>, sep: string)
    requires |rest| >= 1
    ensures Join([head] + rest, sep) == head + sep + Join(rest, sep)
  {
    assert ([head] + rest)[0] == head && ([head] + rest)[1..] == rest;
  }

  /**
   * The first piece of a split is the text before the first separator (all
   * of it when there is none), and the remaining pieces re-joined are the
   * text after that separator.
   */
  lemma {:induction false} SplitHead(s: string, sep: string)
    requires |sep| > 0
    ensures FindFirst(s, sep).None? ==> Split(s, sep) == [s]
    ensures FindFirst(s, sep).Some? ==>
              var i := FindFirst(s, sep).value;
              && |Split(s, sep)| >= 2
              && Split(s, sep)[0] == s[..i]
              && Join(Split(s, sep)[1..], sep) == s[i + |sep|..]
              && s == s[..i] + sep + s[i + |sep|..]
  {
    match FindFirst(s, sep)
    case None =>
    case Some(i) =>
      var tail := s[i + |sep|..];
      SplitStep(s, sep, i);
      assert Split(s, sep)[1..] == Split(tail, sep);
      JoinSplit(tail, sep);
      SliceAround(s, i, |sep|);
  }

  /** The first piece of a split is a prefix of the string. */
  lemma SplitFirstIsPrefix(s: string, sep: string)
    requires |sep| > 0
    ensures |Split(s, sep)[0]| <= |s| && Split(s, sep)[0] == s[..|Split(s, sep)[0]|]
  {
    SplitHead(s, sep);
  }

  /** A join starts with its first piece. */
  lemma JoinStartsWithFirst(parts: seq<string>, sep: string)
    requires |parts| > 0
    ensures |parts[0]| <= |Join(parts, sep)| && parts[0] == Join(parts, sep)[..|parts[0]|]
  {
    if |parts| > 1 {
      assert Join(parts, sep) == parts[0] + (sep + Join(parts[1..], sep));
    }
  }

  /**
   * When the first occurrence of `sep` in `a + sep + b` is the one between
   * `a` and `b`, splitting yields `a` followed by the pieces of `b`.
   */
  lemma SplitAtFirst(a: string, sep: string, b: string)
    requires |sep| > 0
    requires forall j: nat :: j < |a| ==> !OccursAt(a + sep + b, sep, j)
    ensures Split(a + sep + b, sep) == [a] + Split(b, sep)
  {
    var s := a + sep + b;
    assert s[|a|..|a| + |sep|] == sep;
    FindFirstIs(s, sep, |a|);
    assert s[..|a|] == a;
    assert s[|a| + |sep|..] == b;
  }

  /** Splitting the join of separator-free pieces on a one-character separator gives the pieces back. */
  lemma {:induction false} SplitJoin(parts: seq<string>, c: char)
    requires |parts| >= 1
    requires forall k :: 0 <= k < |parts| ==> c !in parts[k]
    ensures Split(Join(parts, [c]), [c]) == parts
    decreases |parts|
  {
    if |parts| == 1 {
      var s := parts[0];
      forall j: nat ensures !OccursAt(s, [c], j) {
        if j + 1 <= |s| {
          assert s[j..j + 1] == [s[j]];
        }
      }
    } else {
      var a := parts[0];
      var b := Join(parts[1..], [c]);
      forall j: nat | j < |a| ensures !OccursAt(a + [c] + b, [c], j) {
        assert (a + [c] + b)[j] == a[j];
        assert (a + [c] + b)[j..j + 1] == [a[j]];
      }
      SplitAtFirst(a, [c], b);
      SplitJoin(parts[1..], c);
    }
  }

  /** The characters JavaScript's `String.prototype.trim` removes: WhiteSpace and LineTerminator. */
  predicate IsSpace(c: char) {
    c in {'\t', '\n', '\U{000B}', '\U{000C}', '\r', ' ', '\U{00A0}', '\U{1680}',
          '\U{2000}', '\U{2001}', '\U{2002}', '\U{2003}', '\U{2004}', '\U{2005}',
          '\U{2006}', '\U{2007}', '\U{2008}', '\U{2009}', '\U{200A}', '\U{2028}',
          '\U{2029}', '\U{202F}', '\U{205F}', '\U{3000}', '\U{FEFF}'}
  }

  predicate AllSpace(s: string) {
    forall i :: 0 <= i < |s| ==> IsSpace(s[i])
  }

  /** `trimStart`: the suffix left after dropping leading white space. */
  function TrimStart(s: string): (r: string)
    ensures |r| <= |s| && r == s[|s| - |r|..]
    ensures AllSpace(s[..|s| - |r|])
    ensures r == [] || !IsSpace(r[0])
    decreases |s|
  {
    if |s| > 0 && IsSpace(s[0]) then
      var r := TrimStart(s[1..]);
      assert s[..|s| - |r|] == [s[0]] + s[1..][..|s| - 1 - |r|];
      r
    else s
  }

  /** `trimEnd`: the prefix left after dropping trailing white space. */
  function TrimEnd(s: string): (r: string)
    ensures |r| <= |s| && r == s[..|r|]
    ensures AllSpace(s[|r|..])
    ensures r == [] || !IsSpace(r[|r| - 1])
    decreases |s|
  {
    if |s| > 0 && IsSpace(s[|s| - 1]) then
      var r := TrimEnd(s[..|s| - 1]);
      assert s[|r|..] == s[..|s| - 1][|r|..] + [s[|s| - 1]];
      r
    else s
  }

  /** `s.trim()`. */
  function Trim(s: string): (r: string)
    ensures r == [] || (!IsSpace(r[0]) && !IsSpace(r[|r| - 1]))
  {
    var t := TrimStart(s);
    var r := TrimEnd(t);
    assert r == [] || !IsSpace(r[0]) by {
      if r != [] {
        assert r[0] == t[..|r|][0] == t[0];
      }
    }
    r
  }

  /**
   * Trim is characterised by the decomposition it undoes: surrounding a
   * string that neither starts nor ends with white space by white space on
   * both sides, then trimming, gives that string back.
   */
  lemma {:induction false} TrimStartOfPadded(lead: string, rest: string)
    requires AllSpace(lead)
    requires rest == [] || !IsSpace(rest[0])
    ensures TrimStart(lead + rest) == rest
    decreases |lead|
  {
    if |lead| > 0 {
      assert (lead + rest)[1..] == lead[1..] + rest;
      TrimStartOfPadded(lead[1..], rest);
    } else {
      assert lead + rest == rest;
    }
  }

  lemma {:induction false} TrimEndOfPadded(rest: string, trail: string)
    requires AllSpace(trail)
    requires rest == [] || !IsSpace(rest[|rest| - 1])
    ensures TrimEnd(rest + trail) == rest
    decreases |trail|
  {
    if |trail| > 0 {
      assert (rest + trail)[..|rest + trail| - 1] == rest + trail[..|trail| - 1];
      TrimEndOfPadded(rest, trail[..|trail| - 1]);
    } else {
      assert rest + trail == rest;
    }
  }

  lemma TrimOfPadded(lead: string, mid: string, trail: string)
    requires AllSpace(lead) && AllSpace(trail)
    requires mid == [] || (!IsSpace(mid[0]) && !IsSpace(mid[|mid| - 1]))
    ensures Trim(lead + mid + trail) == mid
  {
    if mid == [] {
      assert lead + mid + trail == (lead + trail) + [];
      TrimStartOfPadded(lead + trail, []);
      TrimEndOfPadded([], []);
    } else {
      assert lead + mid + trail == lead + (mid + trail);
      TrimStartOfPadded(lead, mid + trail);
      TrimEndOfPadded(mid, trail);
    }
  }

  /** ASCII upper-case letters lowered; every other character is kept. */
  function LowerChar(c: char): char {
    if 'A' <= c <= 'Z' then (c as int + 32) as char else c
  }

  /** `s.toLowerCase()` on the ASCII letters. */
  function Lower(s: string): (r: string)
    ensures |r| == |s|
    ensures forall i :: 0 <= i < |s| ==> r[i] == LowerChar(s[i])
  {
    seq(|s|, i requires 0 <= i < |s| => LowerChar(s[i]))
  }

  /** `s || fallback` for a string `s`: the empty string is falsy. */
  function OrElse(s: string, fallback: string): (r: string)
    ensures r == (if s == "" then fallback else s)
  {
    if s == "" then fallback else s
  }
}

=== FILE: wrappers.dfy ===
/** Optional values, the model of JavaScript's `null` / `undefined`. */
module Wrappers {

  datatype Option<+T> = None | Some(value: T) {

    /** The value, or `default` when there is none (JavaScript's `?? default`). */
    function GetOr(default: T): T {
      match this
      case Some(v) => v
      case None => default
    }
  }
}
